=== FILE: README.md ===
# Matrix-EmailBridge core, modelled in Dafny

Matrix-EmailBridge is a Matrix bot that bridges a chat room to a mailbox.
Each room can hold one IMAP account, which brings new mail into the room, and one
SMTP account, which sends mail composed in the room. This project models the
bot's control logic from `main/Command.go` and `main/Main.go` and proves
properties about it:

- the chat commands (`!setup`, `!write`, `!setmailbox`, `!sethtml`,
  `!blocklist`, `!view`, `!logout`, `!leave`) and the `runCommand` dispatch
  table;
- the compose session of `writingEmail`: subject phase, body lines, file
  attachments, `!rm`, `!cancel`, `!send`;
- the mail listener: `startMailListener`'s loop, `fetchNewMails` and
  `reconnect` written as a sequential step function, with the check counter,
  the retry/login-error counters, the silence flag and the recorded mail
  identifiers;
- `handleMail`'s notification text, `getHostFromMatrixID`, the invite
  allow-list, the data-directory normalisation and message routing in
  `startMatrixSync`.

Files and modules:

| file | module | contents |
|---|---|---|
| strings.dfy | Optional, GoStrings | `Option`; the subset of Go's `strings` package the core uses (`ReplaceAll`, `Split`, `Cut`, `Trim*`, `Contains`, `ToLower`) and `len` in UTF-8 bytes, with their laws |
| conv.dfy | GoConv | `Itoa`, `Atoi` (int64 range) and `ParseBool` |
| accounts.dfy | Accounts | the room/account registry that the SQLite helpers maintain |
| setup.dfy | Setup | `!setup` |
| commands.dfy | Commands | argument parsing of the other commands and the dispatch table |
| compose.dfy | Compose | `writingEmail` |
| poll.dfy | Poll | the listener step, mail de-duplication, quit channels |
| notify.dfy | Notify | `handleMail` |
| matrix.dfy | Matrix | the `Main.go` helpers and message routing |
| bridge.dfy | Bridge | the state shared by all handlers, `runCommand` over it, the message handler |

The database, the IMAP/SMTP servers and the Matrix homeserver are not
modelled. Their results are inputs:
- `login` says whether an IMAP login succeeds;
- `Compose.Env` gives the clock, the markdown renderer and whether a send,
  a download or a temp-file write succeeds;
- `Poll.Fetch` is what a fetch returns;
- `Notify.HandleMail` takes the blocklist matcher, the HTML escaper and the
  markdown renderer as functions.

The store is an in-memory `Accounts.Registry` that never fails.

`runCommand` passes a handler only the text after the first space. Several
handlers then still index that text as if the command word were in it. The
model keeps this composition as written, and lemmas in `Bridge` show what it
does:
- `!write a@b.com` gives the usage reply;
- `!setmailbox Archive` gives the usage reply;
- `!blocklist add x@y.com` gives the usage reply.

## Model

| member | source | states |
|---|---|---|
| GoStrings.Split | main/Command.go:74 | `strings.Split` on one separator: one more part than separators, and no part holds the separator |
| GoStrings.JoinSplit | main/Command.go:571-576 | joining the parts of a split with the separator gives back the original text |
| GoStrings.Cut | main/Command.go:678 | `strings.Cut`: found iff the separator occurs; then the text is before + separator + after, and the part before holds no separator |
| GoStrings.CutFirst | main/Command.go:678 | a text starting with a separator-free word and the separator is cut exactly after that word |
| GoStrings.ReplaceAllRemoves | main/Command.go:84-86 | after replacing every occurrence of a pattern by a text that cannot recreate it, the pattern no longer occurs |
| GoStrings.ReplaceAllDrop | main/Command.go:84-86 | replacing a one-character pattern by nothing deletes exactly that character and keeps the others in order |
| GoStrings.ReplaceAllSplice | main/Command.go:582-585 | when no occurrence starts before a given one, ReplaceAll copies the text before it, replaces it, and goes on after it |
| GoStrings.ByteLen | main/Command.go:293 | Go's `len` of a string is at least its number of characters, and equal iff every character is ASCII |
| GoStrings.Trim | main/Command.go:73 | the trimmed text neither starts nor ends with the cut character, occurs inside the original, and is empty iff the original holds nothing else |
| GoStrings.TrimStrips | main/Command.go:73 | what Trim returns sits in the original between a run of the cut character on the left and one on the right |
| GoStrings.TrimPadded | main/Command.go:73 | a text that neither starts nor ends with the cut character, padded on both sides with it, trims back to exactly that text |
| GoConv.Atoi | main/Command.go:231 | a parsed port is an int64; the text after one optional sign is non-empty and all digits; a negative value needs a leading `-` |
| GoConv.AtoiItoa | main/Command.go:231 | every int64 printed in decimal parses back to itself |
| Accounts.BindImap | main/Command.go:137-164 | binding an inbox creates the room if needed, sets only that room's inbound account, and keeps usernames unique when the username was free |
| Accounts.BindSmtp | main/Command.go:208-247 | the same for the outbound account |
| Accounts.RemoveSmtp | main/Command.go:613 | the room loses its outbound account; no other room changes |
| Accounts.SaveMailbox | main/Command.go:376 | only the mailbox of the room's inbound account changes; its other fields, the outbound account, the interval and the HTML flag stay; other rooms are unchanged |
| Accounts.EnsureRoom | main/Command.go:202-215 | a room seen for the first time gets a row without accounts; a known room and every other room are left as they are |
| Accounts.SetHtml | main/Command.go:415 | only the room's HTML flag changes |
| Accounts.DeleteRoom | main/Main.go:131 | the room and both its accounts are gone; every other room is unchanged |
| Setup.NoSpaces | main/Command.go:84-86 | a field with `ReplaceAll(s, " ", "")` applied is the field with every space deleted and the other characters kept in order |
| Setup.NoSpacesKeeps | main/Command.go:84-91 | a field without spaces passes unchanged |
| Setup.IgnoreSSLField | main/Command.go:101-107 | ignoreSSL is true iff the flag field is the last field and parses as a true word; an unparsable value is false |
| Setup.ImapHost | main/Command.go:125-127 | the IMAP host always has a port: a host with `:` is kept, and a host without one reads back as that host and port `993` |
| Setup.SmtpEndpoint | main/Command.go:225-236 | no `:` gives port 587; otherwise the host is the text before the first `:` and the port is the parsed trimmed second segment, refused iff that is not a number |
| Setup.SetupImap | main/Command.go:100-177 | an existing inbox is refused, then a username in use, then a failed login, each with no change; otherwise the account built from the fields is bound and its listener started, so binding happens iff the login succeeds; the stored account has the defaults INBOX and `:993`, space-free credentials, and the ignoreSSL rule |
| Setup.SetupSmtp | main/Command.go:178-254 | an existing outbound account is refused, then a username in use, with no change; otherwise an account is bound iff the port parses, with "SMTP data saved" last; a port that is no number still leaves a new room's row without accounts; the inbox never changes |
| Setup.KindOf | main/Command.go:79-83 | only the exact words `imap` and `smtp` select a branch |
| Setup.KindCheck | main/Command.go:80-83 | the kind is refused outright iff its lower-case form is neither `imap` nor `smtp` |
| Setup.Setup | main/Command.go:71-259 | fewer than 4 or more than 6 fields is a syntax error with no change; a change needs an exact lowercase kind; other rooms are untouched; username uniqueness is kept; a started listener watches exactly the account built from the fields, for a new inbox that logged in |
| Setup.CapitalisedKind | main/Command.go:79-83 | `IMAP`, `Imap`, `SMTP`, `Smtp` and spellings with a dotted capital I (`İMAP`, `İmap`) pass the kind check without selecting a branch |
| Setup.SetupUpperCaseKind | main/Command.go:255-257 | so setup with such a kind answers "Not implemented yet!" and changes nothing |
| Setup.SetupSmtpAccount | main/Command.go:194-253 | the created outbound account: host/port from the endpoint rule, 587 with a notice when no port is given, ignoreSSL from a last fifth field; a port that is no number answers only that error and keeps the room row inserted before it |
| Setup.SetupTwiceRefused | main/Command.go:108-111 | after a successful IMAP setup a second one is refused with no change |
| Setup.SetupUsernameTaken | main/Command.go:112-122 | an IMAP username bridged elsewhere is refused with no change |
| Setup.SetupImapBinds | main/Command.go:124-176 | for a room without an inbox and a free username, a login that succeeds binds the account built from the fields and starts its listener, and one that fails answers the failure and changes nothing |
| Setup.SetupSmtpUsernameTaken | main/Command.go:183-192 | an SMTP username bound in any room is refused with no change |
| Setup.SetupPortErrorKeepsRoom | main/Command.go:202-234 | an SMTP setup with a port that is no number, in a new room, answers the port error and still leaves the room registered without accounts |
| Commands.Chunk | main/Command.go:284-288 | a kept token is appended with exactly one trailing comma: as it is when it already ends with one, else followed by `,` |
| Commands.Scan | main/Command.go:280-288 | one loop pass leaves the list unchanged iff the trimmed token is no address or already a substring of the list; otherwise it appends exactly that token's chunk |
| Commands.Collect | main/Command.go:278-289 | the built list is the starting text followed by the chunks of the kept tokens, and nothing else |
| Commands.Kept | main/Command.go:279-288 | every kept entry is one of the tokens, trimmed, and looks like an address |
| Commands.ChunksJoin | main/Command.go:284-290 | when no kept token ends with a comma, the list is the kept tokens joined by commas followed by one more comma |
| Commands.CollectCovers | main/Command.go:279-289 | every address-like token ends up as a substring of the list |
| Commands.CollectUnchanged | main/Command.go:279-289 | the loop adds nothing iff every address-like token is already covered |
| Commands.CollectFromEmpty | main/Command.go:278-290 | starting empty, the list stays empty iff no token looks like an address |
| Commands.ScannedReceiver | main/Command.go:277-291 | there is no receiver (the slice at line 290 would panic) iff no token looks like an address; otherwise the receiver followed by `,` is exactly the chunks of the kept tokens and covers every address-like token |
| Commands.SubstringDedup | main/Command.go:281 | an address that is a substring of one already kept is dropped although different |
| Commands.MarkdownFlag | main/Command.go:309-322 | only a parsable third token of exactly three overrides the configured default |
| Commands.Write | main/Command.go:261-341 | not logged in, no SMTP account, usage, and the panic each iff their condition, in source order; otherwise a session starts iff the receiver passes the final address test, the receiver being the second token with two tokens and the scanned receiver with more |
| Commands.Receivers | main/Command.go:274-293 | with two tokens the second one is the receiver; with more, the scanned receiver, or the panic iff no token looks like an address; the session starts iff that receiver passes the final address test, else "not an email" names it |
| Commands.SetHtmlArgument | main/Command.go:405-414 | usage iff not exactly two tokens; a mode only for true/on/false/off after lower-casing, on iff true/on |
| Commands.MailboxArgument | main/Command.go:373-375 | a mailbox iff the argument holds exactly one space; it is the text after that space |
| Commands.Blocklist | main/Command.go:447-498 | view iff two tokens with `view`/`list`, clear iff two with `clear`, usage for other short input; invalid iff the third token fails the address test; with a valid address, `add` always adds it, `remove`/`delete`/`rm` always remove it, and any other sub-command does nothing |
| Commands.LengthCountsBytes | main/Command.go:293 | the address length tests count UTF-8 bytes: a five-character address with one accented letter passes both the `!write` test and the `!blocklist` test of line 467 |
| Commands.View | main/Command.go:508-533 | each view iff the lower-cased argument is one of its aliases |
| Commands.TableEntries | main/Command.go:20-34 | `!write`, `!setmailbox` and `!blocklist` are in the table and name their own handlers |
| Commands.TableKeysOneWord | main/Command.go:20-34 | no command name holds a space |
| Commands.RunCommand | main/Command.go:676-686 | ignored iff no leading `!`; a found handler gets the text after the command word; not found only when no table word starts the message |
| Compose.Recipients | main/Command.go:571-576 | the To header rejoined with commas is the receiver text; one entry per comma plus one; no entry holds a comma |
| Compose.HtmlBody | main/Command.go:581-586 | the HTML part contains no CRLF |
| Compose.HtmlBodyKeepsSingleLine | main/Command.go:582-585 | a rendering without line breaks passes the post-processing unchanged |
| Compose.HtmlBodyHeadingCrlf | main/Command.go:582 | a CRLF right before a heading tag is removed and nothing else changes |
| Compose.HtmlBodyHeadingLf | main/Command.go:583 | a blank line of two LFs right before a heading tag is removed and nothing else changes |
| Compose.HtmlBodyTagBlank | main/Command.go:584 | a blank line of two LFs after a tag is removed when no heading follows |
| Compose.HtmlBodyLineBreak | main/Command.go:585 | any other CRLF becomes `<br>` |
| Compose.PlainAlternative | main/Command.go:588-590 | the plain alternative contains no `<br>` |
| Compose.PlainAlternativeJoin | main/Command.go:588-590 | lines joined by `<br>` come back joined by CRLF when no line holds a `<` |
| Compose.BuildEmail | main/Command.go:568-600 | sender, subject and receivers from the session; with markdown the HTML part is the post-processed rendering of the body and the plain part its alternative; without, no HTML part and the body verbatim; one file per attachment under the temp directory |
| Compose.AttachingReplies | main/Command.go:597-600 | one "Attaching file" line per attachment, in order |
| Compose.Send | main/Command.go:559-619 | no SMTP account gives error #52; otherwise the built message is dispatched after the attaching lines and "Sending...", the session always ends, and a failed send unbinds SMTP |
| Compose.SpaceAfterEach | main/Command.go:627-629 | the loop yields the tokens joined by single spaces plus one trailing space |
| Compose.RmFileNameOf | main/Command.go:624-631 | `!rm name` targets exactly `name` when it has no outer spaces |
| Compose.Without | main/Command.go:633 | exactly the other attachments remain |
| Compose.Remove | main/Command.go:624-640 | the room is told "Attachment deleted!"; exactly the attachments other than the named file remain, nothing else in the session changes, and naming a file that is not attached changes nothing |
| Compose.AppendLine | main/Command.go:642-647 | a body line ends with CRLF; a spaces-only body is replaced, any other is extended |
| Compose.AppendAllFromBlank | main/Command.go:642-647 | from a blank body, the body is exactly the lines sent, each ended by CRLF |
| Compose.StoredName | main/Command.go:660 | an upload is stored as its Unix time and its own name, separated by the first `_`, and both read back from the stored name |
| Compose.Attach | main/Command.go:654-670 | corrected: the download reads the url checked on line 655; the session gains exactly the stored name iff the url is mxc:// and download and write succeed; otherwise it is unchanged |
| Compose.AttachAsWritten | main/Command.go:654-656 | as written, an upload with an mxc:// url panics iff its body, the file name, is rejected by the content-URI parser |
| Compose.ContentUriOf | main/Command.go:656 | `mxc://`, a server name without `/`, `/` and a media id parse iff the media id is not empty |
| Compose.ContentUriAcceptsEmpty | main/Command.go:656 | the parser accepts the empty text and an empty server name, so those bodies do not panic |
| Compose.ContentUriNeedsMedia | main/Command.go:656 | a final `/` after the server name is rejected |
| Compose.ContentUriRejects | main/Command.go:656 | text without `/` after the scheme, or without the scheme, such as a file name, is rejected |
| Compose.UploadByNamePanics | main/Command.go:654-660 | an upload named `report.pdf` with a valid url panics as written, while the corrected attach stores it |
| Compose.SubjectPhase | main/Command.go:545-557 | a text message becomes the subject verbatim; any other type is refused with no change |
| Compose.BodyPhase | main/Command.go:558-673 | the session ends iff `!send` or `!cancel`; `!send` dispatches the built message and changes the registry iff the send fails, or answers #52 without SMTP; `!rm` removes the named attachment; other text appends a line and a file goes to the corrected Attach |
| Compose.SendUnbindsOnFailure | main/Command.go:608-616 | with an SMTP account, `!send` leaves the registry as it was iff the transfer succeeds |
| Compose.TrimBlank | main/Command.go:545 | the subject is unset iff trimming spaces leaves nothing |
| Compose.WritingEmail | main/Command.go:536-674 | while the subject is unset nothing is sent or ended and a text message becomes the subject, `!send` included; after it, `!send` dispatches the built message, `!rm` removes the named attachment and text appends a line; receiver and markdown never change |
| Compose.SubjectStep | main/Command.go:545-557 | a text message on an unset subject sets it |
| Compose.LineStep | main/Command.go:642-647 | the first body line on a blank body becomes the body |
| Compose.SendStep | main/Command.go:559-619 | `!send` of a plain session without attachments dispatches exactly that message and ends with "Sending...", "Message sent successfully" |
| Compose.ComposeAndSend | main/Command.go:545-619 | subject, one line, `!send`: the dialer gets the subject and that line with CRLF, and the session ends |
| Poll.MailId | main/Main.go:429 | the identifier is the subject followed by the Unix seconds, which read back with Atoi |
| Poll.Ids | main/Main.go:428-431 | every mail's identifier is in the set |
| Poll.IdsOnly | main/Main.go:428-431 | every identifier in the set belongs to one of the mails |
| Poll.Dedup | main/Main.go:428-439 | every identifier is recorded; notified mails come from the batch, are new, distinct, none when silent, and cover all new identifiers when not silent |
| Poll.Reconnect | main/Main.go:393-399 | the counter is 0 and everything else carries over |
| Poll.Step | main/Main.go:376-443 | 15 checks reconnect without fetching; otherwise one fetch and one more check; a code-0 failure with a record reconnects iff 10 retries are reached; the warning iff more than 15 login errors; silence is cleared except on a reconnect |
| Poll.RetryCounting | main/Main.go:405-421 | below 10 retries the count increments; at 10 it resets, counts a login error and reconnects |
| Poll.BatchesCount | main/Main.go:381-386 | each successful fetch below the limit counts exactly one check |
| Poll.FifteenChecksThenReconnect | main/Main.go:381-384 | after 15 fetches on a fresh connection the next step reconnects without fetching |
| Poll.FailuresCount | main/Main.go:407-416 | failures below both limits count one retry and one check each |
| Poll.TenRetriesThenReconnect | main/Main.go:412-418 | ten failures are retried; the eleventh counts a login error and reconnects |
| Poll.DedupAllSeen | main/Main.go:428-439 | a batch of recorded identifiers records and notifies nothing |
| Poll.RefetchNotifiesNothing | main/Main.go:428-442 | fetching the same batch twice notifies nothing the second time |
| Poll.Restart | main/Command.go:376-386 | a mailbox change purges the recorded mail and makes the listener silent |
| Poll.DedupOnlyLast | main/Main.go:428-439 | when only the last mail is new, it alone is notified |
| Poll.SilentCycleThenNotify | main/Main.go:428-442 | after a restart the first batch notifies nothing; a new mail in the next batch is notified |
| Poll.StopAsWritten | main/Main.go:302-308 | the channel is closed but its entry kept; a second stop is excluded by the precondition |
| Poll.DoubleStopPanics | main/Main.go:302-308 | after one stop of a running listener the channel is closed, so a second stop would close it again |
| Poll.Stop | main/Main.go:302-308 | corrected: the entry is removed, so no closed channel remains |
| Poll.StopTwice | main/Main.go:302-308 | with the corrected stop a second stop changes nothing |
| Poll.Start | main/Main.go:358-373 | the room gets a fresh open channel; others are kept |
| Notify.HandleMail | main/Main.go:445-471 | nothing iff the content is missing or some sender is blocked; otherwise the plain text is the header plus body, and the HTML variant iff HTML is on: the bold sender, the subject line, the separator and the rendered body, with nothing else |
| Notify.HtmlShowsSubject | main/Main.go:465 | the HTML variant carries `Subject: ` and the subject right after the bold sender line |
| Notify.AnyBlocked | main/Main.go:450-456 | true iff some sender is blocked |
| Notify.SenderLineReadsBack | main/Main.go:459 | the first line of the plain text is the lead followed by the sender |
| Matrix.HostFromMatrixId | main/Main.go:109-118 | code 0 iff no `:`, -1 iff exactly one (with the text after it), 1 iff more |
| Matrix.HostOfUserId | main/Main.go:109-118 | `user:server` yields `server` and -1 |
| Matrix.ListContains | main/Main.go:120-127 | found iff the list holds the string |
| Matrix.DecideInvite | main/Main.go:152-167 | join iff one `:` and an allowed server; leave iff one `:` and not allowed; nothing otherwise |
| Matrix.NormalizeDir | main/Main.go:248-255 | the result starts with `/` or `./` and ends with `/`; a normal path is kept; exactly `./` is added in front of a path with neither start and exactly `/` behind one without a final slash |
| Matrix.NormalizeIdempotent | main/Main.go:250-255 | normalising twice equals normalising once |
| Matrix.DataDir | main/Main.go:247-272 | no variable gives `./`; a set variable gives its normal form |
| Matrix.TempDir | main/Main.go:273 | the temp directory is the data prefix followed by exactly `temp/`, and is itself a normal directory |
| Matrix.RouteMessage | main/Main.go:176-196 | dropped iff own message, left room or older than the membership; otherwise compose iff a session is open |
| Bridge.SetupCmd | main/Command.go:71-259 | the registry and the answers are those of setup; a listener is started iff setup binds a new inbox, silent and on an open channel; sessions and blocked addresses stay, and no other room's entry, session, listener, channel or list changes |
| Bridge.SetupBindsOnlyWithListener | main/Command.go:124-177 | setup binds an inbox only on the path that starts its listener |
| Bridge.WriteCmd | main/Command.go:300-331 | a session for the receiver and flag is opened, replacing an old one, iff `!write` accepts; nothing but the room's session changes |
| Bridge.SetMailboxCmd | main/Command.go:364-394 | without an inbox, or without exactly two tokens, nothing changes; otherwise the registry is the one with the mailbox saved, recorded mail purged, the listener silent on a fresh channel; sessions and blocked addresses stay and other rooms are untouched |
| Bridge.SetHtmlCmd | main/Command.go:396-428 | with an inbox and a mode word, the only change is the room's HTML flag; anything else changes nothing |
| Bridge.BlocklistCmd | main/Command.go:440-499 | add puts exactly that address in the room's list, remove takes exactly it out, clear empties it; nothing but the room's list changes, and everything else changes nothing |
| Bridge.LogOut | main/Main.go:129-140 | the room, its channel, its listener and its blocked addresses are gone; every other room keeps its entry, session, listener, channel and list; `!leave` also leaves |
| Bridge.ViewCmd | main/Command.go:501-534 | the view chosen for a room with an inbox; no state change |
| Bridge.Invoked | main/Command.go:20-34 | every handler keeps other rooms' entries, sessions, listeners, channels and lists, and username uniqueness |
| Bridge.HandleCommand | main/Command.go:676-686 | a non-command changes nothing; an unknown command only answers "command not found!"; no command sends mail |
| Bridge.Routed | main/Command.go:678-681 | `name arg` reaches the named handler with `arg` |
| Bridge.DispatchArgument | main/Command.go:677-681 | runCommand dispatches `name arg` to the command with argument `arg` |
| Bridge.ComposeStep | main/Main.go:187-188 | the session is replaced, or removed when it ends; listeners, channels, lists and other rooms stay; mail is dispatched only by the session |
| Bridge.HandleMessage | main/Main.go:176-197 | dropped messages change nothing; other rooms keep their entries, sessions, listeners, channels and lists; uniqueness is kept; mail leaves only for `!send` in a composing room |
| Bridge.WriteWithAddressIsUsage | main/Command.go:274-336 | `!write a@b.com` answers with the usage text and opens nothing |
| Bridge.WriteTwoTokens | main/Command.go:274-293 | with two tokens the second is the receiver |
| Bridge.WriteWithFillerOpensSession | main/Command.go:274-331 | `!write x a@b.com` opens a session for `a@b.com` with the configured flag |
| Bridge.PortErrorThenWrite | main/Command.go:202-272 | after an SMTP setup whose port is no number in a new room, `!write` answers that an SMTP account is needed |
| Bridge.SetMailboxWithNameIsUsage | main/Command.go:373-390 | `!setmailbox Archive` answers with the usage text and changes nothing |
| Bridge.BlocklistAddIsUsage | main/Command.go:447-463 | `!blocklist add x@y.com` answers with the usage text and blocks nothing |
| Bridge.BlocklistTwoTokens | main/Command.go:447-463 | `add x@y.com` is two tokens, so the blocklist answers with its usage text |
| Bridge.LogoutTwice | main/Main.go:129-131 | with the corrected stop a second logout changes nothing |
| Bridge.ComposingShieldsCommands | main/Main.go:187-196 | while composing, `!logout` is session input: the room stays bound and the session stays open |

## Left out

- Matrix client calls (sending, joining, leaving, downloading, syncing) are network I/O. Replies are datatype values, not texts.
- IMAP and SMTP (`loginMail`, `getMails`, `getMailContent`, the gomail dialer) live in files that are not part of this model. Their outcomes are inputs.
- The SQLite helpers live in files that are not part of this model. The store is `Accounts.Registry` and the bridge state, and it never fails. The error replies #03, #24-#30, #34-#44 and #48-#56 are therefore not modelled.
- Concurrency is left out: goroutines, `time.Sleep`, the unguarded shared maps of `Main.go:310-313`, and the setup goroutines. Quit channels are a map from room to a closed flag.
- Poll.Step: the model resets the counter to 0 after a reconnect triggered inside `fetchNewMails`. In the source the old loop still increments the shared counter once (main/Main.go:386), racing with the new listener.
- Poll.Dedup: identifiers recorded earlier in the same batch count as recorded. The source records them with an asynchronous `go insertEmail` (main/Main.go:431), so a duplicate inside one batch may be notified twice.
- Bridge.LogOut: the room's listener record is dropped. The source keeps the room's `checksPerAccount` and `imapErrors` entries, so a later setup in the same room inherits them.
- Compose.BodyPhase, Compose.Content, Compose.WritingEmail and Bridge.ComposeStep pass uploads to the corrected Compose.Attach (see Findings). As written, an upload whose body is no content URI panics (Compose.AttachAsWritten).
- Bridge.LogOut and Bridge.SetMailboxCmd stop the listener with the corrected Poll.Stop (see Findings), which removes the channel entry. The source keeps the closed entry, so a second stop panics.
- GoStrings.Lower: maps A-Z, the dotted capital I (U+0130) and the Kelvin sign (U+212A), the only characters whose lower-case form is an ASCII letter, and keeps every other character. `strings.ToLower` maps other upper-case letters to non-ASCII lower-case letters; lower-cased text is only compared with ASCII words, where both give the same answer.
- `markdown.ToHTML`, `html.EscapeString` and the blocklist matcher (`checkForBlocklist`, with its wildcards) are function parameters.
- Compose.Attach: the download itself is an input. A url that starts with `mxc://` but is malformed counts as a failed download.
- Compose.ContentUri: `id.ParseContentURI` belongs to the Matrix client library, which is not part of this model. The predicate states what it accepts: the empty text, or `mxc://` followed by text whose first `/` is not its last character. It does not model the parsed server name and media id. An empty body does not panic as written; whether its download then succeeds is an input.
- Compose.Remove: `deleteAttachment` lives in a file that is not part of this model and is taken never to fail. A name that is not attached is answered "Attachment deleted!" with no change.
- `streamToTempFile`, `os.Remove` of a deleted attachment, and `deleteTempFile` are file I/O.
- `!help`, `!login`, `!ping` and `!check` only answer with texts, room information or an immediate mail check. They are a `Static` answer.
- The texts of `!blocklist view`, the `!view` pages and the clear/add/remove success or failure messages are not modelled.
- The blocklist is stored per room. The source stores it per IMAP account, and a room has at most one. Logout deletes that account, so the model drops the room's list.
- The membership event handler's `logOut` on a leave event (main/Main.go:169-172) is `Bridge.LogOut` with `leave` set; the event plumbing around it is not modelled.
- Startup (`main`, `initDB`, `initCfg`, `loginMatrix`, `startMailSchedeuler`, `deleteAllWritingTemps`) and the idle loop are left out. Only the data-directory computation is modelled.
- Configuration values (`markdownEnabledByDefault`, `defaultmailCheckInterval`, `allowed_servers`) are parameters.

## Findings

| source | as written | input that shows it | evidently intended | confidence | as-written member | corrected member |
|---|---|---|---|---|---|---|
| main/Command.go:654-656 | the download parses the message body, which is the uploaded file's name, with `MustParseContentURI`; the url checked on line 655 is never used | uploading `report.pdf` with url `mxc://example.org/abc`: the name is no content URI, so the handler panics | parse the url that line 655 checks | not executed | Compose.AttachAsWritten (Compose.UploadByNamePanics) | Compose.Attach (Compose.UploadByNamePanics) |
| main/Main.go:302-308 | `stopMailChecker` closes the room's quit channel but never removes the map entry; the delete at line 306 is commented out | `!logout` twice in a row in a bridged room: the second call closes the already closed channel, which is a run-time panic in Go | remove the entry after closing, so a second stop finds nothing to close | not executed | Poll.StopAsWritten (Poll.DoubleStopPanics) | Poll.Stop (Poll.StopTwice, Bridge.LogoutTwice) |

=== FILE: accounts.dfy ===
/**
  The room/account registry that the bridge keeps in its SQLite store: each
  bridged room has at most one IMAP (inbound) and at most one SMTP
  (outbound) account. The store itself is not modelled; it is a map.
 */
module Accounts {
  import opened Optional

  /** A Matrix room identifier, e.g. "!abc:example.org". */
  type RoomId = string

  datatype ImapAccount = ImapAccount(
    host: string,
    username: string,
    password: string,
    mailbox: string,
    ignoreSSL: bool)

  datatype SmtpAccount = SmtpAccount(
    host: string,
    port: int,
    username: string,
    password: string,
    ignoreSSL: bool)

  /** A bridged room: its two optional accounts, its mail check interval (seconds) and HTML flag. */
  datatype Room = Room(
    inbound: Option<ImapAccount>,
    outbound: Option<SmtpAccount>,
    interval: int,
    html: bool)

  type Registry = map<RoomId, Room>

  predicate HasImap(reg: Registry, room: RoomId) {
    room in reg && reg[room].inbound.Some?
  }

  predicate HasSmtp(reg: Registry, room: RoomId) {
    room in reg && reg[room].outbound.Some?
  }

  /** isImapAccountAlreadyInUse: some room is bridged to an IMAP account with this username. */
  predicate ImapUsernameInUse(reg: Registry, username: string) {
    exists other :: other in reg && reg[other].inbound.Some? && reg[other].inbound.value.username == username
  }

  /** isSMTPAccountAlreadyInUse: some room sends through an SMTP account with this username. */
  predicate SmtpUsernameInUse(reg: Registry, username: string) {
    exists other :: other in reg && reg[other].outbound.Some? && reg[other].outbound.value.username == username
  }

  /** No inbox and no outbound account is bridged to two rooms. */
  ghost predicate UniqueUsernames(reg: Registry) {
    && (forall a, b :: HasImap(reg, a) && HasImap(reg, b) && a != b ==>
          reg[a].inbound.value.username != reg[b].inbound.value.username)
    && (forall a, b :: HasSmtp(reg, a) && HasSmtp(reg, b) && a != b ==>
          reg[a].outbound.value.username != reg[b].outbound.value.username)
  }

  /** The row insertNewRoom creates on a room's first successful setup. */
  function NewRoom(interval: int): Room {
    Room(None, None, interval, false)
  }

  /** hasRoom / insertNewRoom / getRoomPKID: the room's row, created when missing. */
  function RoomOf(reg: Registry, room: RoomId, interval: int): Room {
    if room in reg then reg[room] else NewRoom(interval)
  }

  /**
    hasRoom / insertNewRoom on its own: a room seen for the first time gets
    a row without accounts, a known room is left as it is.
   */
  function EnsureRoom(reg: Registry, room: RoomId, interval: int): (r: Registry)
    ensures room in r && r.Keys == reg.Keys + {room}
    ensures room in reg ==> r == reg
    ensures room !in reg ==> !HasImap(r, room) && !HasSmtp(r, room) && r[room].interval == interval
    ensures forall other :: other in reg ==> other in r && r[other] == reg[other]
    ensures UniqueUsernames(reg) ==> UniqueUsernames(r)
  {
    reg[room := RoomOf(reg, room, interval)]
  }

  /** insertimapAccount + saveImapAcc: bind an inbox to a room that has none. */
  function BindImap(reg: Registry, room: RoomId, account: ImapAccount, interval: int): (r: Registry)
    requires !HasImap(reg, room)
    ensures HasImap(r, room) && r[room].inbound == Some(account)
    ensures room in reg ==> r[room] == reg[room].(inbound := Some(account))
    ensures r.Keys == reg.Keys + {room}
    ensures forall other :: other in reg && other != room ==> r[other] == reg[other]
    ensures UniqueUsernames(reg) && !ImapUsernameInUse(reg, account.username) ==> UniqueUsernames(r)
  {
    reg[room := RoomOf(reg, room, interval).(inbound := Some(account))]
  }

  /** insertSMTPAccount + saveSMTPAcc: bind an outbound account to a room that has none. */
  function BindSmtp(reg: Registry, room: RoomId, account: SmtpAccount, interval: int): (r: Registry)
    requires !HasSmtp(reg, room)
    ensures HasSmtp(r, room) && r[room].outbound == Some(account)
    ensures room in reg ==> r[room] == reg[room].(outbound := Some(account))
    ensures r.Keys == reg.Keys + {room}
    ensures forall other :: other in reg && other != room ==> r[other] == reg[other]
    ensures UniqueUsernames(reg) && !SmtpUsernameInUse(reg, account.username) ==> UniqueUsernames(r)
  {
    reg[room := RoomOf(reg, room, interval).(outbound := Some(account))]
  }

  /** removeSMTPAccount: the room loses its outbound account and keeps everything else. */
  function RemoveSmtp(reg: Registry, room: RoomId): (r: Registry)
    ensures !HasSmtp(r, room)
    ensures r.Keys == reg.Keys
    ensures room in reg ==> r[room] == reg[room].(outbound := None)
    ensures forall other :: other in reg && other != room ==> r[other] == reg[other]
    ensures UniqueUsernames(reg) ==> UniqueUsernames(r)
  {
    if room in reg then reg[room := reg[room].(outbound := None)] else reg
  }

  /** saveMailbox: the room's inbox now reads `mailbox`. */
  function SaveMailbox(reg: Registry, room: RoomId, mailbox: string): (r: Registry)
    requires HasImap(reg, room)
    ensures HasImap(r, room) && r[room].inbound.value == reg[room].inbound.value.(mailbox := mailbox)
    ensures r.Keys == reg.Keys
    ensures r[room].outbound == reg[room].outbound && r[room].interval == reg[room].interval && r[room].html == reg[room].html
    ensures forall other :: other in reg && other != room ==> r[other] == reg[other]
    ensures UniqueUsernames(reg) ==> UniqueUsernames(r)
  {
    reg[room := reg[room].(inbound := Some(reg[room].inbound.value.(mailbox := mailbox)))]
  }

  /** setHTMLenabled: the room's HTML rendering flag. */
  function SetHtml(reg: Registry, room: RoomId, on: bool): (r: Registry)
    requires room in reg
    ensures room in r && r[room] == reg[room].(html := on)
    ensures r.Keys == reg.Keys
    ensures forall other :: other in reg && other != room ==> r[other] == reg[other]
    ensures UniqueUsernames(reg) ==> UniqueUsernames(r)
  {
    reg[room := reg[room].(html := on)]
  }

  /** deleteRoomAndEmailByRoomID: the room and both its bindings are gone. */
  function DeleteRoom(reg: Registry, room: RoomId): (r: Registry)
    ensures room !in r && !HasImap(r, room) && !HasSmtp(r, room)
    ensures r.Keys == reg.Keys - {room}
    ensures forall other :: other in r ==> r[other] == reg[other]
    ensures UniqueUsernames(reg) ==> UniqueUsernames(r)
  {
    reg - {room}
  }
}

=== FILE: bridge.dfy ===
/**
  The bridge as a whole: the state the handlers share, the message handler
  of startMatrixSync, runCommand with every command of the table, and the
  compose session. Each handler receives what runCommand hands it: the text
  after the first space.
 */
module Bridge {
  import opened Optional
  import opened GoStrings
  import opened Accounts
  import Setup
  import Commands
  import Compose
  import Poll
  import Matrix

  /** Configuration read at start: the markdown default of `!write` and the mail check interval of new rooms. */
  datatype Config = Config(markdownDefault: bool, interval: int)

  /**
    The bridge state: the registry, the open compose sessions, each room's
    listener state and quit channel, and each room's blocked addresses.
   */
  datatype State = State(
    registry: Registry,
    sessions: map<RoomId, Compose.Session>,
    listeners: map<RoomId, Poll.Listener>,
    channels: Poll.Channels,
    blocklist: map<RoomId, set<string>>)

  /** What the bridge answers in the room, per handler. */
  datatype Answer =
    | Unknown
    | Static(command: Commands.Command)
    | SetupAnswer(setupReplies: seq<Setup.Reply>)
    | WriteAnswer(result: Commands.WriteResult)
    | ComposeAnswer(composeReplies: seq<Compose.Reply>)
    | NeedImap
    | MailboxUpdated
    | MailboxUsage
    | HtmlAnswer(argument: Commands.HtmlArgument)
    | BlocklistAnswer(action: Commands.BlocklistAction)
    | ViewAnswer(target: Commands.ViewTarget)
    | LoggedOut
    | Unbridged

  /** The state after a message, the answers, whether the bot left the room, and any message handed to the SMTP dialer. */
  datatype Result = Result(state: State, answers: seq<Answer>, left: bool, dispatched: Option<Compose.Email>)

  /** Rooms other than `room` keep their registry entries. */
  ghost predicate Frame(before: Registry, after: Registry, room: RoomId) {
    forall other :: other != room && other in before ==> other in after && after[other] == before[other]
  }

  /** Outside `room` a map is the same: the same rooms, with the same values. */
  ghost predicate SameOutside<V>(before: map<RoomId, V>, after: map<RoomId, V>, room: RoomId) {
    forall other :: other != room ==> (other in before <==> other in after) && (other in before ==> after[other] == before[other])
  }

  /** Rooms other than `room` keep their registry entry, compose session, listener, quit channel and blocked addresses. */
  ghost predicate OthersKept(before: State, after: State, room: RoomId) {
    && SameOutside(before.registry, after.registry, room)
    && SameOutside(before.sessions, after.sessions, room)
    && SameOutside(before.listeners, after.listeners, room)
    && SameOutside(before.channels, after.channels, room)
    && SameOutside(before.blocklist, after.blocklist, room)
  }

  /** The room's blocked addresses; none before the first `!blocklist add`. */
  function Blocked(st: State, room: RoomId): set<string> {
    if room in st.blocklist then st.blocklist[room] else {}
  }

  /** The registry invariant carries over. */
  ghost predicate KeepsUnique(before: Registry, after: Registry) {
    UniqueUsernames(before) ==> UniqueUsernames(after)
  }

  /** The state of a listener startMailListener starts: no counter yet, no errors, silent, nothing recorded. */
  const FreshListener: Poll.Listener := Poll.Listener(None, None, true, {})

  function Say(st: State, a: Answer): (r: Result)
    ensures r.state == st && r.answers == [a] && !r.left && r.dispatched.None?
  {
    Result(st, [a], false, None)
  }

  // ------------------------------------------------------------- handlers

  /** `!setup`: the registry change of Setup.Setup; a new inbox also gets a running, silent listener. */
  function SetupCmd(st: State, cfg: Config, room: RoomId, message: string, login: ImapAccount -> bool): (r: Result)
    ensures Frame(st.registry, r.state.registry, room) && KeepsUnique(st.registry, r.state.registry)
    ensures OthersKept(st, r.state, room)
    ensures r.state.sessions == st.sessions && r.state.blocklist == st.blocklist
    ensures var o := Setup.Setup(st.registry, room, message, cfg.interval, login);
      r.state.registry == o.registry && r.answers == [SetupAnswer(o.replies)]
    ensures Setup.Setup(st.registry, room, message, cfg.interval, login).listener.Some? <==>
      HasImap(r.state.registry, room) && !HasImap(st.registry, room)
    ensures HasImap(r.state.registry, room) && !HasImap(st.registry, room) ==>
      room in r.state.listeners && r.state.listeners[room].silence && room in r.state.channels && !r.state.channels[room]
  {
    var o := Setup.Setup(st.registry, room, message, cfg.interval, login);
    var st' := st.(registry := o.registry);
    SetupSameOutside(st.registry, room, message, cfg.interval, login);
    if o.listener.Some? then
      StartSameOutside(st, room);
      Result(st'.(listeners := st.listeners[room := FreshListener], channels := Poll.Start(st.channels, room)), [SetupAnswer(o.replies)], false, None)
    else
      assert !HasImap(st.registry, room) ==> !HasImap(o.registry, room) by {
        if !HasImap(st.registry, room) && HasImap(o.registry, room) {
          SetupBindsOnlyWithListener(st.registry, room, message, cfg.interval, login);
        }
      }
      Result(st', [SetupAnswer(o.replies)], false, None)
  }

  /** Setup changes no other room's registry entry. */
  lemma SetupSameOutside(reg: Registry, room: RoomId, message: string, interval: int, login: ImapAccount -> bool)
    ensures SameOutside(reg, Setup.Setup(reg, room, message, interval, login).registry, room)
  {
  }

  /** Starting the room's listener touches no other room's listener or channel. */
  lemma StartSameOutside(st: State, room: RoomId)
    ensures SameOutside(st.listeners, st.listeners[room := FreshListener], room)
    ensures SameOutside(st.channels, Poll.Start(st.channels, room), room)
  {
  }

  /** Setup binds an inbox only on the path that starts a listener. */
  lemma SetupBindsOnlyWithListener(reg: Registry, room: RoomId, message: string, interval: int, login: ImapAccount -> bool)
    requires !HasImap(reg, room)
    ensures HasImap(Setup.Setup(reg, room, message, interval, login).registry, room) ==> Setup.Setup(reg, room, message, interval, login).listener.Some?
  {
    var f := Setup.Fields(message);
    if 4 <= |f| <= 6 && f[0] == "imap" {
      var o := Setup.SetupImap(reg, room, f, interval, login);
      assert o.registry != reg <==> o.listener.Some?;
    }
  }

  /** `!write`: a session is opened exactly when the receivers are accepted. */
  function WriteCmd(st: State, cfg: Config, room: RoomId, message: string): (r: Result)
    ensures r.state == st.(sessions := r.state.sessions)
    ensures OthersKept(st, r.state, room)
    ensures var w := Commands.Write(room in st.registry, HasSmtp(st.registry, room), message, cfg.markdownDefault);
      r.answers == [WriteAnswer(w)] &&
      (w.StartCompose? ==> r.state.sessions == st.sessions[room := Compose.NewSession(w.receiver, w.markdown)]) &&
      (!w.StartCompose? ==> r.state.sessions == st.sessions)
  {
    var w := Commands.Write(room in st.registry, HasSmtp(st.registry, room), message, cfg.markdownDefault);
    if w.StartCompose? then
      Result(st.(sessions := st.sessions[room := Compose.NewSession(w.receiver, w.markdown)]), [WriteAnswer(w)], false, None)
    else Say(st, WriteAnswer(w))
  }

  /**
    `!setmailbox`: with an inbox and a two-token argument the mailbox is
    saved, the recorded mail purged, and the listener restarted silent on
    a new channel. The old channel is closed with the corrected Poll.Stop,
    which drops its entry; the source keeps the closed entry.
   */
  function SetMailboxCmd(st: State, room: RoomId, message: string): (r: Result)
    ensures Frame(st.registry, r.state.registry, room) && KeepsUnique(st.registry, r.state.registry)
    ensures OthersKept(st, r.state, room)
    ensures r.state.sessions == st.sessions && r.state.blocklist == st.blocklist
    ensures !HasImap(st.registry, room) ==> r == Say(st, NeedImap)
    ensures HasImap(st.registry, room) && Commands.MailboxArgument(message).None? ==> r == Say(st, MailboxUsage)
    ensures HasImap(st.registry, room) && Commands.MailboxArgument(message).Some? ==>
      && r.answers == [MailboxUpdated]
      && r.state.registry == SaveMailbox(st.registry, room, Commands.MailboxArgument(message).value)
      && HasImap(r.state.registry, room)
      && r.state.registry[room].inbound.value.mailbox == Commands.MailboxArgument(message).value
      && room in r.state.listeners && r.state.listeners[room].seen == {} && r.state.listeners[room].silence
      && room in r.state.channels && !r.state.channels[room]
  {
    if !HasImap(st.registry, room) then Say(st, NeedImap)
    else
      match Commands.MailboxArgument(message)
      case None => Say(st, MailboxUsage)
      case Some(mailbox) =>
        var l := if room in st.listeners then st.listeners[room] else FreshListener;
        var st' := st.(
          registry := SaveMailbox(st.registry, room, mailbox),
          listeners := st.listeners[room := Poll.Restart(l)],
          channels := Poll.Start(Poll.Stop(st.channels, room), room));
        Result(st', [MailboxUpdated], false, None)
  }

  /** `!sethtml`: only a room with an inbox, and only one of the four mode words, changes the flag. */
  function SetHtmlCmd(st: State, room: RoomId, message: string): (r: Result)
    ensures Frame(st.registry, r.state.registry, room) && KeepsUnique(st.registry, r.state.registry)
    ensures OthersKept(st, r.state, room)
    ensures r.state.sessions == st.sessions
    ensures !HasImap(st.registry, room) ==> r == Say(st, NeedImap)
    ensures HasImap(st.registry, room) ==> r.answers == [HtmlAnswer(Commands.SetHtmlArgument(message))]
    ensures HasImap(st.registry, room) && Commands.SetHtmlArgument(message).HtmlMode? ==>
      room in r.state.registry && r.state.registry[room] == st.registry[room].(html := Commands.SetHtmlArgument(message).on)
    ensures HasImap(st.registry, room) && Commands.SetHtmlArgument(message).HtmlMode? ==>
      r.state == st.(registry := SetHtml(st.registry, room, Commands.SetHtmlArgument(message).on))
    ensures !Commands.SetHtmlArgument(message).HtmlMode? ==> r.state == st
  {
    if !HasImap(st.registry, room) then Say(st, NeedImap)
    else
      var a := Commands.SetHtmlArgument(message);
      if a.HtmlMode? then Result(st.(registry := SetHtml(st.registry, room, a.on)), [HtmlAnswer(a)], false, None)
      else Say(st, HtmlAnswer(a))
  }

  /** `!blocklist`: add, remove or clear the room's blocked addresses; everything else only answers. */
  function BlocklistCmd(st: State, room: RoomId, message: string): (r: Result)
    ensures r.state == st.(blocklist := r.state.blocklist)
    ensures OthersKept(st, r.state, room)
    ensures !HasImap(st.registry, room) ==> r == Say(st, NeedImap)
    ensures HasImap(st.registry, room) ==> r.answers == [BlocklistAnswer(Commands.Blocklist(message))]
    ensures var a := Commands.Blocklist(message);
      HasImap(st.registry, room) && a.BlAdd? ==> r.state.blocklist == st.blocklist[room := Blocked(st, room) + {a.address}]
    ensures var a := Commands.Blocklist(message);
      HasImap(st.registry, room) && a.BlRemove? ==> r.state.blocklist == st.blocklist[room := Blocked(st, room) - {a.address}]
    ensures var a := Commands.Blocklist(message);
      HasImap(st.registry, room) && a.BlAdd? ==> room in r.state.blocklist && a.address in r.state.blocklist[room]
    ensures var a := Commands.Blocklist(message);
      HasImap(st.registry, room) && a.BlRemove? ==> room in r.state.blocklist && a.address !in r.state.blocklist[room]
    ensures var a := Commands.Blocklist(message);
      HasImap(st.registry, room) && a == Commands.BlClear ==> room in r.state.blocklist && r.state.blocklist[room] == {}
    ensures var a := Commands.Blocklist(message);
      !(a.BlAdd? || a.BlRemove? || a == Commands.BlClear) ==> r.state == st
  {
    if !HasImap(st.registry, room) then Say(st, NeedImap)
    else
      var a := Commands.Blocklist(message);
      var entries := Blocked(st, room);
      match a
      case BlAdd(addr) => Result(st.(blocklist := st.blocklist[room := entries + {addr}]), [BlocklistAnswer(a)], false, None)
      case BlRemove(addr) => Result(st.(blocklist := st.blocklist[room := entries - {addr}]), [BlocklistAnswer(a)], false, None)
      case BlClear => Result(st.(blocklist := st.blocklist[room := {}]), [BlocklistAnswer(a)], false, None)
      case _ => Say(st, BlocklistAnswer(a))
  }

  /**
    logOut: the listener is stopped and the room with both accounts
    deleted; `!leave` also leaves the room. The stop is the corrected
    Poll.Stop, which removes the room's channel entry; the source keeps the
    closed entry (Poll.StopAsWritten). The blocked addresses belong to the
    deleted inbox, so a later setup starts with none.
   */
  function LogOut(st: State, room: RoomId, leave: bool): (r: Result)
    ensures Frame(st.registry, r.state.registry, room) && KeepsUnique(st.registry, r.state.registry)
    ensures OthersKept(st, r.state, room)
    ensures room !in r.state.registry && room !in r.state.channels && room !in r.state.listeners
    ensures room !in r.state.blocklist
    ensures forall other :: other != room && other in st.blocklist ==> other in r.state.blocklist && r.state.blocklist[other] == st.blocklist[other]
    ensures r.state.sessions == st.sessions
    ensures r.left == leave
  {
    var st' := st.(
      registry := DeleteRoom(st.registry, room),
      channels := Poll.Stop(st.channels, room),
      listeners := st.listeners - {room},
      blocklist := st.blocklist - {room});
    Result(st', [if leave then Unbridged else LoggedOut], leave, None)
  }

  /** `!view`: which view, for a room with an inbox. */
  function ViewCmd(st: State, room: RoomId, message: string): (r: Result)
    ensures r.state == st
    ensures !HasImap(st.registry, room) ==> r.answers == [NeedImap]
    ensures HasImap(st.registry, room) ==> r.answers == [ViewAnswer(Commands.View(message))]
  {
    if !HasImap(st.registry, room) then Say(st, NeedImap) else Say(st, ViewAnswer(Commands.View(message)))
  }

  // ------------------------------------------------------------ dispatch

  /** The handler a table entry names, given the text after the command word. */
  function Invoked(st: State, cfg: Config, room: RoomId, cmd: Commands.Command, arg: string, login: ImapAccount -> bool): (r: Result)
    ensures Frame(st.registry, r.state.registry, room) && KeepsUnique(st.registry, r.state.registry)
    ensures OthersKept(st, r.state, room)
    ensures r.dispatched.None?
  {
    match cmd
    case SetupCmd => SetupCmd(st, cfg, room, arg, login)
    case WriteCmd => WriteCmd(st, cfg, room, arg)
    case SetMailbox => SetMailboxCmd(st, room, arg)
    case SetHtml => SetHtmlCmd(st, room, arg)
    case BlocklistCmd => BlocklistCmd(st, room, arg)
    case ViewCmd => ViewCmd(st, room, arg)
    case Logout => LogOut(st, room, false)
    case Leave => LogOut(st, room, true)
    case _ => Say(st, Static(cmd))
  }

  /** runCommand over the whole table. */
  function HandleCommand(st: State, cfg: Config, room: RoomId, message: string, login: ImapAccount -> bool): (r: Result)
    ensures Frame(st.registry, r.state.registry, room) && KeepsUnique(st.registry, r.state.registry)
    ensures OthersKept(st, r.state, room)
    ensures r.dispatched.None?
    ensures Commands.RunCommand(message) == Commands.Ignored ==> r.state == st && r.answers == []
    ensures Commands.RunCommand(message) == Commands.NotFound ==> r == Say(st, Unknown)
  {
    match Commands.RunCommand(message)
    case Ignored => Result(st, [], false, None)
    case NotFound => Say(st, Unknown)
    case Invoke(cmd, arg) => Invoked(st, cfg, room, cmd, arg, login)
  }

  /** A message "<command> <argument>" reaches the command's handler with the argument. */
  lemma Routed(st: State, cfg: Config, room: RoomId, name: string, cmd: Commands.Command, arg: string, login: ImapAccount -> bool)
    requires name in Commands.Table && Commands.Table[name] == cmd && ' ' !in name && HasPrefix(name, "!")
    ensures HandleCommand(st, cfg, room, name + " " + arg, login) == Invoked(st, cfg, room, cmd, arg, login)
  {
    DispatchArgument(name, cmd, arg);
  }

  /** writingEmail on the room's session; a deleted session leaves the map. */
  function ComposeStep(st: State, room: RoomId, evt: Compose.Event, env: Compose.Env): (r: Result)
    requires room in st.sessions
    ensures Frame(st.registry, r.state.registry, room) && KeepsUnique(st.registry, r.state.registry)
    ensures OthersKept(st, r.state, room)
    ensures r.state.listeners == st.listeners && r.state.channels == st.channels && r.state.blocklist == st.blocklist
    ensures var o := Compose.WritingEmail(st.registry, room, st.sessions[room], evt, env);
      r.dispatched == o.dispatched && r.answers == [ComposeAnswer(o.replies)] &&
      (o.session.None? ==> r.state.sessions == st.sessions - {room}) &&
      (o.session.Some? ==> r.state.sessions == st.sessions[room := o.session.value])
  {
    var o := Compose.WritingEmail(st.registry, room, st.sessions[room], evt, env);
    var sessions := if o.session.Some? then st.sessions[room := o.session.value] else st.sessions - {room};
    UnbindSameOutside(st.registry, o.registry, room);
    SessionSameOutside(st.sessions, o.session, room);
    Result(st.(registry := o.registry, sessions := sessions), [ComposeAnswer(o.replies)], false, o.dispatched)
  }

  /** A send that fails unbinds only the room's own SMTP account. */
  lemma UnbindSameOutside(reg: Registry, after: Registry, room: RoomId)
    requires after == reg || after == RemoveSmtp(reg, room)
    ensures SameOutside(reg, after, room) && KeepsUnique(reg, after)
  {
  }

  /** Updating or ending the room's session leaves the other sessions alone. */
  lemma SessionSameOutside(sessions: map<RoomId, Compose.Session>, next: Option<Compose.Session>, room: RoomId)
    ensures SameOutside(sessions, if next.Some? then sessions[room := next.value] else sessions - {room}, room)
  {
  }

  /**
    The message handler of startMatrixSync: dropped, handed to the compose
    session of the room, or run as a command.
   */
  function HandleMessage(st: State, cfg: Config, room: RoomId, sender: string, self: string,
                         membership: Matrix.Membership, memberSince: int, sent: int,
                         evt: Compose.Event, env: Compose.Env, login: ImapAccount -> bool): (r: Result)
    ensures Frame(st.registry, r.state.registry, room) && KeepsUnique(st.registry, r.state.registry)
    ensures OthersKept(st, r.state, room)
    ensures Matrix.RouteMessage(sender, self, membership, memberSince, sent, room in st.sessions) == Matrix.Drop ==> r.state == st && r.answers == []
    ensures r.dispatched.Some? ==> room in st.sessions && evt.body == "!send"
  {
    match Matrix.RouteMessage(sender, self, membership, memberSince, sent, room in st.sessions)
    case Drop => Result(st, [], false, None)
    case ToCompose => ComposeStep(st, room, evt, env)
    case ToCommands => HandleCommand(st, cfg, room, evt.body, login)
  }

  // ------------------------------------------------- what dispatch passes

  /** runCommand hands a one-word command's handler the text after the first space. */
  lemma DispatchArgument(name: string, cmd: Commands.Command, arg: string)
    requires name in Commands.Table && Commands.Table[name] == cmd && ' ' !in name && HasPrefix(name, "!")
    ensures Commands.RunCommand(name + " " + arg) == Commands.Invoke(cmd, arg)
  {
    var s := name + " " + arg;
    assert s[..1] == name[..1];
    assert HasPrefix(s, name + [' ']) by {
      assert s[..|name| + 1] == name + [' '];
    }
    CutFirst(s, name, ' ');
    var c := Cut(s, ' ');
    assert s == name + [' '] + arg;
    assert c.0 + [' '] + c.1 == name + [' '] + arg;
    assert c.1 == s[|name| + 1..];
  }

  /** A string without spaces splits into itself alone. */
  lemma OneWord(w: string)
    requires ' ' !in w
    ensures Split(w, ' ') == [w]
  {
    SplitNoSep(w, ' ');
  }

  /** Two space-free words split into exactly those two. */
  lemma TwoWords(a: string, b: string)
    requires ' ' !in a && ' ' !in b
    ensures Split(a + " " + b, ' ') == [a, b]
  {
    assert a + " " + b == a + [' '] + b;
    SplitAtFirst(a, ' ', b);
    SplitNoSep(b, ' ');
  }

  /**
    "!write a@b.com" in a room that can send answers with the usage text
    and opens no session: the handler receives "a@b.com", which is one
    token, while it expects the address as its second token.
   */
  lemma WriteWithAddressIsUsage(st: State, cfg: Config, room: RoomId, address: string, login: ImapAccount -> bool)
    requires room in st.registry && HasSmtp(st.registry, room) && ' ' !in address
    ensures var r := HandleCommand(st, cfg, room, "!write" + " " + address, login);
      r.answers == [WriteAnswer(Commands.WriteUsage)] && r.state == st
  {
    Commands.TableEntries();
    Routed(st, cfg, room, "!write", Commands.WriteCmd, address, login);
    OneWord(address);
    assert Invoked(st, cfg, room, Commands.WriteCmd, address, login) == WriteCmd(st, cfg, room, address);
  }

  /** With any word in between, "!write x a@b.com" opens a session for a@b.com with the configured markdown default. */
  lemma WriteWithFillerOpensSession(st: State, cfg: Config, room: RoomId, filler: string, address: string, login: ImapAccount -> bool)
    requires room in st.registry && HasSmtp(st.registry, room)
    requires ' ' !in filler && ' ' !in address && Commands.AcceptableReceiver(address)
    ensures var r := HandleCommand(st, cfg, room, "!write" + " " + (filler + " " + address), login);
      room in r.state.sessions && r.state.sessions[room] == Compose.NewSession(address, cfg.markdownDefault)
  {
    Commands.TableEntries();
    Routed(st, cfg, room, "!write", Commands.WriteCmd, filler + " " + address, login);
    WriteTwoTokens(filler, address, cfg.markdownDefault);
    assert Invoked(st, cfg, room, Commands.WriteCmd, filler + " " + address, login) == WriteCmd(st, cfg, room, filler + " " + address);
  }

  /** `!write`'s handler with two tokens takes the second as the receiver. */
  lemma WriteTwoTokens(filler: string, address: string, markdownDefault: bool)
    requires ' ' !in filler && ' ' !in address && Commands.AcceptableReceiver(address)
    ensures Commands.Write(true, true, filler + " " + address, markdownDefault) == Commands.StartCompose(address, markdownDefault)
  {
    TwoWords(filler, address);
    TrimWithout(address, ' ');
  }

  /**
    An SMTP setup whose port is no number, in a room seen for the first
    time, registers the room anyway: a following `!write` is told to set up
    an SMTP account instead of being told to log in.
   */
  lemma PortErrorThenWrite(st: State, cfg: Config, room: RoomId, message: string, write: string, login: ImapAccount -> bool)
    requires var f := Setup.Fields(message); 4 <= |f| <= 6 && f[0] == "smtp"
    requires room !in st.registry && !SmtpUsernameInUse(st.registry, Setup.NoSpaces(Setup.Fields(message)[2]))
    requires Setup.SmtpEndpoint(Setup.NoSpaces(Setup.Fields(message)[1])).None?
    ensures var st' := SetupCmd(st, cfg, room, message, login).state;
      WriteCmd(st', cfg, room, write).answers == [WriteAnswer(Commands.NoSmtpAccount)]
  {
    Setup.SetupPortErrorKeepsRoom(st.registry, room, message, cfg.interval, login);
  }

  /** "!setmailbox Archive" answers with the usage text and changes nothing, for the same reason. */
  lemma SetMailboxWithNameIsUsage(st: State, cfg: Config, room: RoomId, mailbox: string, login: ImapAccount -> bool)
    requires HasImap(st.registry, room) && ' ' !in mailbox
    ensures var r := HandleCommand(st, cfg, room, "!setmailbox" + " " + mailbox, login);
      r.answers == [MailboxUsage] && r.state == st
  {
    Commands.TableEntries();
    Routed(st, cfg, room, "!setmailbox", Commands.SetMailbox, mailbox, login);
    assert CountChar(mailbox, ' ') == 0;
    assert Commands.MailboxArgument(mailbox).None?;
    assert Invoked(st, cfg, room, Commands.SetMailbox, mailbox, login) == SetMailboxCmd(st, room, mailbox);
  }

  /**
    "!blocklist add x@y.com" answers with the usage text and blocks nothing:
    the handler sees two tokens, "add" and the address.
   */
  lemma BlocklistAddIsUsage(st: State, cfg: Config, room: RoomId, address: string, login: ImapAccount -> bool)
    requires HasImap(st.registry, room) && ' ' !in address && '@' in address
    ensures var r := HandleCommand(st, cfg, room, "!blocklist" + " " + ("add" + " " + address), login);
      r.answers == [BlocklistAnswer(Commands.BlUsage)] && r.state == st
  {
    var arg := "add" + " " + address;
    Commands.TableEntries();
    Routed(st, cfg, room, "!blocklist", Commands.BlocklistCmd, arg, login);
    BlocklistTwoTokens(address);
    assert Invoked(st, cfg, room, Commands.BlocklistCmd, arg, login) == BlocklistCmd(st, room, arg);
    assert BlocklistCmd(st, room, arg) == Say(st, BlocklistAnswer(Commands.BlUsage));
  }

  /** `!blocklist`'s handler reads "add <address>" as two tokens, which is the usage case. */
  lemma BlocklistTwoTokens(address: string)
    requires ' ' !in address && '@' in address
    ensures Commands.Blocklist("add" + " " + address) == Commands.BlUsage
  {
    TwoWords("add", address);
    assert address != "view" && address != "list" && address != "clear" by {
      assert '@' !in "view" && '@' !in "list" && '@' !in "clear";
    }
  }

  /** Two logouts in a row are harmless with the corrected stop: the second finds no channel to close. */
  lemma LogoutTwice(st: State, room: RoomId)
    ensures var once := LogOut(st, room, false).state;
      !Poll.ClosedChannel(once.channels, room) && LogOut(once, room, false).state == once
  {
    var once := LogOut(st, room, false).state;
    Poll.StopTwice(st.channels, room);
    assert once.listeners - {room} == once.listeners;
    assert once.blocklist - {room} == once.blocklist;
    assert DeleteRoom(once.registry, room) == once.registry;
  }

  /**
    While a compose session is open, command words are session input: a
    "!logout" typed then neither unbinds the room nor ends the session, and
    becomes the subject when none is set yet.
   */
  lemma ComposingShieldsCommands(st: State, cfg: Config, room: RoomId, sender: string, self: string,
                                 membership: Matrix.Membership, memberSince: int, sent: int,
                                 env: Compose.Env, login: ImapAccount -> bool)
    requires room in st.sessions
    requires Matrix.RouteMessage(sender, self, membership, memberSince, sent, true) != Matrix.Drop
    ensures var r := HandleMessage(st, cfg, room, sender, self, membership, memberSince, sent,
                                   Compose.Event(Compose.Text, "!logout", ""), env, login);
      && r.state.registry == st.registry && room in r.state.sessions && r.dispatched.None?
      && (Compose.Blank(st.sessions[room].subject) ==> r.state.sessions[room].subject == "!logout")
  {
    var evt := Compose.Event(Compose.Text, "!logout", "");
    assert !HasPrefix("!logout", "!rm") by {
      assert "!logout"[..3][1] == 'l' && "!rm"[1] == 'r';
    }
    assert Matrix.RouteMessage(sender, self, membership, memberSince, sent, room in st.sessions) == Matrix.ToCompose;
    assert HandleMessage(st, cfg, room, sender, self, membership, memberSince, sent, evt, env, login)
        == ComposeStep(st, room, evt, env);
  }
}

=== FILE: commands.dfy ===
/**
  The chat commands other than `!setup`: argument parsing of `!write`,
  `!sethtml`, `!setmailbox`, `!blocklist` and `!view`, and the dispatch
  table of runCommand. Each handler is modelled over the `message` string it
  is given, exactly as it indexes it.
 */
module Commands {
  import opened Optional
  import opened GoStrings
  import opened GoConv

  // ---------------------------------------------------------------- !write

  /** A token the recipient scan keeps: non-empty, containing '@' and '.'. */
  predicate LooksLikeAddress(t: string) {
    |t| > 0 && '@' in t && '.' in t
  }

  /** What the scan appends for a kept token: the token, then ',' unless it already ends with one. */
  function Chunk(t: string): (c: string)
    ensures HasPrefix(c, t) && |c| > 0 && c[|c| - 1] == ','
    ensures c == t || c == t + ","
    ensures c == t <==> HasSuffix(t, ",")
  {
    if HasSuffix(t, ",") then t else t + ","
  }

  /**
    The recipient loop of `!write`: tokens are visited in order, and a
    trimmed token is appended (as its Chunk) when it looks like an address
    and is not already a substring of the text built so far.
   */
  function Collect(tokens: seq<string>, acc: string): (r: string)
    ensures HasPrefix(r, acc)
    ensures r == acc || (|r| > 0 && r[|r| - 1] == ',')
    ensures r == acc + Chunks(Kept(tokens, acc))
    decreases |tokens|
  {
    if |tokens| == 0 then acc
    else
      var next := Scan(acc, tokens[0]);
      var r := Collect(tokens[1..], next);
      CollectStep(tokens, acc, r);
      r
  }

  /** What one pass of the loop adds to `acc` carries over to the rest of the scan. */
  lemma CollectStep(tokens: seq<string>, acc: string, r: string)
    requires |tokens| > 0
    requires HasPrefix(r, Scan(acc, tokens[0]))
    requires r == Scan(acc, tokens[0]) + Chunks(Kept(tokens[1..], Scan(acc, tokens[0])))
    ensures HasPrefix(r, acc)
    ensures r == acc + Chunks(Kept(tokens, acc))
  {
    var next := Scan(acc, tokens[0]);
    PrefixTransitive(r, next, acc);
    KeptStep(tokens, acc);
  }

  /**
    The trimmed tokens the loop keeps, in order: those that look like an
    address and are no substring of the text built before them.
   */
  function Kept(tokens: seq<string>, acc: string): (kept: seq<string>)
    ensures KeptFrom(kept, tokens)
    decreases |tokens|
  {
    if |tokens| == 0 then []
    else
      var t := Trim(tokens[0], ' ');
      if !LooksLikeAddress(t) || Contains(acc, t) then
        var rest := Kept(tokens[1..], acc);
        KeptFromTail(rest, tokens);
        rest
      else
        var rest := Kept(tokens[1..], acc + Chunk(t));
        KeptFromTail(rest, tokens);
        assert TrimmedTokenOf(t, tokens) by { assert tokens[0] in tokens; }
        KeptFromCons(t, rest, tokens);
        [t] + rest
  }

  /** Every entry of `kept` looks like an address and is a trimmed token of `tokens`. */
  predicate KeptFrom(kept: seq<string>, tokens: seq<string>) {
    forall k :: k in kept ==> LooksLikeAddress(k) && TrimmedTokenOf(k, tokens)
  }

  /** `k` is one of `tokens` with its outer spaces removed. */
  predicate TrimmedTokenOf(k: string, tokens: seq<string>) {
    exists t :: t in tokens && Trim(t, ' ') == k
  }

  lemma KeptFromTail(kept: seq<string>, tokens: seq<string>)
    requires |tokens| > 0 && KeptFrom(kept, tokens[1..])
    ensures KeptFrom(kept, tokens)
  {
    forall k | k in kept
      ensures TrimmedTokenOf(k, tokens)
    {
      var t :| t in tokens[1..] && Trim(t, ' ') == k;
      assert t in tokens;
    }
  }

  lemma KeptFromCons(t: string, kept: seq<string>, tokens: seq<string>)
    requires LooksLikeAddress(t) && TrimmedTokenOf(t, tokens) && KeptFrom(kept, tokens)
    ensures KeptFrom([t] + kept, tokens)
  {
    forall k | k in [t] + kept
      ensures LooksLikeAddress(k) && TrimmedTokenOf(k, tokens)
    {
      if k != t { assert k in kept; }
    }
  }

  /** The chunks of `kept`, one after the other. */
  function Chunks(kept: seq<string>): string {
    if |kept| == 0 then "" else Chunk(kept[0]) + Chunks(kept[1..])
  }

  /** One step of the loop either keeps nothing or keeps the first trimmed token. */
  lemma KeptStep(tokens: seq<string>, acc: string)
    requires |tokens| > 0
    ensures var next := Scan(acc, tokens[0]);
      acc + Chunks(Kept(tokens, acc)) == next + Chunks(Kept(tokens[1..], next))
  {
    var t := Trim(tokens[0], ' ');
    if LooksLikeAddress(t) && !Contains(acc, t) {
      KeptKeeps(tokens, acc);
    } else {
      assert Scan(acc, tokens[0]) == acc;
      assert Kept(tokens, acc) == Kept(tokens[1..], acc);
    }
  }

  /** A kept token contributes its chunk in front of the rest. */
  lemma KeptKeeps(tokens: seq<string>, acc: string)
    requires |tokens| > 0
    requires LooksLikeAddress(Trim(tokens[0], ' ')) && !Contains(acc, Trim(tokens[0], ' '))
    ensures Chunks(Kept(tokens, acc)) == Chunk(Trim(tokens[0], ' ')) + Chunks(Kept(tokens[1..], acc + Chunk(Trim(tokens[0], ' '))))
  {
    var t := Trim(tokens[0], ' ');
    var rest := Kept(tokens[1..], acc + Chunk(t));
    assert Kept(tokens, acc) == [t] + rest;
    assert ([t] + rest)[1..] == rest;
  }

  /**
    When no kept token ends with ',' already, the chunks are the kept
    tokens joined by ',' with one ',' after the last.
   */
  lemma {:induction false} ChunksJoin(kept: seq<string>)
    requires |kept| > 0
    requires forall k :: k in kept ==> !HasSuffix(k, ",")
    ensures Chunks(kept) == Join(kept, ",") + ","
    decreases |kept|
  {
    assert kept[0] in kept;
    assert Chunk(kept[0]) == kept[0] + ",";
    if |kept| == 1 {
      assert Chunks(kept) == Chunk(kept[0]) + Chunks([]);
    } else {
      assert forall k :: k in kept[1..] ==> k in kept;
      ChunksJoin(kept[1..]);
      assert Join(kept, ",") == kept[0] + "," + Join(kept[1..], ",");
    }
  }

  /** One iteration of the recipient loop. */
  function Scan(acc: string, token: string): (next: string)
    ensures HasPrefix(next, acc)
    ensures next == acc || (|next| > 0 && next[|next| - 1] == ',')
    ensures next == acc || next == acc + Chunk(Trim(token, ' '))
    ensures LooksLikeAddress(Trim(token, ' ')) ==> Contains(next, Trim(token, ' '))
    ensures next == acc <==> !LooksLikeAddress(Trim(token, ' ')) || Contains(acc, Trim(token, ' '))
  {
    var t := Trim(token, ' ');
    if !LooksLikeAddress(t) || Contains(acc, t) then
      acc
    else
      ChunkContains(acc, t);
      acc + Chunk(t)
  }

  /** A token appended as its Chunk is contained in the result. */
  lemma ChunkContains(acc: string, t: string)
    ensures Contains(acc + Chunk(t), t)
  {
    var next := acc + Chunk(t);
    assert next[|acc|..|acc| + |t|] == Chunk(t)[..|t|];
    assert OccursAt(next, t, |acc|);
  }

  lemma PrefixTransitive(s: string, mid: string, prefix: string)
    requires HasPrefix(s, mid) && HasPrefix(mid, prefix)
    ensures HasPrefix(s, prefix)
  {
    assert s[..|prefix|] == s[..|mid|][..|prefix|];
  }

  /** A substring of a prefix is a substring of the whole. */
  lemma ContainsInPrefix(s: string, prefix: string, sub: string)
    requires HasPrefix(s, prefix) && Contains(prefix, sub)
    ensures Contains(s, sub)
  {
    var i :| 0 <= i <= |prefix| - |sub| && OccursAt(prefix, sub, i);
    assert s[i..i + |sub|] == s[..|prefix|][i..i + |sub|];
    assert OccursAt(s, sub, i);
  }

  /** No token of `tokens`, trimmed, looks like an address. */
  predicate NoAddress(tokens: seq<string>) {
    forall t :: t in tokens ==> !LooksLikeAddress(Trim(t, ' '))
  }

  /** Every token of `tokens` that looks like an address (once trimmed) occurs in `text`. */
  predicate CoversAddresses(text: string, tokens: seq<string>) {
    forall t :: t in tokens ==> Covers(text, t)
  }

  /** The token, trimmed, occurs in `text` if it looks like an address. */
  predicate Covers(text: string, token: string) {
    LooksLikeAddress(Trim(token, ' ')) ==> Contains(text, Trim(token, ' '))
  }

  /** CoversAddresses splits into the first token and the rest. */
  lemma CoversCons(text: string, tokens: seq<string>)
    requires |tokens| > 0
    requires Covers(text, tokens[0])
    requires CoversAddresses(text, tokens[1..])
    ensures CoversAddresses(text, tokens)
  {
    assert tokens == [tokens[0]] + tokens[1..];
  }

  /** Every token that looks like an address ends up in the scanned text. */
  lemma {:induction false} CollectCovers(tokens: seq<string>, acc: string)
    ensures CoversAddresses(Collect(tokens, acc), tokens)
    decreases |tokens|
  {
    if |tokens| > 0 {
      var next := Scan(acc, tokens[0]);
      var r := Collect(tokens, acc);
      assert r == Collect(tokens[1..], next);
      CollectCovers(tokens[1..], next);
      if LooksLikeAddress(Trim(tokens[0], ' ')) {
        ContainsInPrefix(r, next, Trim(tokens[0], ' '));
      }
      CoversCons(r, tokens);
    }
  }

  /** The scan adds nothing exactly when every address-like token is already in the text. */
  lemma {:induction false} CollectUnchanged(tokens: seq<string>, acc: string)
    ensures Collect(tokens, acc) == acc <==> CoversAddresses(acc, tokens)
    decreases |tokens|
  {
    CollectCovers(tokens, acc);
    if |tokens| > 0 && CoversAddresses(acc, tokens) {
      CoversTail(acc, tokens);
      CollectUnchanged(tokens[1..], acc);
    }
  }

  /** Covering a list covers its first token and its tail. */
  lemma CoversTail(text: string, tokens: seq<string>)
    requires |tokens| > 0 && CoversAddresses(text, tokens)
    ensures Covers(text, tokens[0]) && CoversAddresses(text, tokens[1..])
  {
    assert tokens[0] in tokens;
    forall t | t in tokens[1..]
      ensures Covers(text, t)
    {
      assert t in tokens;
    }
  }

  /** Starting from nothing, the scan builds nothing exactly when no token looks like an address. */
  lemma CollectFromEmpty(tokens: seq<string>)
    ensures Collect(tokens, "") == "" <==> NoAddress(tokens)
  {
    CollectUnchanged(tokens, "");
    forall t | LooksLikeAddress(t)
      ensures !Contains("", t)
    {
      ContainsInEmpty(t);
    }
  }

  /**
    The receiver scanned from the tokens after the command word: the built
    text without its final ','. None when nothing was built, where the
    source's slice `receiverString[:len-1]` panics.
   */
  function ScannedReceiver(tokens: seq<string>): (r: Option<string>)
    ensures r.None? <==> NoAddress(tokens)
    ensures r.Some? ==> CoversAddresses(r.value + ",", tokens)
    ensures r.Some? ==> r.value + "," == Chunks(Kept(tokens, ""))
  {
    var built := Collect(tokens, "");
    CollectFromEmpty(tokens);
    if |built| == 0 then None
    else
      ScannedNonEmpty(tokens);
      Some(built[..|built| - 1])
  }

  /** A non-empty scan ends with ',' and, without it, still covers every address-like token once ',' is put back. */
  lemma ScannedNonEmpty(tokens: seq<string>)
    requires Collect(tokens, "") != ""
    ensures var built := Collect(tokens, "");
      !NoAddress(tokens) && CoversAddresses(built[..|built| - 1] + ",", tokens)
    ensures var built := Collect(tokens, "");
      built[..|built| - 1] + "," == Chunks(Kept(tokens, ""))
  {
    var built := Collect(tokens, "");
    CollectFromEmpty(tokens);
    CollectCovers(tokens, "");
    DropLastComma(built);
    assert "" + Chunks(Kept(tokens, "")) == Chunks(Kept(tokens, ""));
  }

  lemma DropLastComma(b: string)
    requires |b| > 0 && b[|b| - 1] == ','
    ensures b[..|b| - 1] + "," == b
  {
  }

  /** The final acceptance test on the receiver text; Go's `len` counts UTF-8 bytes. */
  predicate AcceptableReceiver(r: string) {
    '@' in r && '.' in r && ByteLen(r) > 5
  }

  /**
    The length tests count bytes, not characters: a five-character address
    with one accented letter passes both the `!write` test (more than five)
    and the `!blocklist` test (at least six).
   */
  lemma LengthCountsBytes()
    ensures |"\U{E9}@b.c"| == 5
    ensures AcceptableReceiver("\U{E9}@b.c") && ValidBlockAddress("\U{E9}@b.c")
  {
    ByteLenOfAccented();
    assert "\U{E9}@b.c"[1] == '@' && "\U{E9}@b.c"[3] == '.';
  }

  /** The markdown flag: a third token that ParseBool accepts, else the configured default. */
  function MarkdownFlag(s: seq<string>, default: bool): (b: bool)
    ensures |s| == 3 && s[2] in TrueWords ==> b
    ensures |s| == 3 && s[2] in FalseWords ==> !b
    ensures (|s| != 3 || (s[2] !in TrueWords && s[2] !in FalseWords)) ==> b == default
  {
    if |s| == 3 then ParseBool(s[2]).GetOr(default) else default
  }

  /** How `!write` answers. */
  datatype WriteResult =
    | NotLoggedIn
    | NoSmtpAccount
    | WriteUsage
    | ReceiverPanic
    | NotAnEmail(receiver: string)
    | StartCompose(receiver: string, markdown: bool)

  /**
    `!write` over its argument `message`, split on ' '. With exactly two
    tokens the receiver is the second token; with more, the recipient scan
    runs over the tokens from index 1. The room must be bridged and have an
    SMTP account.
   */
  function Write(hasRoom: bool, hasSmtp: bool, message: string, markdownDefault: bool): (r: WriteResult)
    ensures r.StartCompose? ==> hasRoom && hasSmtp && AcceptableReceiver(r.receiver)
    ensures r.StartCompose? ==> r.markdown == MarkdownFlag(Split(message, ' '), markdownDefault)
    ensures !hasRoom <==> r == NotLoggedIn
    ensures hasRoom && !hasSmtp <==> r == NoSmtpAccount
    ensures r == WriteUsage <==> hasRoom && hasSmtp && |Split(message, ' ')| <= 1
    ensures var s := Split(message, ' ');
      r == ReceiverPanic <==> hasRoom && hasSmtp && |s| > 2 && NoAddress(s[1..])
    ensures r.StartCompose? || r.NotAnEmail? ==> (r.StartCompose? <==> AcceptableReceiver(r.receiver))
    ensures var s := Split(message, ' ');
      (r.StartCompose? || r.NotAnEmail?) && |s| == 2 ==> r.receiver == s[1]
    ensures var s := Split(message, ' ');
      (r.StartCompose? || r.NotAnEmail?) && |s| > 2 ==> ScannedReceiver(s[1..]) == Some(r.receiver)
  {
    var s := Split(message, ' ');
    if !hasRoom then NotLoggedIn
    else if !hasSmtp then NoSmtpAccount
    else if |s| <= 1 then WriteUsage
    else Receivers(s, markdownDefault)
  }

  /**
    The receiver part of `!write`, for at least two tokens: the second
    token itself when there are exactly two, the recipient scan over the
    tokens from index 1 otherwise; then the acceptance test.
   */
  function Receivers(s: seq<string>, markdownDefault: bool): (r: WriteResult)
    requires |s| >= 2 && ' ' !in s[1]
    ensures r.StartCompose? || r.NotAnEmail? || r == ReceiverPanic
    ensures r.StartCompose? ==> r.markdown == MarkdownFlag(s, markdownDefault)
    ensures r == ReceiverPanic <==> |s| > 2 && NoAddress(s[1..])
    ensures r != ReceiverPanic ==> (r.StartCompose? <==> AcceptableReceiver(r.receiver))
    ensures r != ReceiverPanic && |s| == 2 ==> r.receiver == s[1]
    ensures r != ReceiverPanic && |s| > 2 ==> ScannedReceiver(s[1..]) == Some(r.receiver)
  {
    if |s| == 2 then
      var receiver := Trim(s[1], ' ');
      TrimWithout(s[1], ' ');
      if AcceptableReceiver(receiver) then StartCompose(receiver, MarkdownFlag(s, markdownDefault))
      else NotAnEmail(receiver)
    else
      match ScannedReceiver(s[1..])
      case None => ReceiverPanic
      case Some(rc) =>
        if AcceptableReceiver(rc) then StartCompose(rc, MarkdownFlag(s, markdownDefault))
        else NotAnEmail(rc)
  }

  /**
    The dedup test is a substring test, not an equality test: an address
    that is a substring of one already kept is dropped although distinct.
   */
  lemma SubstringDedup(first: string, second: string)
    requires LooksLikeAddress(first) && LooksLikeAddress(second) && first != second
    requires ' ' !in first && ' ' !in second && !HasSuffix(first, ",")
    requires Contains(first, second)
    ensures Collect([first, second], "") == first + ","
  {
    TrimWithout(first, ' ');
    TrimWithout(second, ' ');
    ContainsInEmpty(first);
    var acc := Scan("", first);
    assert acc == first + "," by {
      assert "" + Chunk(first) == first + ",";
    }
    ContainsExtend(first, ",", second);
    assert Scan(acc, second) == acc;
    assert [first, second][1..] == [second];
    assert Collect([second], acc) == Collect([], acc);
  }

  // -------------------------------------------------------------- !sethtml

  /** How `!sethtml` reads its argument. */
  datatype HtmlArgument = HtmlUsage | HtmlWhat | HtmlMode(on: bool, mode: string)

  /** Exactly two space-separated tokens; the second, lower-cased, must be true/on or false/off. */
  function SetHtmlArgument(message: string): (r: HtmlArgument)
    ensures |Split(message, ' ')| != 2 <==> r == HtmlUsage
    ensures r.HtmlMode? ==> r.mode == Lower(Split(message, ' ')[1]) && r.mode in {"true", "on", "false", "off"}
    ensures r.HtmlMode? ==> (r.on <==> r.mode in {"true", "on"})
    ensures r == HtmlWhat ==> Lower(Split(message, ' ')[1]) !in {"true", "on", "false", "off"}
  {
    var d := Split(message, ' ');
    if |d| != 2 then HtmlUsage
    else
      var mode := Lower(d[1]);
      if mode == "true" || mode == "on" then HtmlMode(true, mode)
      else if mode != "false" && mode != "off" then HtmlWhat
      else HtmlMode(false, mode)
  }

  // ----------------------------------------------------------- !setmailbox

  /** The new mailbox: the second of exactly two space-separated tokens. */
  function MailboxArgument(message: string): (r: Option<string>)
    ensures r.Some? <==> CountChar(message, ' ') == 1
    ensures r.Some? ==> ' ' !in r.value && exists w :: ' ' !in w && message == w + " " + r.value
  {
    var d := Split(message, ' ');
    if |d| == 2 then
      JoinSplit(message, ' ');
      assert message == d[0] + " " + d[1];
      Some(d[1])
    else None
  }

  // ------------------------------------------------------------ !blocklist

  /** The address test of `!blocklist add/remove`. */
  predicate ValidBlockAddress(addr: string) {
    '@' in addr && '.' in addr && ByteLen(addr) >= 6
  }

  /** What `!blocklist` does with its argument. */
  datatype BlocklistAction =
    | BlView
    | BlClear
    | BlUsage
    | BlInvalid(address: string)
    | BlAdd(address: string)
    | BlRemove(address: string)
    | BlNothing

  /**
    Fewer than three tokens: "view"/"list" or "clear" as the second token,
    else usage. Otherwise the lower-cased second token is the sub-command
    and the third the address, which must pass ValidBlockAddress; an
    unknown sub-command with a valid address does nothing at all.
   */
  function Blocklist(message: string): (r: BlocklistAction)
    ensures var sm := Split(message, ' ');
      (r.BlAdd? || r.BlRemove? || r.BlInvalid?) ==> |sm| >= 3 && r.address == sm[2]
    ensures r.BlAdd? || r.BlRemove? ==> ValidBlockAddress(r.address)
    ensures var sm := Split(message, ' ');
      r.BlInvalid? <==> |sm| >= 3 && !ValidBlockAddress(sm[2])
    ensures var sm := Split(message, ' ');
      r.BlAdd? ==> Lower(sm[1]) == "add"
    ensures var sm := Split(message, ' ');
      r.BlRemove? ==> Lower(sm[1]) in {"remove", "delete", "rm"}
    ensures var sm := Split(message, ' ');
      (r == BlView || r == BlClear || r == BlUsage) <==> |sm| < 3
    ensures var sm := Split(message, ' ');
      r == BlView <==> |sm| == 2 && sm[1] in {"view", "list"}
    ensures var sm := Split(message, ' ');
      r == BlClear <==> |sm| == 2 && sm[1] == "clear"
    ensures var sm := Split(message, ' ');
      |sm| >= 3 && ValidBlockAddress(sm[2]) && Lower(sm[1]) == "add" ==> r == BlAdd(sm[2])
    ensures var sm := Split(message, ' ');
      |sm| >= 3 && ValidBlockAddress(sm[2]) && Lower(sm[1]) in {"remove", "delete", "rm"} ==> r == BlRemove(sm[2])
    ensures var sm := Split(message, ' ');
      r == BlNothing <==> |sm| >= 3 && ValidBlockAddress(sm[2]) && Lower(sm[1]) !in {"add", "remove", "delete", "rm"}
  {
    var sm := Split(message, ' ');
    if |sm| < 3 then
      if |sm| == 2 && (sm[1] == "view" || sm[1] == "list") then BlView
      else if |sm| == 2 && sm[1] == "clear" then BlClear
      else BlUsage
    else
      var cmd := Lower(sm[1]);
      var addr := sm[2];
      if !ValidBlockAddress(addr) then BlInvalid(addr)
      else if cmd == "add" then BlAdd(addr)
      else if cmd in {"remove", "delete", "rm"} then BlRemove(addr)
      else BlNothing
  }

  // ----------------------------------------------------------------- !view

  /** What `!view` shows. */
  datatype ViewTarget = ViewHelp | ViewMailbox | ViewMailboxes | ViewBlocklist

  const MailboxAliases: set<string> := {"mb", "mailbox"}
  const MailboxesAliases: set<string> := {"mbs", "mailboxes"}
  const BlocklistAliases: set<string> := {"blocklist", "bl", "blocklists", "blo", "blocked"}

  /** The whole argument, lower-cased, picks the view; anything unknown (or nothing) shows the help. */
  function View(message: string): (r: ViewTarget)
    ensures r == ViewMailbox <==> Lower(message) in MailboxAliases
    ensures r == ViewMailboxes <==> Lower(message) in MailboxesAliases
    ensures r == ViewBlocklist <==> Lower(message) in BlocklistAliases
  {
    if |message| == 0 then ViewHelp
    else
      var m := Lower(message);
      if m in MailboxAliases then ViewMailbox
      else if m in MailboxesAliases then ViewMailboxes
      else if m in BlocklistAliases then ViewBlocklist
      else ViewHelp
  }

  // ------------------------------------------------------------ runCommand

  datatype Command =
    | Help | Login | Logout | SetupCmd | WriteCmd | Ping | SetMailbox
    | SetHtml | Leave | BlocklistCmd | ViewCmd | Check

  /** The `commands` table: exact, case-sensitive keys; "!bl" is an alias of "!blocklist". */
  const Table: map<string, Command> := map[
    "!help" := Help,
    "!login" := Login,
    "!logout" := Logout,
    "!setup" := SetupCmd,
    "!write" := WriteCmd,
    "!ping" := Ping,
    "!setmailbox" := SetMailbox,
    "!sethtml" := SetHtml,
    "!leave" := Leave,
    "!blocklist" := BlocklistCmd,
    "!bl" := BlocklistCmd,
    "!view" := ViewCmd,
    "!check" := Check
  ]

  /** The table entries of the commands whose argument handling the bridge lemmas follow. */
  lemma TableEntries()
    ensures "!write" in Table && Table["!write"] == WriteCmd
    ensures "!setmailbox" in Table && Table["!setmailbox"] == SetMailbox
    ensures "!blocklist" in Table && Table["!blocklist"] == BlocklistCmd
  {
  }

  datatype Dispatch = Ignored | NotFound | Invoke(command: Command, argument: string)

  /** Every command name is a single word. */
  lemma TableKeysOneWord()
    ensures forall w :: w in Table ==> ' ' !in w
  {
  }

  /**
    runCommand: text not starting with '!' is ignored; otherwise the text
    before the first space is looked up and its handler gets only the text
    after that space ("command not found!" when the lookup fails).
   */
  function RunCommand(message: string): (d: Dispatch)
    ensures d == Ignored <==> !HasPrefix(message, "!")
    ensures d.Invoke? ==> exists w :: (w in Table && Table[w] == d.command &&
      (message == w + " " + d.argument || (message == w && d.argument == "")))
    ensures d == NotFound ==> forall w :: w in Table ==> !HasPrefix(message, w + " ") && message != w
  {
    if !HasPrefix(message, "!") then Ignored
    else
      var (first, rest, found) := Cut(message, ' ');
      if first in Table then
        assert found ==> message == first + " " + rest;
        Invoke(Table[first], rest)
      else
        TableKeysOneWord();
        forall w | w in Table
          ensures HasPrefix(message, w + " ") ==> first == w
        {
          CutFirst(message, w, ' ');
        }
        NotFound
  }
}

=== FILE: compose.dfy ===
/**
  The compose session of `writingEmail`: once `!write` has opened a session
  for a room, every message in that room goes here. The first text message
  becomes the subject; after that text lines accumulate in the body, files
  become attachments, and `!rm`, `!cancel` and `!send` act on the session.
 */
module Compose {
  import opened Optional
  import opened GoStrings
  import opened GoConv
  import opened Accounts

  /** The writing temp row of a room: receivers (comma separated), subject, body, markdown flag, attachment names. */
  datatype Session = Session(
    receiver: string,
    subject: string,
    body: string,
    markdown: bool,
    attachments: seq<string>)

  /** The session `!write` opens: nothing but the receivers and the markdown flag yet. */
  function NewSession(receiver: string, markdown: bool): Session {
    Session(receiver, "", "", markdown, [])
  }

  /** The msgtype of a Matrix message event, as far as the session distinguishes it. */
  datatype MsgType = Text | FileMsg | ImageMsg | OtherMsg

  /** A room message: its type, its body (the message text, or a file's name) and its content url. */
  datatype Event = Event(msgType: MsgType, body: string, url: string)

  /** The outbound message handed to the SMTP dialer; `html` is the HTML part when markdown is on. */
  datatype Email = Email(
    from: string,
    to: seq<string>,
    subject: string,
    html: Option<string>,
    plain: string,
    files: seq<string>)

  /** What the session answers in the room. */
  datatype Reply =
    | SubjectNeeded
    | ContentPrompt
    | ServerError(code: nat)
    | Attaching(name: string)
    | Sending
    | SentOk
    | SendFailed
    | RedoSetup
    | Canceled
    | AttachmentDeleted
    | DownloadFailed
    | FileAttached(name: string)

  /**
    The results of the I/O a step performs, given as inputs: the clock, the
    markdown renderer, whether the SMTP transfer, the media download and the
    temp-file write succeed. `tempDir` is the attachment directory.
   */
  datatype Env = Env(
    tempDir: string,
    now: int,
    toHtml: string -> string,
    sendOk: bool,
    downloadOk: bool,
    storeOk: bool)

  /** The state after a step: the session (None once it is deleted), the registry, the replies, and any message handed to the dialer. */
  datatype Outcome = Outcome(
    session: Option<Session>,
    registry: Registry,
    replies: seq<Reply>,
    dispatched: Option<Email>)

  /** The subject still counts as unset while it is empty or spaces only. */
  predicate Blank(s: string) {
    AllChar(s, ' ')
  }

  // ---------------------------------------------------------------- !send

  /** The To header: the receiver text split on ',' when it holds one, else the receiver alone. */
  function Recipients(receiver: string): (to: seq<string>)
    ensures |to| > 0
    ensures Join(to, ",") == receiver
    ensures forall i :: 0 <= i < |to| ==> ',' !in to[i]
    ensures |to| == CountChar(receiver, ',') + 1
  {
    ContainsChar(receiver, ',');
    JoinSplit(receiver, ',');
    if Contains(receiver, ",") then Split(receiver, ',')
    else
      SplitNoSep(receiver, ',');
      [receiver]
  }

  /**
    The HTML part: the rendered markdown with line breaks before headings
    and blank lines after tags dropped, then every remaining CRLF turned
    into <br>, in this order.
   */
  function HtmlBody(rendered: string): (h: string)
    ensures !Contains(h, "\r\n")
  {
    var a := ReplaceAll(rendered, "\r\n<h", "<h");
    var b := ReplaceAll(a, "\n\n<h", "<h");
    var c := ReplaceAll(b, ">\n\n", ">");
    ReplaceAllRemoves(c, "\r\n", "<br>");
    ReplaceAll(c, "\r\n", "<br>")
  }

  /** A rendering without any line break passes through the post-processing untouched. */
  lemma HtmlBodyKeepsSingleLine(rendered: string)
    requires '\r' !in rendered && '\n' !in rendered
    ensures HtmlBody(rendered) == rendered
  {
    NoCharNoContains(rendered, "\r\n<h", '\r');
    ReplaceAllAbsent(rendered, "\r\n<h", "<h");
    NoCharNoContains(rendered, "\n\n<h", '\n');
    ReplaceAllAbsent(rendered, "\n\n<h", "<h");
    NoCharNoContains(rendered, ">\n\n", '\n');
    ReplaceAllAbsent(rendered, ">\n\n", ">");
    NoCharNoContains(rendered, "\r\n", '\r');
    ReplaceAllAbsent(rendered, "\r\n", "<br>");
  }

  /** A pattern holding a character the text lacks does not occur in it. */
  lemma NoCharNoContains(s: string, pat: string, c: char)
    requires c in pat && c !in s
    ensures !Contains(s, pat)
  {
    forall i | 0 <= i <= |s| - |pat|
      ensures !OccursAt(s, pat, i)
    {
      var k :| 0 <= k < |pat| && pat[k] == c;
      assert s[i..i + |pat|][k] == s[i + k];
    }
  }

  /** A pattern holding a character the text lacks is not replaced anywhere. */
  lemma Untouched(s: string, pat: string, rep: string, c: char)
    requires c in pat && c !in s
    ensures ReplaceAll(s, pat, rep) == s
  {
    NoCharNoContains(s, pat, c);
    ReplaceAllAbsent(s, pat, rep);
  }

  /** One differing character rules out an occurrence at `i`. */
  lemma Mismatch(s: string, pat: string, i: nat, k: nat)
    requires i + |pat| <= |s| && k < |pat| && s[i + k] != pat[k]
    ensures !OccursAt(s, pat, i)
  {
    assert s[i..i + |pat|][k] == s[i + k];
  }

  /** Text without any line break. */
  predicate OneLine(s: string) {
    '\r' !in s && '\n' !in s
  }

  /** The line breaks that only precede the three stages after the first are left to them. */
  lemma LaterStagesKeep(x: string)
    requires OneLine(x)
    ensures HtmlBody(x) == ReplaceAll(x, "\r\n<h", "<h")
    ensures ReplaceAll(x, "\r\n<h", "<h") == x
  {
    HtmlBodyKeepsSingleLine(x);
    Untouched(x, "\r\n<h", "<h", '\r');
  }

  /** A CRLF right before a heading tag is dropped. */
  lemma HtmlBodyHeadingCrlf(a: string, b: string)
    requires OneLine(a) && OneLine(b)
    ensures HtmlBody(a + "\r\n<h" + b) == a + "<h" + b
  {
    var s := a + "\r\n<h" + b;
    NoStartBefore(a, "\r\n<h", b, 0);
    ReplaceAllSplice(a, "\r\n<h", "<h", b);
    Untouched(b, "\r\n<h", "<h", '\r');
    var x := a + "<h" + b;
    assert ReplaceAll(s, "\r\n<h", "<h") == x;
    Untouched(x, "\n\n<h", "<h", '\n');
    Untouched(x, ">\n\n", ">", '\n');
    Untouched(x, "\r\n", "<br>", '\r');
  }

  /** A blank line (two LFs) right before a heading tag is dropped. */
  lemma HtmlBodyHeadingLf(a: string, b: string)
    requires OneLine(a) && OneLine(b)
    ensures HtmlBody(a + "\n\n<h" + b) == a + "<h" + b
  {
    var s := a + "\n\n<h" + b;
    Untouched(s, "\r\n<h", "<h", '\r');
    NoStartBefore(a, "\n\n<h", b, 0);
    ReplaceAllSplice(a, "\n\n<h", "<h", b);
    Untouched(b, "\n\n<h", "<h", '\n');
    var x := a + "<h" + b;
    assert ReplaceAll(s, "\n\n<h", "<h") == x;
    Untouched(x, ">\n\n", ">", '\n');
    Untouched(x, "\r\n", "<br>", '\r');
  }

  /** A blank line (two LFs) right after a tag is dropped when no heading follows. */
  lemma HtmlBodyTagBlank(a: string, b: string)
    requires OneLine(a) && OneLine(b) && !HasPrefix(b, "<h")
    ensures HtmlBody(a + ">\n\n" + b) == a + ">" + b
  {
    var s := a + ">\n\n" + b;
    Untouched(s, "\r\n<h", "<h", '\r');
    NoHeadingAfterTag(a, b);
    ReplaceAllAbsent(s, "\n\n<h", "<h");
    NoStartBefore(a, ">\n\n", b, 1);
    ReplaceAllSplice(a, ">\n\n", ">", b);
    Untouched(b, ">\n\n", ">", '\n');
    var x := a + ">" + b;
    assert ReplaceAll(s, ">\n\n", ">") == x;
    Untouched(x, "\r\n", "<br>", '\r');
  }

  lemma NoHeadingAfterTag(a: string, b: string)
    requires OneLine(a) && OneLine(b) && !HasPrefix(b, "<h")
    ensures !Contains(a + ">\n\n" + b, "\n\n<h")
  {
    var s := a + ">\n\n" + b;
    var pat := "\n\n<h";
    forall i | 0 <= i <= |s| - |pat|
      ensures !OccursAt(s, pat, i)
    {
      if i < |a| {
        assert s[i] == a[i];
        Mismatch(s, pat, i, 0);
      } else if i == |a| {
        Mismatch(s, pat, i, 0);
      } else if i == |a| + 1 {
        assert b[..2] != "<h";
        if b[0] != '<' {
          assert s[i + 2] == b[0];
          Mismatch(s, pat, i, 2);
        } else {
          assert s[i + 3] == b[1];
          Mismatch(s, pat, i, 3);
        }
      } else if i == |a| + 2 {
        assert s[i + 1] == b[0];
        Mismatch(s, pat, i, 1);
      } else {
        assert s[i] == b[i - |a| - 3];
        Mismatch(s, pat, i, 0);
      }
    }
  }

  /** Any other CRLF becomes <br>. */
  lemma HtmlBodyLineBreak(a: string, b: string)
    requires OneLine(a) && OneLine(b) && !HasPrefix(b, "<h")
    ensures HtmlBody(a + "\r\n" + b) == a + "<br>" + b
  {
    var s := a + "\r\n" + b;
    CrlfNoHeading(a, b);
    ReplaceAllAbsent(s, "\r\n<h", "<h");
    CrlfNoBlankLine(a, b);
    ReplaceAllAbsent(s, "\n\n<h", "<h");
    CrlfNoTagBlank(a, b);
    ReplaceAllAbsent(s, ">\n\n", ">");
    NoStartBefore(a, "\r\n", b, 0);
    ReplaceAllSplice(a, "\r\n", "<br>", b);
    Untouched(b, "\r\n", "<br>", '\r');
  }

  lemma CrlfNoHeading(a: string, b: string)
    requires OneLine(a) && OneLine(b) && !HasPrefix(b, "<h")
    ensures !Contains(a + "\r\n" + b, "\r\n<h")
  {
    var s := a + "\r\n" + b;
    var pat := "\r\n<h";
    forall i | 0 <= i <= |s| - |pat|
      ensures !OccursAt(s, pat, i)
    {
      if i < |a| {
        assert s[i] == a[i];
        Mismatch(s, pat, i, 0);
      } else if i == |a| {
        assert b[..2] != "<h";
        if b[0] != '<' {
          assert s[i + 2] == b[0];
          Mismatch(s, pat, i, 2);
        } else {
          assert s[i + 3] == b[1];
          Mismatch(s, pat, i, 3);
        }
      } else if i == |a| + 1 {
        Mismatch(s, pat, i, 0);
      } else {
        assert s[i] == b[i - |a| - 2];
        Mismatch(s, pat, i, 0);
      }
    }
  }

  lemma CrlfNoBlankLine(a: string, b: string)
    requires OneLine(a) && OneLine(b)
    ensures !Contains(a + "\r\n" + b, "\n\n<h")
  {
    var s := a + "\r\n" + b;
    var pat := "\n\n<h";
    forall i | 0 <= i <= |s| - |pat|
      ensures !OccursAt(s, pat, i)
    {
      if i < |a| {
        assert s[i] == a[i];
        Mismatch(s, pat, i, 0);
      } else if i == |a| {
        Mismatch(s, pat, i, 0);
      } else if i == |a| + 1 {
        assert s[i + 1] == b[0];
        Mismatch(s, pat, i, 1);
      } else {
        assert s[i] == b[i - |a| - 2];
        Mismatch(s, pat, i, 0);
      }
    }
  }

  lemma CrlfNoTagBlank(a: string, b: string)
    requires OneLine(a) && OneLine(b)
    ensures !Contains(a + "\r\n" + b, ">\n\n")
  {
    var s := a + "\r\n" + b;
    var pat := ">\n\n";
    forall i | 0 <= i <= |s| - |pat|
      ensures !OccursAt(s, pat, i)
    {
      if i + 1 < |a| {
        assert s[i + 1] == a[i + 1];
        Mismatch(s, pat, i, 1);
      } else if i + 1 == |a| {
        Mismatch(s, pat, i, 1);
      } else if i == |a| {
        Mismatch(s, pat, i, 0);
      } else {
        assert s[i + 1] == b[i + 1 - |a| - 2];
        Mismatch(s, pat, i, 1);
      }
    }
  }

  /** The plain-text alternative: the body with every <br> turned back into CRLF. */
  function PlainAlternative(body: string): (p: string)
    ensures !Contains(p, "<br>")
  {
    ReplaceAllRemoves(body, "<br>", "\r\n");
    ReplaceAll(body, "<br>", "\r\n")
  }

  /** Lines joined by <br> come back joined by CRLF when no line holds a '<'. */
  lemma {:induction false} PlainAlternativeJoin(parts: seq<string>)
    requires forall p :: p in parts ==> '<' !in p
    ensures PlainAlternative(Join(parts, "<br>")) == Join(parts, "\r\n")
    decreases |parts|
  {
    if |parts| == 1 {
      assert parts[0] in parts;
      Untouched(parts[0], "<br>", "\r\n", '<');
    } else if |parts| > 1 {
      assert parts[0] in parts;
      assert forall p :: p in parts[1..] ==> p in parts;
      var rest := Join(parts[1..], "<br>");
      NoStartBefore(parts[0], "<br>", rest, 0);
      ReplaceAllSplice(parts[0], "<br>", "\r\n", rest);
      PlainAlternativeJoin(parts[1..]);
    }
  }

  /** The message `!send` builds from a session and the room's SMTP account. */
  function BuildEmail(s: Session, account: SmtpAccount, env: Env): (m: Email)
    ensures m.from == account.username && m.subject == s.subject
    ensures Join(m.to, ",") == s.receiver
    ensures m.html.Some? <==> s.markdown
    ensures m.html.Some? ==> !Contains(m.html.value, "\r\n") && !Contains(m.plain, "<br>")
    ensures !s.markdown ==> m.plain == s.body
    ensures s.markdown ==> m.html == Some(HtmlBody(env.toHtml(s.body))) && m.plain == PlainAlternative(s.body)
    ensures |m.files| == |s.attachments|
    ensures forall i :: 0 <= i < |m.files| ==> m.files[i] == env.tempDir + s.attachments[i]
  {
    var files := seq(|s.attachments|, i requires 0 <= i < |s.attachments| => env.tempDir + s.attachments[i]);
    if s.markdown then
      Email(account.username, Recipients(s.receiver), s.subject, Some(HtmlBody(env.toHtml(s.body))), PlainAlternative(s.body), files)
    else
      Email(account.username, Recipients(s.receiver), s.subject, None, s.body, files)
  }

  /** One "Attaching file" line per attachment, in order. */
  function AttachingReplies(names: seq<string>): (r: seq<Reply>)
    ensures |r| == |names|
    ensures forall i :: 0 <= i < |names| ==> r[i] == Attaching(names[i])
  {
    seq(|names|, i requires 0 <= i < |names| => Attaching(names[i]))
  }

  /**
    `!send`: without an SMTP account the session is dropped with error #52.
    Otherwise the message is built and handed to the dialer; either way the
    session ends, and a failed transfer also unbinds the SMTP account.
   */
  function Send(reg: Registry, room: RoomId, s: Session, env: Env): (o: Outcome)
    ensures o.session.None?
    ensures !HasSmtp(reg, room) ==> o.registry == reg && o.replies == [ServerError(52)] && o.dispatched.None?
    ensures HasSmtp(reg, room) ==> o.dispatched == Some(BuildEmail(s, reg[room].outbound.value, env))
    ensures HasSmtp(reg, room) ==> |o.replies| > |s.attachments| + 1 && o.replies[|s.attachments|] == Sending
    ensures HasSmtp(reg, room) && env.sendOk ==> o.registry == reg && o.replies[|o.replies| - 1] == SentOk
    ensures HasSmtp(reg, room) && !env.sendOk ==> o.registry == RemoveSmtp(reg, room) && !HasSmtp(o.registry, room)
    ensures HasSmtp(reg, room) ==> o.replies[..|s.attachments|] == AttachingReplies(s.attachments)
  {
    if !HasSmtp(reg, room) then Outcome(None, reg, [ServerError(52)], None)
    else
      var m := BuildEmail(s, reg[room].outbound.value, env);
      var head := AttachingReplies(s.attachments) + [Sending];
      if env.sendOk then Outcome(None, reg, head + [SentOk], Some(m))
      else Outcome(None, RemoveSmtp(reg, room), head + [SendFailed, RedoSetup], Some(m))
  }

  // ------------------------------------------------------------------ !rm

  /** The file-name loop of `!rm`: every token followed by one space. */
  function SpaceAfterEach(tokens: seq<string>): (r: string)
    ensures |tokens| > 0 ==> r == Join(tokens, " ") + " "
  {
    if |tokens| == 0 then ""
    else if |tokens| == 1 then tokens[0] + " "
    else
      var rest := SpaceAfterEach(tokens[1..]);
      assert Join(tokens, " ") == tokens[0] + " " + Join(tokens[1..], " ");
      tokens[0] + " " + rest
  }

  /** The attachment `!rm` names: the tokens after the first, rejoined by single spaces, right- then left-trimmed. */
  function RmFileName(message: string): string {
    TrimLeft(TrimRight(SpaceAfterEach(Split(message, ' ')[1..]), ' '), ' ')
  }

  /** `!rm <name>` targets exactly `name` when the name has no space at either end. */
  lemma RmFileNameOf(name: string)
    requires |name| > 0 ==> name[0] != ' ' && name[|name| - 1] != ' '
    ensures RmFileName("!rm " + name) == name
  {
    SplitNoSep("!rm", ' ');
    SplitAtFirst("!rm", ' ', name);
    assert "!rm " + name == "!rm" + [' '] + name;
    var tokens := Split(name, ' ');
    assert Split("!rm " + name, ' ')[1..] == tokens;
    JoinSplit(name, ' ');
    var joined := SpaceAfterEach(tokens);
    assert joined == name + " ";
    TrimRightOne(name);
    TrimLeftNone(name);
  }

  /** Right-trimming one added space off a name not ending in a space gives the name. */
  lemma TrimRightOne(name: string)
    requires |name| > 0 ==> name[|name| - 1] != ' '
    ensures TrimRight(name + " ", ' ') == name
  {
    var s := name + " ";
    assert s[..|s| - 1] == name;
    assert TrimRight(s, ' ') == TrimRight(name, ' ');
    assert TrimRight(name, ' ') == name;
  }

  /** Left-trimming a name that does not start with a space changes nothing. */
  lemma TrimLeftNone(name: string)
    requires |name| > 0 ==> name[0] != ' '
    ensures TrimLeft(name, ' ') == name
  {
  }

  /** The attachment list without any entry called `name`, order kept. */
  function Without(names: seq<string>, name: string): (r: seq<string>)
    ensures name !in r
    ensures forall x :: x in r <==> x in names && x != name
    ensures |r| <= |names|
    ensures name !in names ==> r == names
  {
    if |names| == 0 then []
    else if names[0] == name then Without(names[1..], name)
    else [names[0]] + Without(names[1..], name)
  }

  /**
    `!rm`: every attachment with the named file is dropped and the room is
    told "Attachment deleted!"; naming a file that is not attached changes
    nothing and gets the same answer.
   */
  function Remove(s: Session, message: string): (o: (Session, Reply))
    ensures o.1 == AttachmentDeleted
    ensures o.0 == s.(attachments := o.0.attachments) && RmFileName(message) !in o.0.attachments
    ensures forall x :: x in o.0.attachments <==> x in s.attachments && x != RmFileName(message)
    ensures RmFileName(message) !in s.attachments ==> o.0 == s
  {
    (s.(attachments := Without(s.attachments, RmFileName(message))), AttachmentDeleted)
  }

  // ------------------------------------------------------- body and files

  /** A text line joins the body with CRLF; a spaces-only body is replaced instead of extended. */
  function AppendLine(body: string, line: string): (b: string)
    ensures HasSuffix(b, line + "\r\n")
    ensures !Blank(b)
    ensures !Blank(body) ==> b == body + line + "\r\n"
    ensures Blank(body) ==> b == line + "\r\n"
  {
    ReplaceAllErases(body, ' ');
    var b := if |ReplaceAll(body, " ", "")| == 0 then line + "\r\n" else body + line + "\r\n";
    assert b[|b| - 2] == '\r';
    b
  }

  /** The lines of `lines`, each followed by CRLF. */
  function Lines(lines: seq<string>): string {
    if |lines| == 0 then "" else Lines(lines[..|lines| - 1]) + lines[|lines| - 1] + "\r\n"
  }

  /** Body text after appending `lines` in order, starting from `body`. */
  function AppendAll(body: string, lines: seq<string>): string {
    if |lines| == 0 then body else AppendLine(AppendAll(body, lines[..|lines| - 1]), lines[|lines| - 1])
  }

  /** Starting from a blank body, the body is exactly the lines sent, each ended by CRLF; leading spaces are dropped. */
  lemma {:induction false} AppendAllFromBlank(body: string, lines: seq<string>)
    requires Blank(body) && |lines| > 0
    ensures AppendAll(body, lines) == Lines(lines)
    decreases |lines|
  {
    var init := lines[..|lines| - 1];
    if |init| > 0 {
      AppendAllFromBlank(body, init);
      assert !Blank(AppendAll(body, init)) by {
        assert AppendAll(body, init) == AppendLine(AppendAll(body, init[..|init| - 1]), init[|init| - 1]);
      }
    } else {
      assert Lines(init) == "";
    }
  }

  /** The stored name of an uploaded file: upload time in Unix seconds, '_', the file's own name. */
  function StoredName(now: int, body: string): (name: string)
    ensures HasSuffix(name, "_" + body)
    ensures Cut(name, '_').0 == Itoa(now) && Cut(name, '_').1 == body
    ensures MinInt64 <= now <= MaxInt64 ==> Atoi(Cut(name, '_').0) == Some(now)
  {
    var name := Itoa(now) + "_" + body;
    assert name[|Itoa(now)|..] == "_" + body;
    ItoaNoUnderscore(now);
    assert name == Itoa(now) + ['_'] + body;
    CutAt(Itoa(now), body, '_');
    if MinInt64 <= now <= MaxInt64 then AtoiItoa(now); name else name
  }

  /** A decimal rendering holds no '_', so the first '_' of a stored name ends the time stamp. */
  lemma ItoaNoUnderscore(n: int)
    ensures '_' !in Itoa(n)
  {
    var s := Itoa(n);
    if n < 0 {
      assert s == "-" + Decimal(-n);
      assert forall i :: 1 <= i < |s| ==> s[i] == Decimal(-n)[i - 1];
    }
  }

  /**
    A file or image with an mxc:// url: downloaded, written to the temp
    directory under its stored name and added to the attachments; a failed
    download or write leaves the session as it was. This is the corrected
    handler, which downloads the checked url; AttachAsWritten is the source's.
   */
  function Attach(s: Session, evt: Event, env: Env): (o: (Session, seq<Reply>))
    requires evt.msgType == FileMsg || evt.msgType == ImageMsg
    ensures o.0 == s || o.0 == s.(attachments := s.attachments + [StoredName(env.now, evt.body)])
    ensures o.0 != s <==> HasPrefix(evt.url, "mxc://") && env.downloadOk && env.storeOk
    ensures !HasPrefix(evt.url, "mxc://") ==> o.1 == []
  {
    if !HasPrefix(evt.url, "mxc://") then (s, [])
    else if !env.downloadOk || !env.storeOk then (s, [DownloadFailed])
    else
      var name := StoredName(env.now, evt.body);
      assert |s.attachments + [name]| != |s.attachments|;
      (s.(attachments := s.attachments + [name]), [FileAttached(name)])
  }

  /**
    The text id.ParseContentURI accepts without an error: the empty text
    (an empty URI), or "mxc://" followed by text whose first '/' is not its
    last character. The server name before that '/' may be empty.
    MustParseContentURI panics on everything else.
   */
  predicate ContentUri(u: string) {
    u == "" || (HasPrefix(u, "mxc://") && Cut(u[6..], '/').2 && |Cut(u[6..], '/').1| > 0)
  }

  /** A "mxc://" text parses exactly when the rest has a '/' that is not its last character. */
  lemma ContentUriOf(server: string, media: string)
    requires '/' !in server
    ensures ContentUri("mxc://" + server + "/" + media) <==> |media| > 0
  {
    var u := "mxc://" + server + "/" + media;
    assert u[..6] == "mxc://";
    assert u[6..] == server + ['/'] + media;
    CutAt(server, media, '/');
  }

  /** The library accepts an empty text and an empty server name. */
  lemma ContentUriAcceptsEmpty()
    ensures ContentUri("") && ContentUri("mxc:///abc")
  {
    ContentUriOf("", "abc");
    assert "mxc://" + "" + "/" + "abc" == "mxc:///abc";
  }

  /** A server name and a media id parse; a final '/' after the server name does not. */
  lemma ContentUriNeedsMedia()
    ensures ContentUri("mxc://a.b/c") && !ContentUri("mxc://a.b/")
  {
    ContentUriOf("a.b", "c");
    assert "mxc://" + "a.b" + "/" + "c" == "mxc://a.b/c";
    ContentUriOf("a.b", "");
    assert "mxc://" + "a.b" + "/" + "" == "mxc://a.b/";
  }

  /** Without any '/' after the scheme, or without the scheme, nothing parses. */
  lemma ContentUriRejects()
    ensures !ContentUri("mxc://a.b") && !ContentUri("report.pdf")
  {
    assert "mxc://a.b"[6..] == "a.b";
    assert "report.pdf"[0] != "mxc://"[0];
  }

  /**
    Attach as the source writes it: the download parses the message body,
    which is the file's name, as the content URI, and the checked url is
    never used. None is the panic of MustParseContentURI.
   */
  function AttachAsWritten(s: Session, evt: Event, env: Env): (o: Option<(Session, seq<Reply>)>)
    requires evt.msgType == FileMsg || evt.msgType == ImageMsg
    ensures o.None? <==> HasPrefix(evt.url, "mxc://") && !ContentUri(evt.body)
    ensures o.Some? && !HasPrefix(evt.url, "mxc://") ==> o.value == (s, [])
  {
    if !HasPrefix(evt.url, "mxc://") then Some((s, []))
    else if !ContentUri(evt.body) then None
    else Some(Attach(s, evt, env))
  }

  /**
    An upload named like an ordinary file, "report.pdf", with a valid url
    makes the code as written panic, while the corrected Attach stores it.
   */
  lemma UploadByNamePanics(s: Session, env: Env)
    requires env.downloadOk && env.storeOk
    ensures var evt := Event(FileMsg, "report.pdf", "mxc://example.org/abc");
      && AttachAsWritten(s, evt, env).None?
      && Attach(s, evt, env).0.attachments == s.attachments + [StoredName(env.now, "report.pdf")]
  {
    var evt := Event(FileMsg, "report.pdf", "mxc://example.org/abc");
    assert evt.url[..6] == "mxc://";
    assert evt.body[0] != "mxc://"[0];
    assert Attach(s, evt, env).0 != s;
  }

  // ------------------------------------------------------------ the step

  /** The subject phase: a text message, whatever it says, becomes the subject; anything else is refused. */
  function SubjectPhase(reg: Registry, s: Session, evt: Event): (o: Outcome)
    ensures o.registry == reg && o.dispatched.None?
    ensures evt.msgType == Text ==> o.session == Some(s.(subject := evt.body)) && o.replies == [ContentPrompt]
    ensures evt.msgType != Text ==> o.session == Some(s) && o.replies == [SubjectNeeded]
  {
    if evt.msgType != Text then Outcome(Some(s), reg, [SubjectNeeded], None)
    else Outcome(Some(s.(subject := evt.body)), reg, [ContentPrompt], None)
  }

  /** After the subject: "!send", "!cancel", any text starting with "!rm", body lines and file uploads (through the corrected Attach). */
  function BodyPhase(reg: Registry, room: RoomId, s: Session, evt: Event, env: Env): (o: Outcome)
    ensures o.session.None? <==> evt.body == "!send" || evt.body == "!cancel"
    ensures evt.body == "!send" && HasSmtp(reg, room) ==>
      o.dispatched == Some(BuildEmail(s, reg[room].outbound.value, env)) && (o.registry == reg <==> env.sendOk)
    ensures evt.body == "!send" && !HasSmtp(reg, room) ==> o.replies == [ServerError(52)] && o.registry == reg
    ensures HasPrefix(evt.body, "!rm") ==>
      o.session == Some(s.(attachments := Without(s.attachments, RmFileName(evt.body)))) && o.replies == [AttachmentDeleted]
    ensures evt.body != "!send" && evt.body != "!cancel" && !HasPrefix(evt.body, "!rm") && (evt.msgType == FileMsg || evt.msgType == ImageMsg) ==>
      o.session == Some(Attach(s, evt, env).0) && o.replies == Attach(s, evt, env).1 && o.registry == reg
    ensures o.dispatched.Some? ==> evt.body == "!send" && HasSmtp(reg, room)
    ensures o.registry == reg || (o.registry == RemoveSmtp(reg, room) && o.dispatched.Some? && !env.sendOk)
    ensures o.session.Some? ==> o.session.value.(attachments := s.attachments, body := s.body) == s
    ensures evt.body == "!cancel" ==> o.replies == [Canceled] && o.registry == reg && o.dispatched.None?
    ensures evt.body != "!send" && evt.body != "!cancel" && !HasPrefix(evt.body, "!rm") && evt.msgType == Text ==>
      o.session == Some(s.(body := AppendLine(s.body, evt.body)))
  {
    var message := evt.body;
    RmIsNoOtherCommand();
    if message == "!send" then SendUnbindsOnFailure(reg, room, s, env); Send(reg, room, s, env)
    else if message == "!cancel" then Outcome(None, reg, [Canceled], None)
    else if HasPrefix(message, "!rm") then
      var (s', reply) := Remove(s, message);
      Outcome(Some(s'), reg, [reply], None)
    else Content(reg, s, evt, env)
  }

  /** A message that is no command: a text line for the body, a file for the attachments, anything else ignored. */
  function Content(reg: Registry, s: Session, evt: Event, env: Env): (o: Outcome)
    ensures o.registry == reg && o.dispatched.None? && o.session.Some?
    ensures o.session.value.(attachments := s.attachments, body := s.body) == s
    ensures evt.msgType == Text ==> o.session == Some(s.(body := AppendLine(s.body, evt.body)))
    ensures evt.msgType == FileMsg || evt.msgType == ImageMsg ==>
      o.session == Some(Attach(s, evt, env).0) && o.replies == Attach(s, evt, env).1
  {
    if evt.msgType == Text then Outcome(Some(s.(body := AppendLine(s.body, evt.body))), reg, [], None)
    else if evt.msgType == FileMsg || evt.msgType == ImageMsg then
      var (s', replies) := Attach(s, evt, env);
      Outcome(Some(s'), reg, replies, None)
    else Outcome(Some(s), reg, [], None)
  }

  /** Neither "!send" nor "!cancel" starts with "!rm". */
  lemma RmIsNoOtherCommand()
    ensures !HasPrefix("!send", "!rm") && !HasPrefix("!cancel", "!rm")
  {
    assert "!send"[1] != "!rm"[1];
    assert "!cancel"[1] != "!rm"[1];
  }

  /** A transfer failure is the only way `!send` changes the registry. */
  lemma SendUnbindsOnFailure(reg: Registry, room: RoomId, s: Session, env: Env)
    ensures HasSmtp(reg, room) ==> (Send(reg, room, s, env).registry == reg <==> env.sendOk)
  {
    if HasSmtp(reg, room) && !env.sendOk {
      assert !HasSmtp(Send(reg, room, s, env).registry, room);
    }
  }

  /** The subject is unset exactly when trimming spaces leaves nothing. */
  lemma TrimBlank(s: string)
    ensures |Trim(s, ' ')| == 0 <==> Blank(s)
  {
  }

  /**
    writingEmail for one room message: the subject phase while the
    space-trimmed subject is empty, the body phase after.
   */
  function WritingEmail(reg: Registry, room: RoomId, s: Session, evt: Event, env: Env): (o: Outcome)
    ensures Blank(s.subject) ==> o.session.Some? && o.dispatched.None?
    ensures Blank(s.subject) && evt.msgType == Text ==> o.session.value.subject == evt.body
    ensures o.session.None? <==> !Blank(s.subject) && (evt.body == "!send" || evt.body == "!cancel")
    ensures o.dispatched.Some? ==> !Blank(s.subject) && evt.body == "!send" && HasSmtp(reg, room)
    ensures o.registry == reg || (o.registry == RemoveSmtp(reg, room) && o.dispatched.Some? && !env.sendOk)
    ensures o.session.Some? ==> o.session.value.receiver == s.receiver && o.session.value.markdown == s.markdown
    ensures !Blank(s.subject) && evt.body == "!send" && HasSmtp(reg, room) ==>
      o.dispatched == Some(BuildEmail(s, reg[room].outbound.value, env)) && (o.registry == reg <==> env.sendOk)
    ensures !Blank(s.subject) && HasPrefix(evt.body, "!rm") ==>
      o.session == Some(s.(attachments := Without(s.attachments, RmFileName(evt.body))))
    ensures !Blank(s.subject) && evt.body != "!send" && evt.body != "!cancel" && !HasPrefix(evt.body, "!rm") && evt.msgType == Text ==>
      o.session == Some(s.(body := AppendLine(s.body, evt.body)))
  {
    TrimBlank(s.subject);
    if |Trim(s.subject, ' ')| == 0 then SubjectPhase(reg, s, evt)
    else BodyPhase(reg, room, s, evt, env)
  }

  /**
    A whole plain-text session: the first message sets the subject, the
    second is the only body line, and "!send" hands the dialer exactly that
    message, with no attachments, and ends the session.
   */
  lemma ComposeAndSend(reg: Registry, room: RoomId, receiver: string, subject: string, line: string, env: Env)
    requires HasSmtp(reg, room) && env.sendOk && !Blank(subject)
    requires line != "!send" && line != "!cancel" && !HasPrefix(line, "!rm")
    ensures var o1 := WritingEmail(reg, room, NewSession(receiver, false), Event(Text, subject, ""), env);
      var o2 := WritingEmail(reg, room, o1.session.value, Event(Text, line, ""), env);
      var o3 := WritingEmail(reg, room, o2.session.value, Event(Text, "!send", ""), env);
      && o3.dispatched == Some(Email(reg[room].outbound.value.username, Recipients(receiver), subject, None, line + "\r\n", []))
      && o3.session.None? && o3.registry == reg && o3.replies == [Sending, SentOk]
  {
    var s0 := NewSession(receiver, false);
    var s1 := s0.(subject := subject);
    SubjectStep(reg, room, s0, subject, env);
    var s2 := s1.(body := line + "\r\n");
    LineStep(reg, room, s1, line, env);
    SendStep(reg, room, s2, env);
    assert s2 == Session(receiver, subject, line + "\r\n", false, []);
  }

  lemma SubjectStep(reg: Registry, room: RoomId, s: Session, subject: string, env: Env)
    requires Blank(s.subject)
    ensures WritingEmail(reg, room, s, Event(Text, subject, ""), env).session == Some(s.(subject := subject))
  {
  }

  lemma LineStep(reg: Registry, room: RoomId, s: Session, line: string, env: Env)
    requires !Blank(s.subject) && Blank(s.body)
    requires line != "!send" && line != "!cancel" && !HasPrefix(line, "!rm")
    ensures WritingEmail(reg, room, s, Event(Text, line, ""), env).session == Some(s.(body := line + "\r\n"))
  {
  }

  lemma SendStep(reg: Registry, room: RoomId, s: Session, env: Env)
    requires HasSmtp(reg, room) && env.sendOk && !Blank(s.subject) && !s.markdown && s.attachments == []
    ensures var o := WritingEmail(reg, room, s, Event(Text, "!send", ""), env);
      && o.dispatched == Some(Email(reg[room].outbound.value.username, Recipients(s.receiver), s.subject, None, s.body, []))
      && o.session.None? && o.registry == reg && o.replies == [Sending, SentOk]
  {
    WritingSendIsSend(reg, room, s, env);
    SendPlain(reg, room, s, env);
  }

  /** Send of a plain session without attachments, delivered. */
  lemma SendPlain(reg: Registry, room: RoomId, s: Session, env: Env)
    requires HasSmtp(reg, room) && env.sendOk && !s.markdown && s.attachments == []
    ensures Send(reg, room, s, env)
      == Outcome(None, reg, [Sending, SentOk], Some(Email(reg[room].outbound.value.username, Recipients(s.receiver), s.subject, None, s.body, [])))
  {
    var m := BuildEmail(s, reg[room].outbound.value, env);
    assert AttachingReplies(s.attachments) == [];
    assert m.files == [];
  }

  /** Once the subject is set, "!send" is exactly Send. */
  lemma WritingSendIsSend(reg: Registry, room: RoomId, s: Session, env: Env)
    requires !Blank(s.subject)
    ensures WritingEmail(reg, room, s, Event(Text, "!send", ""), env) == Send(reg, room, s, env)
  {
    var evt := Event(Text, "!send", "");
    TrimBlank(s.subject);
    assert WritingEmail(reg, room, s, evt, env) == BodyPhase(reg, room, s, evt, env);
  }
}

=== FILE: conv.dfy ===
/**
  The part of Go's `strconv` package the bridge relies on: Atoi for the SMTP
  port, Itoa for mail identifiers and attachment names, ParseBool for the
  ignoreSSL and markdown flags.
 */
module GoConv {
  import opened Optional

  /** Bounds of Go's `int` on a 64-bit platform; Atoi rejects values outside them. */
  const MinInt64: int := -0x8000_0000_0000_0000
  const MaxInt64: int := 0x7FFF_FFFF_FFFF_FFFF

  predicate IsDigit(c: char) {
    '0' <= c <= '9'
  }

  predicate AllDigits(s: string) {
    forall i :: 0 <= i < |s| ==> IsDigit(s[i])
  }

  function DigitValue(c: char): nat
    requires IsDigit(c)
  {
    c as int - '0' as int
  }

  function DigitChar(d: nat): char
    requires d < 10
  {
    ('0' as int + d) as char
  }

  /** The value of a string of decimal digits, most significant first. */
  function DecimalValue(s: string): nat
    requires AllDigits(s)
  {
    if |s| == 0 then 0 else DecimalValue(s[..|s| - 1]) * 10 + DigitValue(s[|s| - 1])
  }

  /** The shortest decimal rendering of `n`. */
  function Decimal(n: nat): (s: string)
    ensures |s| > 0 && AllDigits(s)
  {
    if n < 10 then [DigitChar(n)] else Decimal(n / 10) + [DigitChar(n % 10)]
  }

  /** strconv.Itoa: decimal, with a leading '-' for negative numbers. */
  function Itoa(n: int): string {
    if n < 0 then "-" + Decimal(-n) else Decimal(n)
  }

  /** `s` without one leading sign character. */
  function Unsigned(s: string): string {
    if |s| > 0 && (s[0] == '+' || s[0] == '-') then s[1..] else s
  }

  /**
    strconv.Atoi: an optional '+' or '-', then at least one decimal digit,
    and a value that fits Go's 64-bit `int`; anything else is an error (None).
   */
  function Atoi(s: string): (r: Option<int>)
    ensures r.Some? ==> MinInt64 <= r.value <= MaxInt64
    ensures r.Some? ==> |Unsigned(s)| > 0 && AllDigits(Unsigned(s))
    ensures r.Some? ==> (r.value < 0 ==> s[0] == '-') && (s[0] == '-' ==> r.value <= 0)
  {
    var signed := |s| > 0 && (s[0] == '+' || s[0] == '-');
    var digits := if signed then s[1..] else s;
    if |digits| == 0 || !AllDigits(digits) then None
    else
      var magnitude: int := DecimalValue(digits);
      var v := if signed && s[0] == '-' then -magnitude else magnitude;
      if MinInt64 <= v <= MaxInt64 then Some(v) else None
  }

  /** Reading back a decimal rendering gives the number. */
  lemma {:induction false} DecimalRoundTrip(n: nat)
    ensures DecimalValue(Decimal(n)) == n
    decreases n
  {
    if n >= 10 {
      DecimalRoundTrip(n / 10);
      var s := Decimal(n);
      assert s[..|s| - 1] == Decimal(n / 10);
      assert DigitValue(DigitChar(n % 10)) == n % 10;
    }
  }

  /** Atoi undoes Itoa on every value of Go's `int`. */
  lemma AtoiItoa(n: int)
    requires MinInt64 <= n <= MaxInt64
    ensures Atoi(Itoa(n)) == Some(n)
  {
    var s := Itoa(n);
    if n < 0 {
      DecimalRoundTrip(-n);
      assert s[0] == '-' && s[1..] == Decimal(-n);
    } else {
      DecimalRoundTrip(n);
      assert IsDigit(s[0]);
    }
  }

  /** The spellings strconv.ParseBool accepts for true. */
  const TrueWords: set<string> := {"1", "t", "T", "TRUE", "true", "True"}

  /** The spellings strconv.ParseBool accepts for false. */
  const FalseWords: set<string> := {"0", "f", "F", "FALSE", "false", "False"}

  /** strconv.ParseBool: None is the syntax error for any other spelling. */
  function ParseBool(s: string): Option<bool> {
    if s in TrueWords then Some(true)
    else if s in FalseWords then Some(false)
    else None
  }
}

=== FILE: matrix.dfy ===
/**
  The Matrix-side helpers of the bridge: the server part of a Matrix ID,
  the invite allow-list, the data directory, and routing of room messages
  between the compose session and the command table.
 */
module Matrix {
  import opened Optional
  import opened GoStrings

  /**
    getHostFromMatrixID: no ':' gives ("", 0); exactly one gives the text
    after it and -1; more than one gives ("", 1).
   */
  function HostFromMatrixId(matrixId: string): (r: (string, int))
    ensures r.1 == 0 <==> ':' !in matrixId
    ensures r.1 == -1 <==> CountChar(matrixId, ':') == 1
    ensures r.1 == 1 <==> CountChar(matrixId, ':') >= 2
    ensures r.1 != -1 ==> r.0 == ""
    ensures r.1 == -1 ==> ':' !in r.0 && exists user :: ':' !in user && matrixId == user + ":" + r.0
  {
    ContainsChar(matrixId, ':');
    if Contains(matrixId, ":") then
      var parts := Split(matrixId, ':');
      if |parts| == 2 then
        JoinSplit(matrixId, ':');
        assert matrixId == parts[0] + ":" + parts[1];
        (parts[1], -1)
      else ("", 1)
    else ("", 0)
  }

  /** A user ID with one ':' yields exactly its server name. */
  lemma HostOfUserId(user: string, server: string)
    requires ':' !in user && ':' !in server
    ensures HostFromMatrixId(user + ":" + server) == (server, -1)
  {
    SplitNoSep(server, ':');
    SplitAtFirst(user, ':', server);
    assert user + ":" + server == user + [':'] + server;
  }

  /** contains: a linear scan for `x`. */
  method ListContains(a: seq<string>, x: string) returns (found: bool)
    ensures found <==> x in a
  {
    found := false;
    var i := 0;
    while i < |a|
      invariant 0 <= i <= |a|
      invariant !found
      invariant x !in a[..i]
    {
      if x == a[i] {
        found := true;
        return;
      }
      i := i + 1;
    }
    assert a[..i] == a;
  }

  /** What the bot does with an invite. */
  datatype InviteDecision = JoinRoom | LeaveRoom | NoAction

  /**
    The invite handler: a sender whose ID has exactly one ':' is accepted
    when its server is allowed and refused otherwise; any other sender ID
    only logs.
   */
  method DecideInvite(sender: string, allowed: seq<string>) returns (d: InviteDecision)
    ensures d == JoinRoom <==> HostFromMatrixId(sender).1 == -1 && HostFromMatrixId(sender).0 in allowed
    ensures d == LeaveRoom <==> HostFromMatrixId(sender).1 == -1 && HostFromMatrixId(sender).0 !in allowed
    ensures d == NoAction <==> CountChar(sender, ':') != 1
  {
    var (host, code) := HostFromMatrixId(sender);
    if code == -1 {
      var ok := ListContains(allowed, host);
      d := if ok then JoinRoom else LeaveRoom;
    } else {
      d := NoAction;
    }
  }

  /** Already normal: starts with "/" or "./" and ends with "/". */
  predicate NormalDir(p: string) {
    (HasPrefix(p, "/") || HasPrefix(p, "./")) && HasSuffix(p, "/")
  }

  /** BRIDGE_DATA_PATH normalisation: "./" in front of a relative path, "/" at the end. */
  function NormalizeDir(arg: string): (p: string)
    ensures NormalDir(p)
    ensures NormalDir(arg) ==> p == arg
    ensures exists pre, post :: pre in {"", "./"} && post in {"", "/"} && p == pre + arg + post
    ensures |p| == |arg| + (if HasPrefix(arg, "/") || HasPrefix(arg, "./") then 0 else 2)
                         + (if HasSuffix(arg, "/") || arg == "" then 0 else 1)
  {
    var a := Rooted(arg);
    var p := Slashed(a);
    assert a != arg ==> (HasSuffix(a, "/") <==> HasSuffix(arg, "/") || arg == "") by {
      if a != arg { DotSlashSuffix(arg); }
    }
    assert p == (if a == arg then "" else "./") + arg + (if p == a then "" else "/");
    p
  }

  /** "./" in front of a path that is neither absolute nor explicitly relative. */
  function Rooted(arg: string): (a: string)
    ensures HasPrefix(a, "/") || HasPrefix(a, "./")
    ensures a == arg <==> HasPrefix(arg, "/") || HasPrefix(arg, "./")
    ensures a != arg ==> a == "./" + arg
  {
    if !HasPrefix(arg, "/") && !HasPrefix(arg, "./") then
      var a := "./" + arg;
      assert a[..2] == "./";
      a
    else arg
  }

  /** "/" at the end of a path that lacks one; the start is kept. */
  function Slashed(a: string): (p: string)
    requires HasPrefix(a, "/") || HasPrefix(a, "./")
    ensures HasPrefix(p, "/") || HasPrefix(p, "./")
    ensures HasSuffix(p, "/")
    ensures p == a <==> HasSuffix(a, "/")
    ensures p != a ==> p == a + "/"
  {
    if !HasSuffix(a, "/") then
      var p := a + "/";
      ExtendKeepsPrefix(a, "/", "/");
      ExtendKeepsPrefix(a, "/", "./");
      assert p[|p| - 1..] == "/";
      p
    else a
  }

  /** Appending text keeps every prefix. */
  lemma ExtendKeepsPrefix(a: string, tail: string, prefix: string)
    ensures HasPrefix(a, prefix) ==> HasPrefix(a + tail, prefix)
  {
    if HasPrefix(a, prefix) { assert (a + tail)[..|prefix|] == a[..|prefix|]; }
  }

  /** "./" + arg ends with '/' exactly when arg does or arg is empty. */
  lemma DotSlashSuffix(arg: string)
    ensures HasSuffix("./" + arg, "/") <==> HasSuffix(arg, "/") || arg == ""
  {
    var a := "./" + arg;
    if |arg| > 0 { assert a[|a| - 1..] == arg[|arg| - 1..]; }
  }

  /** Normalising twice is normalising once. */
  lemma NormalizeIdempotent(arg: string)
    ensures NormalizeDir(NormalizeDir(arg)) == NormalizeDir(arg)
  {
  }

  /** The directory prefix: "./" without BRIDGE_DATA_PATH, its normal form otherwise. */
  function DataDir(env: string): (p: string)
    ensures NormalDir(p)
    ensures |env| == 0 ==> p == "./"
    ensures |env| > 0 ==> p == NormalizeDir(env)
  {
    if |env| > 0 then NormalizeDir(env) else "./"
  }

  /** The attachment directory, "temp/" under the data directory. */
  function TempDir(env: string): (t: string)
    ensures HasPrefix(t, DataDir(env)) && t[|DataDir(env)|..] == "temp/"
    ensures NormalDir(t)
  {
    var d := DataDir(env);
    ExtendNormal(d, "temp/");
    d + "temp/"
  }

  /** A normal directory followed by a relative directory name is normal, and keeps it as prefix. */
  lemma ExtendNormal(d: string, tail: string)
    requires NormalDir(d) && HasSuffix(tail, "/")
    ensures HasPrefix(d + tail, d) && (d + tail)[|d|..] == tail
    ensures NormalDir(d + tail)
  {
    var t := d + tail;
    assert t[|d|..] == tail;
    assert t[..|d|] == d;
    ExtendKeepsPrefix(d, tail, "/");
    ExtendKeepsPrefix(d, tail, "./");
    assert t[|t| - 1..] == tail[|tail| - 1..];
  }

  /** Room membership of the bot as the sync store records it. */
  datatype Membership = Joined | Invited | Left

  /** Where a room message goes. */
  datatype Route = Drop | ToCompose | ToCommands

  /**
    The message handler: the bot's own messages, messages in a room it
    left and messages older than its membership are dropped; a room with an
    open compose session goes to writingEmail, any other to runCommand.
   */
  function RouteMessage(sender: string, self: string, membership: Membership,
                        memberSince: int, sent: int, composing: bool): (r: Route)
    ensures r == Drop <==> sender == self || membership == Left || memberSince > sent
    ensures r == ToCompose <==> r != Drop && composing
    ensures r == ToCommands <==> r != Drop && !composing
  {
    if sender == self then Drop
    else if membership == Left || memberSince > sent then Drop
    else if composing then ToCompose
    else ToCommands
  }
}

=== FILE: notify.dfy ===
/**
  handleMail: the chat notification for one new mail. The blocklist matcher,
  HTML escaping and markdown rendering are parameters.
 */
module Notify {
  import opened Optional
  import opened GoStrings

  /** What getMailContent extracts from a mail, and whether the room renders HTML. */
  datatype MailContent = MailContent(
    from: string,
    subject: string,
    body: string,
    senders: seq<string>,
    htmlFormat: bool)

  /** A plain text message, or an HTML message with its plain fallback. */
  datatype Notification =
    | PlainText(text: string)
    | Formatted(text: string, html: string)

  const PlainLead: string := "You've got a new Email from "
  const HtmlLead: string := "<b>You've got a new Email</b> from <b>"
  const Separator: string := "<br>────────────────<br>"

  /** The first two lines of the plain text: sender and subject. */
  function PlainHeader(from: string, subject: string): string {
    PlainLead + from + "\r\n" + "Subject: " + subject + "\r\n"
  }

  /** The bold header of the HTML variant: sender, then the subject on its own line. */
  function HtmlHeader(from: string, subject: string): string {
    HtmlLead + from + "</b><br>" + "Subject: " + subject
  }

  /** The HTML variant: the header, a rule, and the rendered body. */
  function HtmlMessage(from: string, subject: string, rendered: string): (h: string)
    ensures HasPrefix(h, HtmlLead + from) && HasSuffix(h, Separator + rendered)
    ensures HasPrefix(h, HtmlHeader(from, subject))
    ensures |h| == |HtmlHeader(from, subject)| + |Separator + rendered|
  {
    var head := HtmlHeader(from, subject);
    var h := head + (Separator + rendered);
    assert h[..|head|] == head;
    assert head[..|HtmlLead + from|] == HtmlLead + from;
    assert h[..|HtmlLead + from|] == HtmlLead + from;
    assert h[|head|..] == Separator + rendered;
    h
  }

  /**
    handleMail: nothing when the content could not be read or any sender
    is blocked; otherwise the plain text (sender, subject, body) and, for a
    room with HTML on, the HTML variant with a rule between header and body.
   */
  function HandleMail(content: Option<MailContent>, blocked: string -> bool,
                      escape: string -> string, toHtml: string -> string): (r: Option<Notification>)
    ensures content.None? ==> r.None?
    ensures content.Some? ==> (r.None? <==> exists i :: 0 <= i < |content.value.senders| && blocked(content.value.senders[i]))
    ensures r.Some? ==> r.value.Formatted? == content.value.htmlFormat
    ensures r.Some? ==> r.value.text == PlainHeader(escape(content.value.from), content.value.subject) + content.value.body
    ensures r.Some? && r.value.Formatted? ==>
      HasPrefix(r.value.html, HtmlLead + escape(content.value.from)) && HasSuffix(r.value.html, Separator + toHtml(content.value.body))
    ensures r.Some? && r.value.Formatted? ==>
      && HasPrefix(r.value.html, HtmlHeader(escape(content.value.from), content.value.subject))
      && |r.value.html| == |HtmlHeader(escape(content.value.from), content.value.subject)| + |Separator + toHtml(content.value.body)|
  {
    match content
    case None => None
    case Some(c) =>
      if AnyBlocked(c.senders, blocked) then None
      else
        var from := escape(c.from);
        var plain := PlainHeader(from, c.subject) + c.body;
        if c.htmlFormat then
          Some(Formatted(plain, HtmlMessage(from, c.subject, toHtml(c.body))))
        else Some(PlainText(plain))
  }

  /** The sender loop: true as soon as one address is blocked. */
  function AnyBlocked(senders: seq<string>, blocked: string -> bool): (b: bool)
    ensures b <==> exists i :: 0 <= i < |senders| && blocked(senders[i])
  {
    if |senders| == 0 then false
    else if blocked(senders[0]) then true
    else
      var rest := AnyBlocked(senders[1..], blocked);
      assert forall i :: 1 <= i < |senders| ==> senders[i] == senders[1..][i - 1];
      rest
  }

  /** The HTML variant carries the subject right after the bold sender line. */
  lemma HtmlShowsSubject(c: MailContent, blocked: string -> bool, escape: string -> string, toHtml: string -> string)
    requires c.htmlFormat && !AnyBlocked(c.senders, blocked)
    ensures var r := HandleMail(Some(c), blocked, escape, toHtml);
      r.Some? && r.value.Formatted? &&
      OccursAt(r.value.html, "Subject: " + c.subject, |HtmlLead + escape(c.from) + "</b><br>"|)
  {
    var html := HandleMail(Some(c), blocked, escape, toHtml).value.html;
    var head := HtmlHeader(escape(c.from), c.subject);
    var i := |HtmlLead + escape(c.from) + "</b><br>"|;
    assert html[..|head|] == head;
    assert head[i..] == "Subject: " + c.subject;
    assert html[i..i + |"Subject: " + c.subject|] == head[i..];
  }

  /**
    A reader of the plain text recovers the sender: the first line ends at
    the first CR, as long as the escaped sender holds none.
   */
  lemma SenderLineReadsBack(from: string, subject: string, body: string)
    requires '\r' !in from
    ensures Cut(PlainHeader(from, subject) + body, '\r').0 == PlainLead + from
  {
    var line := PlainLead + from;
    assert '\r' !in PlainLead;
    assert '\r' !in line;
    var s := PlainHeader(from, subject) + body;
    assert s == line + ['\r'] + ("\n" + "Subject: " + subject + "\r\n" + body);
    CutFirst(s, line, '\r');
  }
}

=== FILE: poll.dfy ===
/**
  The mail listener of one room, as a sequential step function: each step
  is one pass of the goroutine loop in startMailListener together with the
  fetchNewMails call it makes. Also stopMailChecker and its quit channels.
 */
module Poll {
  import opened Optional
  import opened GoConv
  import opened Accounts

  /** maxRoomChecks: checks on one connection before it is renewed. */
  const MaxRoomChecks: int := 15

  /** maxErrUntilReconnect: failed fetches retried before a reconnect. */
  const MaxErrUntilReconnect: int := 10

  /** Above this many login errors every further failure logs a warning. */
  const TooManyLoginErrors: int := 15

  /** The imapErrors record of a room. */
  datatype ImapError = ImapError(retryCount: int, loginErrCount: int)

  /**
    Per-room listener state: the checksPerAccount entry (None while absent),
    the imapErrors record, the silence flag of the account copy the listener
    runs with, and the mail identifiers recorded for the room.
   */
  datatype Listener = Listener(
    checks: Option<int>,
    error: Option<ImapError>,
    silence: bool,
    seen: set<string>)

  /** getChecksForAccount: an absent counter reads as 0. */
  function Checks(l: Listener): (n: int)
    ensures l.checks.None? ==> n == 0
    ensures l.checks.Some? ==> n == l.checks.value
  {
    l.checks.GetOr(0)
  }

  /** hasError: whether a record exists, and its retry count (-1 without one). */
  function HasError(l: Listener): (r: (bool, int))
    ensures r.0 <==> l.error.Some?
    ensures r.0 ==> r.1 == l.error.value.retryCount
    ensures !r.0 ==> r.1 == -1
  {
    if l.error.Some? then (true, l.error.value.retryCount) else (false, -1)
  }

  /** The part of an IMAP envelope the listener reads. */
  datatype Envelope = Envelope(subject: string, unix: int, senders: seq<string>)

  /** What getMails returns: no section with an error code, or the listed messages. */
  datatype Fetch = Failure(errCode: int) | Batch(mails: seq<Envelope>)

  /** The identifier a mail is recorded under: its subject followed by its date in decimal Unix seconds. */
  function MailId(e: Envelope): (id: string)
    ensures |id| > |e.subject| && id[..|e.subject|] == e.subject
    ensures MinInt64 <= e.unix <= MaxInt64 ==> Atoi(id[|e.subject|..]) == Some(e.unix)
  {
    var id := e.subject + Itoa(e.unix);
    assert id[|e.subject|..] == Itoa(e.unix);
    if MinInt64 <= e.unix <= MaxInt64 then AtoiItoa(e.unix); id else id
  }

  /** The identifiers of a list of mails. */
  function Ids(mails: seq<Envelope>): (ids: set<string>)
    ensures forall i :: 0 <= i < |mails| ==> MailId(mails[i]) in ids
  {
    if |mails| == 0 then {}
    else
      var rest := Ids(mails[1..]);
      assert forall i :: 1 <= i < |mails| ==> mails[i] == mails[1..][i - 1];
      {MailId(mails[0])} + rest
  }

  /** Ids holds nothing but identifiers of the mails. */
  lemma {:induction false} IdsOnly(mails: seq<Envelope>)
    ensures forall id :: id in Ids(mails) ==> IdOf(id, mails)
    decreases |mails|
  {
    if |mails| > 0 {
      var tail := mails[1..];
      IdsOnly(tail);
      assert Ids(mails) == {MailId(mails[0])} + Ids(tail);
      assert IdOf(MailId(mails[0]), mails);
      forall id | id in Ids(tail)
        ensures IdOf(id, mails)
      {
        assert IdOf(id, tail);
        var i :| 0 <= i < |tail| && MailId(tail[i]) == id;
        assert tail[i] == mails[i + 1];
      }
    }
  }

  /** `id` is the identifier of one of `mails`. */
  predicate IdOf(id: string, mails: seq<Envelope>) {
    exists i :: 0 <= i < |mails| && MailId(mails[i]) == id
  }

  /** No identifier occurs twice among `mails`. */
  predicate DistinctIds(mails: seq<Envelope>) {
    forall j, k :: 0 <= j < k < |mails| ==> MailId(mails[j]) != MailId(mails[k])
  }

  /**
    The message loop of fetchNewMails: a mail whose identifier is already
    recorded is skipped; any other is recorded, and handed on for
    notification unless the listener is silent. Identifiers recorded earlier
    in the same batch count as recorded.
   */
  function Dedup(mails: seq<Envelope>, seen: set<string>, silence: bool): (r: (set<string>, seq<Envelope>))
    ensures r.0 == seen + Ids(mails)
    ensures silence ==> r.1 == []
    ensures forall j :: 0 <= j < |r.1| ==> r.1[j] in mails
    ensures Ids(r.1) !! seen
    ensures !silence ==> Ids(mails) - seen <= Ids(r.1)
    ensures DistinctIds(r.1)
    decreases |mails|
  {
    if |mails| == 0 then (seen, [])
    else
      var id := MailId(mails[0]);
      if id in seen then
        var r := Dedup(mails[1..], seen, silence);
        InTail(mails, r.1);
        r
      else
        var (seen', rest) := Dedup(mails[1..], seen + {id}, silence);
        var notified := if silence then rest else [mails[0]] + rest;
        InTail(mails, rest);
        DistinctCons(mails[0], seen, rest);
        (seen', notified)
  }

  /** Mails taken from the tail of a batch are mails of the batch, and so is its head. */
  lemma InTail(mails: seq<Envelope>, picked: seq<Envelope>)
    requires |mails| > 0
    requires forall j :: 0 <= j < |picked| ==> picked[j] in mails[1..]
    ensures forall j :: 0 <= j < |picked| ==> picked[j] in mails
    ensures forall j :: 0 <= j < |[mails[0]] + picked| ==> ([mails[0]] + picked)[j] in mails
  {
    forall j | 0 <= j < |picked|
      ensures picked[j] in mails
    {
      var i :| 0 <= i < |mails[1..]| && mails[1..][i] == picked[j];
      assert mails[i + 1] == picked[j];
    }
    forall j | 0 <= j < |[mails[0]] + picked|
      ensures ([mails[0]] + picked)[j] in mails
    {
      if j > 0 {
        assert ([mails[0]] + picked)[j] == picked[j - 1];
      }
    }
  }

  /** A mail whose identifier none of `rest` carries can be put in front keeping identifiers distinct. */
  lemma DistinctCons(head: Envelope, seen: set<string>, rest: seq<Envelope>)
    requires Ids(rest) !! seen + {MailId(head)}
    requires DistinctIds(rest)
    ensures DistinctIds([head] + rest)
  {
    var n := [head] + rest;
    forall j, k | 0 <= j < k < |n|
      ensures MailId(n[j]) != MailId(n[k])
    {
      assert n[k] == rest[k - 1];
      assert MailId(rest[k - 1]) in Ids(rest);
      if j > 0 {
        assert n[j] == rest[j - 1];
      }
    }
  }

  /** The result of one listener step: the new state, the mails to notify, and what the step did. */
  datatype StepOut = StepOut(
    next: Listener,
    notified: seq<Envelope>,
    fetched: bool,
    reconnect: bool,
    warn: bool)

  /** reconnect: the counter goes back to 0 and a new listener takes over with the same account copy. */
  function Reconnect(l: Listener): (r: Listener)
    ensures Checks(r) == 0 && r.error == l.error && r.silence == l.silence && r.seen == l.seen
  {
    l.(checks := Some(0))
  }

  /**
    One pass of the listener loop. With 15 or more checks on the connection
    it reconnects without fetching. Otherwise it fetches: a failure with
    code 0 and an error record counts a retry, or after 10 retries a login
    error and a reconnect; any other outcome ends with silence cleared and
    the counter one higher.
   */
  function Step(l: Listener, fetch: Fetch): (o: StepOut)
    ensures Checks(l) >= MaxRoomChecks ==> o.reconnect && !o.fetched && o.next == Reconnect(l) && o.notified == []
    ensures Checks(l) < MaxRoomChecks ==> o.fetched
    ensures o.fetched && !o.reconnect ==> Checks(o.next) == Checks(l) + 1 && !o.next.silence
    ensures o.reconnect ==> Checks(o.next) == 0 && o.next.silence == l.silence && o.next.seen == l.seen && o.notified == []
    ensures o.fetched && o.reconnect <==> Checks(l) < MaxRoomChecks && fetch == Failure(0) && l.error.Some? && l.error.value.retryCount >= MaxErrUntilReconnect
    ensures fetch.Failure? ==> o.next.seen == l.seen && o.notified == []
    ensures fetch.Failure? && (fetch.errCode != 0 || l.error.None?) ==> o.next.error == l.error
    ensures o.warn <==> o.fetched && fetch == Failure(0) && l.error.Some? && l.error.value.loginErrCount > TooManyLoginErrors
    ensures fetch.Batch? && o.fetched ==> o.next.seen == l.seen + Ids(fetch.mails) && o.next.error == l.error
    ensures fetch.Batch? && o.fetched ==> (o.next.seen, o.notified) == Dedup(fetch.mails, l.seen, l.silence)
  {
    if Checks(l) >= MaxRoomChecks then StepOut(Reconnect(l), [], false, true, false)
    else
      var counted := Some(Checks(l) + 1);
      match fetch
      case Failure(code) =>
        var (has, retries) := HasError(l);
        if code == 0 && has then
          var e := l.error.value;
          var warn := e.loginErrCount > TooManyLoginErrors;
          if retries < MaxErrUntilReconnect then
            StepOut(l.(error := Some(e.(retryCount := e.retryCount + 1)), silence := false, checks := counted), [], true, false, warn)
          else
            StepOut(Reconnect(l.(error := Some(ImapError(0, e.loginErrCount + 1)))), [], true, true, warn)
        else StepOut(l.(silence := false, checks := counted), [], true, false, false)
      case Batch(mails) =>
        var (seen, notified) := Dedup(mails, l.seen, l.silence);
        StepOut(l.(seen := seen, silence := false, checks := counted), notified, true, false, false)
  }

  /** A failure with code 0 and an error record below the limit counts one retry; at the limit it resets it and counts a login error. */
  lemma RetryCounting(l: Listener)
    requires Checks(l) < MaxRoomChecks && l.error.Some?
    ensures var o := Step(l, Failure(0));
      var e := l.error.value;
      (e.retryCount < MaxErrUntilReconnect ==> o.next.error == Some(ImapError(e.retryCount + 1, e.loginErrCount)) && !o.reconnect)
      && (e.retryCount >= MaxErrUntilReconnect ==> o.next.error == Some(ImapError(0, e.loginErrCount + 1)) && o.reconnect)
  {
  }

  /** The listener state after a sequence of steps. */
  function Run(l: Listener, fetches: seq<Fetch>): Listener
    decreases |fetches|
  {
    if |fetches| == 0 then l else Run(Step(l, fetches[0]).next, fetches[1..])
  }

  predicate AllBatches(fetches: seq<Fetch>) {
    forall i :: 0 <= i < |fetches| ==> fetches[i].Batch?
  }

  /** Successful fetches below the limit count one check each and never reconnect. */
  lemma {:induction false} BatchesCount(l: Listener, fetches: seq<Fetch>)
    requires AllBatches(fetches) && 0 <= Checks(l) && Checks(l) + |fetches| <= MaxRoomChecks
    ensures Checks(Run(l, fetches)) == Checks(l) + |fetches|
    decreases |fetches|
  {
    if |fetches| > 0 {
      var o := Step(l, fetches[0]);
      assert AllBatches(fetches[1..]) by {
        assert forall i :: 0 <= i < |fetches| - 1 ==> fetches[1..][i] == fetches[i + 1];
      }
      BatchesCount(o.next, fetches[1..]);
    }
  }

  /** A fresh connection is checked 15 times; the step after that reconnects without fetching. */
  lemma FifteenChecksThenReconnect(l: Listener, fetches: seq<Fetch>, f: Fetch)
    requires Checks(l) == 0 && |fetches| == MaxRoomChecks && AllBatches(fetches)
    ensures var o := Step(Run(l, fetches), f);
      o.reconnect && !o.fetched && Checks(o.next) == 0
  {
    BatchesCount(l, fetches);
  }

  predicate AllLoginFailures(fetches: seq<Fetch>) {
    forall i :: 0 <= i < |fetches| ==> fetches[i] == Failure(0)
  }

  /** Failures below both limits count one retry and one check each. */
  lemma {:induction false} FailuresCount(l: Listener, fetches: seq<Fetch>)
    requires AllLoginFailures(fetches) && l.error.Some?
    requires 0 <= Checks(l) && Checks(l) + |fetches| <= MaxRoomChecks
    requires l.error.value.retryCount + |fetches| <= MaxErrUntilReconnect
    ensures Checks(Run(l, fetches)) == Checks(l) + |fetches|
    ensures Run(l, fetches).error == Some(l.error.value.(retryCount := l.error.value.retryCount + |fetches|))
    decreases |fetches|
  {
    if |fetches| > 0 {
      var o := Step(l, fetches[0]);
      assert AllLoginFailures(fetches[1..]) by {
        assert forall i :: 0 <= i < |fetches| - 1 ==> fetches[1..][i] == fetches[i + 1];
      }
      FailuresCount(o.next, fetches[1..]);
    }
  }

  /** Ten failed fetches on a fresh connection are retried; the eleventh resets the retries, counts a login error and reconnects. */
  lemma TenRetriesThenReconnect(l: Listener, fetches: seq<Fetch>)
    requires Checks(l) == 0 && l.error == Some(ImapError(0, 0))
    requires |fetches| == MaxErrUntilReconnect && AllLoginFailures(fetches)
    ensures var o := Step(Run(l, fetches), Failure(0));
      o.fetched && o.reconnect && o.next.error == Some(ImapError(0, 1)) && Checks(o.next) == 0
  {
    FailuresCount(l, fetches);
  }

  /** A batch whose identifiers are all recorded already records nothing new and notifies nothing. */
  lemma {:induction false} DedupAllSeen(mails: seq<Envelope>, seen: set<string>, silence: bool)
    requires Ids(mails) <= seen
    ensures Dedup(mails, seen, silence) == (seen, [])
    decreases |mails|
  {
    if |mails| > 0 {
      assert MailId(mails[0]) in seen;
      assert Ids(mails[1..]) <= Ids(mails);
      DedupAllSeen(mails[1..], seen, silence);
    }
  }

  /** Fetching the same batch again notifies nothing: every identifier is already recorded. */
  lemma RefetchNotifiesNothing(l: Listener, mails: seq<Envelope>)
    requires Checks(l) + 1 < MaxRoomChecks
    ensures var o := Step(l, Batch(mails));
      var o2 := Step(o.next, Batch(mails));
      o2.notified == [] && o2.next.seen == o.next.seen
  {
    var o := Step(l, Batch(mails));
    DedupAllSeen(mails, o.next.seen, o.next.silence);
  }

  /** setMailbox: the room's recorded mail is purged and the listener restarts silent. */
  function Restart(l: Listener): (r: Listener)
    ensures r.seen == {} && r.silence
    ensures r.checks == l.checks && r.error == l.error
  {
    l.(seen := {}, silence := true)
  }

  /** When only the last mail of a batch is new, it is the only one notified. */
  lemma {:induction false} DedupOnlyLast(mails: seq<Envelope>, seen: set<string>)
    requires |mails| > 0 && MailId(mails[|mails| - 1]) !in seen
    requires forall i :: 0 <= i < |mails| - 1 ==> MailId(mails[i]) in seen
    ensures Dedup(mails, seen, false).1 == [mails[|mails| - 1]]
    decreases |mails|
  {
    if |mails| > 1 {
      assert MailId(mails[0]) in seen;
      DedupOnlyLast(mails[1..], seen);
    } else {
      assert Dedup(mails[1..], seen + {MailId(mails[0])}, false).1 == [];
    }
  }

  /**
    After a mailbox change the first batch is recorded without a single
    notification, and a new mail in the next batch is notified.
   */
  lemma SilentCycleThenNotify(l: Listener, earlier: seq<Envelope>, newMail: Envelope)
    requires Checks(l) + 1 < MaxRoomChecks
    requires MailId(newMail) !in Ids(earlier)
    ensures var o := Step(Restart(l), Batch(earlier));
      var o2 := Step(o.next, Batch(earlier + [newMail]));
      o.notified == [] && o.next.seen == Ids(earlier) && o2.notified == [newMail]
  {
    var o := Step(Restart(l), Batch(earlier));
    assert o.next.seen == Ids(earlier);
    var mails := earlier + [newMail];
    assert forall i :: 0 <= i < |mails| - 1 ==> MailId(mails[i]) in Ids(earlier) by {
      assert forall i :: 0 <= i < |mails| - 1 ==> mails[i] == earlier[i];
    }
    DedupOnlyLast(mails, Ids(earlier));
    var o2 := Step(o.next, Batch(mails));
    assert o2.notified == Dedup(mails, o.next.seen, o.next.silence).1;
  }

  // ------------------------------------------------------ quit channels

  /** listenerMap: each room's quit channel, true once it has been closed. */
  type Channels = map<RoomId, bool>

  /** A channel that is closed already: closing it again is a run-time panic in Go. */
  predicate ClosedChannel(m: Channels, room: RoomId) {
    room in m && m[room]
  }

  /**
    stopMailChecker as written: the room's channel is closed and its entry
    kept, because the delete after the close is commented out. The caller
    must not stop a room twice: a second close of the same channel panics.
   */
  function StopAsWritten(m: Channels, room: RoomId): (r: Channels)
    requires !ClosedChannel(m, room)
    ensures r.Keys == m.Keys
    ensures room in m ==> ClosedChannel(r, room)
    ensures forall other :: other in m && other != room ==> r[other] == m[other]
  {
    if room in m then m[room := true] else m
  }

  /** Two stops of a running listener (two !logout in a row) close one channel twice. */
  lemma DoubleStopPanics(m: Channels, room: RoomId)
    requires room in m && !m[room]
    ensures ClosedChannel(StopAsWritten(m, room), room)
  {
  }

  /** stopMailChecker as intended: the channel is closed and its entry removed. */
  function Stop(m: Channels, room: RoomId): (r: Channels)
    ensures !ClosedChannel(r, room) && room !in r
    ensures r.Keys == m.Keys - {room}
    ensures forall other :: other in r ==> r[other] == m[other]
  {
    m - {room}
  }

  /** With the entry removed, stopping again is harmless and changes nothing. */
  lemma StopTwice(m: Channels, room: RoomId)
    ensures !ClosedChannel(Stop(m, room), room)
    ensures Stop(Stop(m, room), room) == Stop(m, room)
  {
  }

  /** startMailListener: a fresh, open quit channel for the room. */
  function Start(m: Channels, room: RoomId): (r: Channels)
    ensures room in r && !r[room]
    ensures r.Keys == m.Keys + {room}
    ensures forall other :: other in m && other != room ==> r[other] == m[other]
  {
    m[room := false]
  }
}

=== FILE: setup.dfy ===
/**
  The `!setup` chat command: parsing of its comma-separated argument and the
  creation of an IMAP (inbound) or SMTP (outbound) binding for the room.
 */
module Setup {
  import opened Optional
  import opened GoStrings
  import opened GoConv
  import opened Accounts

  /** What setup answers in the room, one constructor per message. */
  datatype Reply =
    | WrongSyntax
    | UnsupportedKind(kind: string)
    | NotImplemented
    | ImapAlreadyExisting
    | ImapEmailInUse
    | ImapLoginFailed
    | BridgeCreated(created: ImapAccount)
    | SmtpAlreadyExisting
    | SmtpEmailInUse
    | NoPortUsing587
    | PortNotANumber
    | SmtpSaved(saved: SmtpAccount)

  /** The registry after the command, the replies, and the IMAP account whose listener is started. */
  datatype Outcome = Outcome(registry: Registry, replies: seq<Reply>, listener: Option<ImapAccount>)

  /** The comma-separated fields: "!setup" removed everywhere, outer spaces trimmed. */
  function Fields(message: string): seq<string> {
    Split(Trim(ReplaceAll(message, "!setup", ""), ' '), ',')
  }

  /** strings.ReplaceAll(s, " ", ""): every space deleted, everything else kept in order. */
  function NoSpaces(s: string): (r: string)
    ensures ' ' !in r
    ensures r == DropChar(s, ' ')
  {
    var r := ReplaceAll(s, " ", "");
    ReplaceAllDrop(s, ' ');
    r
  }

  /** Text without spaces passes through NoSpaces unchanged. */
  lemma NoSpacesKeeps(s: string)
    requires ' ' !in s
    ensures NoSpaces(s) == s
  {
    ContainsChar(s, ' ');
    ReplaceAllAbsent(s, " ", "");
  }

  /** The ignoreSSL flag read from field `index` when it is the last field; false otherwise or when unparsable. */
  function IgnoreSSLField(fields: seq<string>, index: nat): (b: bool)
    ensures b <==> |fields| == index + 1 && NoSpaces(fields[index]) in TrueWords
  {
    if |fields| == index + 1 then ParseBool(NoSpaces(fields[index])).GetOr(false) else false
  }

  /** The IMAP host: ":993" is appended when no port is given. */
  function ImapHost(host: string): (r: string)
    ensures ':' in r
    ensures HasPrefix(r, host)
    ensures ':' in host ==> r == host
    ensures ':' !in host ==> Cut(r, ':').0 == host && Cut(r, ':').1 == "993"
  {
    if ':' in host then host
    else
      var r := host + ":993";
      CutFirst(r, host, ':');
      assert r[..|host| + 1] == host + [':'];
      r
  }

  datatype Endpoint = Endpoint(host: string, port: int)

  /**
    The SMTP endpoint: port 587 when no ':' is given; otherwise the host is
    the text before the first ':' and the port is Atoi of the (trimmed) text
    between the first and a possible second ':'. None when that is no number.
   */
  function SmtpEndpoint(host: string): (r: Option<Endpoint>)
    ensures ':' !in host ==> r == Some(Endpoint(host, 587))
    ensures ':' in host && r.Some? ==> ':' !in r.value.host && HasPrefix(host, r.value.host + ":")
    ensures ':' in host ==> (r.None? <==> Atoi(Trim(Split(host, ':')[1], ' ')).None?)
    ensures ':' in host && r.Some? ==>
      r.value.host == Split(host, ':')[0] && Atoi(Trim(Split(host, ':')[1], ' ')) == Some(r.value.port)
  {
    if ':' !in host then Some(Endpoint(host, 587))
    else
      var parts := Split(host, ':');
      JoinSplit(host, ':');
      assert host == parts[0] + ":" + Join(parts[1..], ":");
      assert (parts[0] + ":" + Join(parts[1..], ":"))[..|parts[0]| + 1] == parts[0] + ":";
      match Atoi(Trim(parts[1], ' '))
      case None => None
      case Some(port) => Some(Endpoint(parts[0], port))
  }

  /**
    The account the IMAP branch would bind: spaces removed from every field,
    ":993" when the host names no port, "INBOX" without a fifth field,
    ignoreSSL from a sixth field.
   */
  function ImapAccountOf(f: seq<string>): ImapAccount
    requires 4 <= |f| <= 6
  {
    ImapAccount(
      ImapHost(NoSpaces(f[1])), NoSpaces(f[2]), NoSpaces(f[3]),
      if |f| >= 5 then NoSpaces(f[4]) else "INBOX",
      IgnoreSSLField(f, 5))
  }

  /** The IMAP branch of setup, after the field count and kind checks. */
  function SetupImap(reg: Registry, room: RoomId, f: seq<string>, interval: int, login: ImapAccount -> bool): (r: Outcome)
    requires 4 <= |f| <= 6
    ensures UniqueUsernames(reg) ==> UniqueUsernames(r.registry)
    ensures forall other :: other != room ==> (other in reg <==> other in r.registry)
    ensures forall other :: other in reg && other != room ==> r.registry[other] == reg[other]
    ensures r.registry != reg <==> r.listener.Some?
    ensures r.listener.Some? ==> r.replies == [BridgeCreated(r.listener.value)]
    ensures r.listener.Some? ==> !HasImap(reg, room) && HasImap(r.registry, room) && r.registry[room].inbound == r.listener
    ensures r.listener.Some? ==> login(r.listener.value) && r.listener.value == ImapAccountOf(f)
    ensures HasImap(reg, room) ==> r == Outcome(reg, [ImapAlreadyExisting], None)
    ensures !HasImap(reg, room) && ImapUsernameInUse(reg, NoSpaces(f[2])) ==> r == Outcome(reg, [ImapEmailInUse], None)
    ensures !HasImap(reg, room) && !ImapUsernameInUse(reg, NoSpaces(f[2])) ==>
      (r.listener.Some? <==> login(ImapAccountOf(f)))
    ensures !HasImap(reg, room) && !ImapUsernameInUse(reg, NoSpaces(f[2])) && !login(ImapAccountOf(f)) ==>
      r == Outcome(reg, [ImapLoginFailed], None)
    ensures r.listener.Some? ==>
      var a := r.listener.value;
      && a.host == (if ':' in NoSpaces(f[1]) then NoSpaces(f[1]) else NoSpaces(f[1]) + ":993")
      && a.username == NoSpaces(f[2]) && ' ' !in a.username
      && a.password == NoSpaces(f[3]) && ' ' !in a.password
      && a.mailbox == (if |f| >= 5 then NoSpaces(f[4]) else "INBOX")
      && (a.ignoreSSL <==> |f| == 6 && NoSpaces(f[5]) in TrueWords)
  {
    var account := ImapAccountOf(f);
    if HasImap(reg, room) then Outcome(reg, [ImapAlreadyExisting], None)
    else if ImapUsernameInUse(reg, account.username) then Outcome(reg, [ImapEmailInUse], None)
    else if !login(account) then Outcome(reg, [ImapLoginFailed], None)
    else Outcome(BindImap(reg, room, account, interval), [BridgeCreated(account)], Some(account))
  }

  /**
    The SMTP branch of setup, after the field count and kind checks. The
    room's row is created before the port is read, so a port that is no
    number leaves a new room registered without accounts.
   */
  function SetupSmtp(reg: Registry, room: RoomId, f: seq<string>, interval: int): (r: Outcome)
    requires 4 <= |f| <= 6
    ensures UniqueUsernames(reg) ==> UniqueUsernames(r.registry)
    ensures forall other :: other != room ==> (other in reg <==> other in r.registry)
    ensures forall other :: other in reg && other != room ==> r.registry[other] == reg[other]
    ensures r.listener.None?
    ensures HasImap(r.registry, room) <==> HasImap(reg, room)
    ensures HasSmtp(r.registry, room) && !HasSmtp(reg, room) ==>
      |r.replies| > 0 && r.replies[|r.replies| - 1] == SmtpSaved(r.registry[room].outbound.value)
    ensures HasSmtp(reg, room) ==> r == Outcome(reg, [SmtpAlreadyExisting], None)
    ensures !HasSmtp(reg, room) && SmtpUsernameInUse(reg, NoSpaces(f[2])) ==> r == Outcome(reg, [SmtpEmailInUse], None)
    ensures !HasSmtp(reg, room) && !SmtpUsernameInUse(reg, NoSpaces(f[2])) ==>
      (HasSmtp(r.registry, room) <==> SmtpEndpoint(NoSpaces(f[1])).Some?)
    ensures !HasSmtp(reg, room) && !SmtpUsernameInUse(reg, NoSpaces(f[2])) && SmtpEndpoint(NoSpaces(f[1])).None? ==>
      r == Outcome(EnsureRoom(reg, room, interval), [PortNotANumber], None)
  {
    var host := NoSpaces(f[1]);
    var username := NoSpaces(f[2]);
    if HasSmtp(reg, room) then Outcome(reg, [SmtpAlreadyExisting], None)
    else if SmtpUsernameInUse(reg, username) then Outcome(reg, [SmtpEmailInUse], None)
    else
      var notice := if ':' in host then [] else [NoPortUsing587];
      match SmtpEndpoint(host)
      case None => Outcome(EnsureRoom(reg, room, interval), [PortNotANumber], None)
      case Some(ep) =>
        var account := SmtpAccount(ep.host, ep.port, username, NoSpaces(f[3]), IgnoreSSLField(f, 4));
        Outcome(BindSmtp(reg, room, account, interval), notice + [SmtpSaved(account)], None)
  }

  /** How the first field selects a branch. */
  datatype Kind = ImapKind | SmtpKind | OtherCase | Unsupported

  /**
    The branch the first field selects. The source first rejects kinds whose
    lower-case form is neither "imap" nor "smtp", then compares the field
    itself; KindCheck shows this order gives the same answer.
   */
  function KindOf(kind: string): (k: Kind)
    ensures k == ImapKind <==> kind == "imap"
    ensures k == SmtpKind <==> kind == "smtp"
  {
    if kind == "imap" then ImapKind
    else if kind == "smtp" then SmtpKind
    else if Lower(kind) in {"imap", "smtp"} then OtherCase
    else Unsupported
  }

  /** The kind check is case-insensitive: only kinds whose lower-case form is neither "imap" nor "smtp" are refused outright. */
  lemma KindCheck(kind: string)
    ensures KindOf(kind) == Unsupported <==> Lower(kind) !in {"imap", "smtp"}
  {
    if kind == "imap" {
      assert Lower(kind) == "imap";
    } else if kind == "smtp" {
      assert Lower(kind) == "smtp";
    }
  }

  /**
    `!setup kind, host, username, password[, mailbox][, ignoreSSL]`.
    `login` says whether the IMAP server accepts the account.
   */
  function Setup(reg: Registry, room: RoomId, message: string, interval: int, login: ImapAccount -> bool): (r: Outcome)
    ensures |Fields(message)| < 4 || |Fields(message)| > 6 ==> r == Outcome(reg, [WrongSyntax], None)
    ensures r.registry != reg ==> Fields(message)[0] in {"imap", "smtp"}
    ensures r.listener.Some? ==> r.replies == [BridgeCreated(r.listener.value)]
    ensures UniqueUsernames(reg) ==> UniqueUsernames(r.registry)
    ensures forall other :: other != room ==> (other in reg <==> other in r.registry)
    ensures forall other :: other in reg && other != room ==> r.registry[other] == reg[other]
    ensures r.listener.Some? ==> !HasImap(reg, room) && HasImap(r.registry, room) && r.registry[room].inbound == r.listener
    ensures r.listener.Some? ==> login(r.listener.value) && ':' in r.listener.value.host
    ensures r.listener.Some? ==> |Fields(message)| >= 4 && r.listener.value == ImapAccountOf(Fields(message))
  {
    var f := Fields(message);
    if |f| < 4 || |f| > 6 then Outcome(reg, [WrongSyntax], None)
    else
      match KindOf(f[0])
      case Unsupported => Outcome(reg, [UnsupportedKind(f[0])], None)
      case ImapKind => SetupImap(reg, room, f, interval, login)
      case SmtpKind => SetupSmtp(reg, room, f, interval)
      case OtherCase => Outcome(reg, [NotImplemented], None)
  }

  /**
    Capitalised spellings of the two kinds pass the check but select no
    branch; so does one starting with the dotted capital I (U+0130), which
    strings.ToLower turns into 'i'.
   */
  lemma CapitalisedKind(kind: string)
    requires kind in {"IMAP", "Imap", "\U{130}MAP", "\U{130}map", "SMTP", "Smtp"}
    ensures KindOf(kind) == OtherCase
  {
    var l := Lower(kind);
    assert |l| == 4;
    if kind in {"IMAP", "Imap", "\U{130}MAP", "\U{130}map"} {
      assert l[0] == 'i' && l[1] == 'm' && l[2] == 'a' && l[3] == 'p';
      assert l == "imap";
    } else {
      assert l[0] == 's' && l[1] == 'm' && l[2] == 't' && l[3] == 'p';
      assert l == "smtp";
    }
  }

  /** An upper-case kind passes the kind check and then matches no branch: "Not implemented yet!". */
  lemma SetupUpperCaseKind(reg: Registry, room: RoomId, message: string, interval: int, login: ImapAccount -> bool)
    requires 4 <= |Fields(message)| <= 6
    requires Fields(message)[0] in {"IMAP", "Imap", "\U{130}MAP", "\U{130}map", "SMTP", "Smtp"}
    ensures Setup(reg, room, message, interval, login) == Outcome(reg, [NotImplemented], None)
  {
    CapitalisedKind(Fields(message)[0]);
  }

  /**
    The outbound account setup creates: port 587 without ':', otherwise the
    host before the ':' and the number after it; ignoreSSL only from a
    parsable fifth field that is also the last one.
   */
  lemma SetupSmtpAccount(reg: Registry, room: RoomId, message: string, interval: int, login: ImapAccount -> bool)
    requires var f := Fields(message); 4 <= |f| <= 6 && f[0] == "smtp"
    requires !HasSmtp(reg, room) && !SmtpUsernameInUse(reg, NoSpaces(Fields(message)[2]))
    ensures var f := Fields(message);
      SmtpEndpoint(NoSpaces(f[1])).None? <==>
        Setup(reg, room, message, interval, login) == Outcome(EnsureRoom(reg, room, interval), [PortNotANumber], None)
    ensures var f := Fields(message);
      var ep := SmtpEndpoint(NoSpaces(f[1]));
      var r := Setup(reg, room, message, interval, login);
      ep.Some? ==> (HasSmtp(r.registry, room) &&
        var a := r.registry[room].outbound.value;
        && a.host == ep.value.host && a.port == ep.value.port
        && a.username == NoSpaces(f[2]) && a.password == NoSpaces(f[3])
        && (a.ignoreSSL <==> |f| == 5 && NoSpaces(f[4]) in TrueWords))
    ensures var f := Fields(message);
      var r := Setup(reg, room, message, interval, login);
      ':' !in NoSpaces(f[1]) ==> HasSmtp(r.registry, room) && r.registry[room].outbound.value.port == 587 && r.replies[0] == NoPortUsing587
  {
    var f := Fields(message);
    assert Setup(reg, room, message, interval, login) == SetupSmtp(reg, room, f, interval);
  }

  /**
    A room that got its inbox through setup refuses a second IMAP setup,
    whatever its account: "IMAP account already existing", nothing changes.
   */
  lemma SetupTwiceRefused(reg: Registry, room: RoomId, first: string, second: string, interval: int, login: ImapAccount -> bool)
    requires Setup(reg, room, first, interval, login).listener.Some?
    requires var f := Fields(second); 4 <= |f| <= 6 && f[0] == "imap"
    ensures var reg' := Setup(reg, room, first, interval, login).registry;
      Setup(reg', room, second, interval, login) == Outcome(reg', [ImapAlreadyExisting], None)
  {
  }

  /** A username bridged in another room is refused and creates nothing. */
  lemma SetupUsernameTaken(reg: Registry, room: RoomId, message: string, interval: int, login: ImapAccount -> bool)
    requires var f := Fields(message); 4 <= |f| <= 6 && f[0] == "imap"
    requires !HasImap(reg, room) && ImapUsernameInUse(reg, NoSpaces(Fields(message)[2]))
    ensures Setup(reg, room, message, interval, login) == Outcome(reg, [ImapEmailInUse], None)
  {
  }

  /**
    An IMAP setup in a room without an inbox, for a username no room uses,
    binds exactly when the server accepts the login; otherwise it answers
    the login failure and changes nothing.
   */
  lemma SetupImapBinds(reg: Registry, room: RoomId, message: string, interval: int, login: ImapAccount -> bool)
    requires var f := Fields(message); 4 <= |f| <= 6 && f[0] == "imap"
    requires !HasImap(reg, room) && !ImapUsernameInUse(reg, NoSpaces(Fields(message)[2]))
    ensures var a := ImapAccountOf(Fields(message));
      var r := Setup(reg, room, message, interval, login);
      && (login(a) ==> r.listener == Some(a) && r.replies == [BridgeCreated(a)] && HasImap(r.registry, room) && r.registry[room].inbound == Some(a))
      && (!login(a) ==> r == Outcome(reg, [ImapLoginFailed], None))
  {
    var f := Fields(message);
    assert Setup(reg, room, message, interval, login) == SetupImap(reg, room, f, interval, login);
  }

  /** An SMTP username bound in any room is refused and creates nothing. */
  lemma SetupSmtpUsernameTaken(reg: Registry, room: RoomId, message: string, interval: int, login: ImapAccount -> bool)
    requires var f := Fields(message); 4 <= |f| <= 6 && f[0] == "smtp"
    requires !HasSmtp(reg, room) && SmtpUsernameInUse(reg, NoSpaces(Fields(message)[2]))
    ensures Setup(reg, room, message, interval, login) == Outcome(reg, [SmtpEmailInUse], None)
  {
    var f := Fields(message);
    assert Setup(reg, room, message, interval, login) == SetupSmtp(reg, room, f, interval);
  }

  /**
    An SMTP setup with a port that is no number, in a room seen for the
    first time, still registers the room, without any account.
   */
  lemma SetupPortErrorKeepsRoom(reg: Registry, room: RoomId, message: string, interval: int, login: ImapAccount -> bool)
    requires var f := Fields(message); 4 <= |f| <= 6 && f[0] == "smtp"
    requires room !in reg && !SmtpUsernameInUse(reg, NoSpaces(Fields(message)[2]))
    requires SmtpEndpoint(NoSpaces(Fields(message)[1])).None?
    ensures var r := Setup(reg, room, message, interval, login);
      room in r.registry && !HasSmtp(r.registry, room) && !HasImap(r.registry, room) && r.replies == [PortNotANumber]
  {
    var f := Fields(message);
    assert Setup(reg, room, message, interval, login) == SetupSmtp(reg, room, f, interval);
  }
}

=== FILE: strings.dfy ===
/** The optional value used for Go's `(value, ok)` and `(value, err)` pairs. */
module Optional {

  datatype Option<+T> = None | Some(value: T) {

    /** The wrapped value, or `default` when there is none. */
    function GetOr(default: T): T {
      match this
      case Some(v) => v
      case None => default
    }
  }
}

/**
  The part of Go's `strings` package the bridge relies on, over `string`
  (a sequence of characters). Every separator the bridge splits or cuts on is
  a single character, so Split and Cut take a `char`.
 */
module GoStrings {

  predicate HasPrefix(s: string, prefix: string) {
    |prefix| <= |s| && s[..|prefix|] == prefix
  }

  predicate HasSuffix(s: string, suffix: string) {
    |suffix| <= |s| && s[|s| - |suffix|..] == suffix
  }

  /** `sub` starts at position `i` of `s`. */
  predicate OccursAt(s: string, sub: string, i: int) {
    0 <= i && i + |sub| <= |s| && s[i..i + |sub|] == sub
  }

  /** strings.Contains: `sub` occurs somewhere in `s` (the empty string occurs everywhere). */
  predicate Contains(s: string, sub: string) {
    exists i :: 0 <= i <= |s| - |sub| && OccursAt(s, sub, i)
  }

  /** For a one-character needle, Contains is sequence membership. */
  lemma ContainsChar(s: string, c: char)
    ensures Contains(s, [c]) <==> c in s
  {
    if c in s {
      var i :| 0 <= i < |s| && s[i] == c;
      assert OccursAt(s, [c], i);
    }
    if Contains(s, [c]) {
      var i :| 0 <= i <= |s| - 1 && OccursAt(s, [c], i);
      assert s[i] == s[i..i + 1][0] == c;
    }
  }

  /** The empty string contains nothing but the empty string. */
  lemma ContainsInEmpty(sub: string)
    ensures Contains("", sub) <==> sub == ""
  {
    if sub == "" {
      assert OccursAt("", sub, 0);
    }
  }

  /** An occurrence in a prefix of `s` is an occurrence in `s`. */
  lemma ContainsExtend(s: string, t: string, sub: string)
    requires Contains(s, sub)
    ensures Contains(s + t, sub)
  {
    var i :| 0 <= i <= |s| - |sub| && OccursAt(s, sub, i);
    assert (s + t)[i..i + |sub|] == s[i..i + |sub|];
    assert OccursAt(s + t, sub, i);
  }

  /** A string contains itself, also when something follows it. */
  lemma ContainsSelf(s: string, t: string)
    ensures Contains(s + t, s)
  {
    assert (s + t)[0..|s|] == s;
    assert OccursAt(s + t, s, 0);
  }

  /**
    strings.ReplaceAll for a non-empty `pat`: scanning left to right, every
    non-overlapping occurrence of `pat` is replaced by `rep`.
   */
  function ReplaceAll(s: string, pat: string, rep: string): string
    requires |pat| > 0
    decreases |s|
  {
    if |s| < |pat| then s
    else if s[..|pat|] == pat then rep + ReplaceAll(s[|pat|..], pat, rep)
    else [s[0]] + ReplaceAll(s[1..], pat, rep)
  }

  /** A string without the pattern comes back unchanged. */
  lemma {:induction false} ReplaceAllAbsent(s: string, pat: string, rep: string)
    requires |pat| > 0
    requires !Contains(s, pat)
    ensures ReplaceAll(s, pat, rep) == s
    decreases |s|
  {
    if |s| >= |pat| {
      assert !OccursAt(s, pat, 0);
      assert s[0..|pat|] == s[..|pat|];
      forall i | 0 <= i <= |s[1..]| - |pat|
        ensures !OccursAt(s[1..], pat, i)
      {
        assert !OccursAt(s, pat, i + 1);
        assert s[1..][i..i + |pat|] == s[i + 1..i + 1 + |pat|];
      }
      ReplaceAllAbsent(s[1..], pat, rep);
      assert [s[0]] + s[1..] == s;
    }
  }

  /** Every character of `s` is `c` (vacuously true of ""). */
  predicate AllChar(s: string, c: char) {
    forall i :: 0 <= i < |s| ==> s[i] == c
  }

  /** Deleting every `c` leaves nothing exactly when `s` consists of `c` only. */
  lemma {:induction false} ReplaceAllErases(s: string, c: char)
    ensures ReplaceAll(s, [c], "") == "" <==> AllChar(s, c)
    decreases |s|
  {
    if |s| > 0 {
      ReplaceAllErases(s[1..], c);
      assert s[..1] == [s[0]];
      assert AllChar(s, c) <==> s[0] == c && AllChar(s[1..], c) by {
        assert forall i :: 1 <= i < |s| ==> s[i] == s[1..][i - 1];
      }
    }
  }

  /** No character of `a` occurs in `b`. */
  predicate Disjoint(a: string, b: string) {
    forall i :: 0 <= i < |a| ==> a[i] !in b
  }

  /**
    When the replacement is non-empty, a prefix of the output free of
    replacement characters is a copy of the input's prefix: no replacement
    happened in it.
   */
  lemma {:induction false} ReplaceAllPrefix(t: string, pat: string, rep: string, k: nat)
    requires |pat| > 0 && |rep| > 0
    requires k <= |ReplaceAll(t, pat, rep)|
    requires forall i :: 0 <= i < k ==> ReplaceAll(t, pat, rep)[i] !in rep
    ensures k <= |t| && ReplaceAll(t, pat, rep)[..k] == t[..k]
    decreases |t|
  {
    var r := ReplaceAll(t, pat, rep);
    if |t| < |pat| {
    } else if t[..|pat|] == pat {
      assert k == 0 by {
        assert r[0] == rep[0];
      }
    } else if k > 0 {
      var tail := ReplaceAll(t[1..], pat, rep);
      assert r == [t[0]] + tail;
      forall i | 0 <= i < k - 1
        ensures tail[i] !in rep
      {
        assert tail[i] == r[i + 1];
      }
      ReplaceAllPrefix(t[1..], pat, rep, k - 1);
      assert r[..k] == [t[0]] + tail[..k - 1];
      assert t[..k] == [t[0]] + t[1..][..k - 1];
    }
  }

  /**
    The output of ReplaceAll no longer contains the pattern, provided the
    replacement cannot re-create it: it shares no character with the
    pattern and is either non-empty or replaces a single character.
   */
  lemma {:induction false} ReplaceAllRemoves(s: string, pat: string, rep: string)
    requires |pat| > 0
    requires Disjoint(rep, pat)
    requires |rep| > 0 || |pat| == 1
    ensures !Contains(ReplaceAll(s, pat, rep), pat)
    decreases |s|
  {
    if |s| < |pat| {
      assert ReplaceAll(s, pat, rep) == s;
    } else if s[..|pat|] == pat {
      var tail := ReplaceAll(s[|pat|..], pat, rep);
      ReplaceAllRemoves(s[|pat|..], pat, rep);
      assert ReplaceAll(s, pat, rep) == rep + tail;
      NoOccurAfterRep(rep, tail, pat);
    } else {
      var tail := ReplaceAll(s[1..], pat, rep);
      ReplaceAllRemoves(s[1..], pat, rep);
      HeadNoMatch(s, pat, rep, tail);
      assert ReplaceAll(s, pat, rep) == [s[0]] + tail;
      NoOccurAfterHead(s[0], tail, pat);
    }
  }

  /** Text sharing no character with the pattern cannot start or straddle an occurrence. */
  lemma NoOccurAfterRep(rep: string, tail: string, pat: string)
    requires |pat| > 0 && Disjoint(rep, pat) && !Contains(tail, pat)
    ensures !Contains(rep + tail, pat)
  {
    var r := rep + tail;
    forall i | 0 <= i <= |r| - |pat|
      ensures !OccursAt(r, pat, i)
    {
      if i < |rep| {
        assert r[i] == rep[i] && rep[i] !in pat;
        assert r[i..i + |pat|][0] == r[i];
      } else {
        assert !OccursAt(tail, pat, i - |rep|);
        assert r[i..i + |pat|] == tail[i - |rep|..i - |rep| + |pat|];
      }
    }
  }

  /** One character in front adds only the occurrence at 0. */
  lemma NoOccurAfterHead(c: char, tail: string, pat: string)
    requires |pat| > 0 && !Contains(tail, pat) && !OccursAt([c] + tail, pat, 0)
    ensures !Contains([c] + tail, pat)
  {
    var r := [c] + tail;
    forall i | 1 <= i <= |r| - |pat|
      ensures !OccursAt(r, pat, i)
    {
      assert !OccursAt(tail, pat, i - 1);
      assert r[i..i + |pat|] == tail[i - 1..i - 1 + |pat|];
    }
  }

  /**
    When the input does not start with the pattern, neither does the
    output: its first character is kept, and the rest of the window is a
    copy of the input unless a replacement character (never in the
    pattern) turns up in it.
   */
  lemma HeadNoMatch(s: string, pat: string, rep: string, tail: string)
    requires |pat| > 0 && Disjoint(rep, pat) && (|rep| > 0 || |pat| == 1)
    requires |s| >= |pat| && s[..|pat|] != pat
    requires tail == ReplaceAll(s[1..], pat, rep)
    ensures !OccursAt([s[0]] + tail, pat, 0)
  {
    var r := [s[0]] + tail;
    if |r| >= |pat| {
      if |pat| == 1 {
        assert r[0..1] == [s[0]] == s[..|pat|];
      } else if j :| 0 <= j < |pat| - 1 && tail[j] in rep {
        assert r[j + 1] == tail[j] && tail[j] !in pat;
        assert r[0..|pat|][j + 1] == r[j + 1];
      } else {
        ReplaceAllPrefix(s[1..], pat, rep, |pat| - 1);
        assert r[..|pat|] == [s[0]] + tail[..|pat| - 1];
        assert s[..|pat|] == [s[0]] + s[1..][..|pat| - 1];
      }
    }
  }

  /** Number of occurrences of `c` in `s`. */
  function CountChar(s: string, c: char): (n: nat)
    ensures n == 0 <==> c !in s
  {
    if |s| == 0 then 0 else (if s[0] == c then 1 else 0) + CountChar(s[1..], c)
  }

  /**
    strings.Split with a one-character separator: the pieces between the
    separators, in order; always at least one piece (Split("", sep) == [""]).
   */
  function Split(s: string, sep: char): (parts: seq<string>)
    ensures |parts| == CountChar(s, sep) + 1
    ensures forall i :: 0 <= i < |parts| ==> sep !in parts[i]
    decreases |s|
  {
    if |s| == 0 then [""]
    else
      var rest := Split(s[1..], sep);
      if s[0] == sep then [""] + rest
      else [[s[0]] + rest[0]] + rest[1..]
  }

  /** strings.Join. */
  function Join(parts: seq<string>, sep: string): string {
    if |parts| == 0 then ""
    else if |parts| == 1 then parts[0]
    else parts[0] + sep + Join(parts[1..], sep)
  }

  /** Joining the pieces of a split with the separator gives back the string. */
  lemma {:induction false} JoinSplit(s: string, sep: char)
    ensures Join(Split(s, sep), [sep]) == s
    decreases |s|
  {
    if |s| > 0 {
      var rest := Split(s[1..], sep);
      JoinSplit(s[1..], sep);
      assert s == [s[0]] + s[1..];
      if s[0] == sep {
        assert Split(s, sep) == [""] + rest;
        JoinEmptyFirst(rest, [sep]);
      } else {
        assert Split(s, sep) == [[s[0]] + rest[0]] + rest[1..];
        JoinExtendFirst(s[0], rest, [sep]);
      }
    }
  }

  /** An empty first piece contributes only the separator. */
  lemma JoinEmptyFirst(rest: seq<string>, sep: string)
    requires |rest| > 0
    ensures Join([""] + rest, sep) == sep + Join(rest, sep)
  {
    assert ([""] + rest)[1..] == rest;
  }

  /** A character put in front of the first piece is put in front of the joined text. */
  lemma JoinExtendFirst(c: char, rest: seq<string>, sep: string)
    requires |rest| > 0
    ensures Join([[c] + rest[0]] + rest[1..], sep) == [c] + Join(rest, sep)
  {
    var parts := [[c] + rest[0]] + rest[1..];
    if |rest| > 1 {
      assert parts[1..] == rest[1..];
    }
  }

  /** A string without the separator splits into itself. */
  lemma {:induction false} SplitNoSep(a: string, sep: char)
    requires sep !in a
    ensures Split(a, sep) == [a]
    decreases |a|
  {
    if |a| > 0 {
      SplitNoSep(a[1..], sep);
      assert [a[0]] + a[1..] == a;
    }
  }

  /** Splitting `a + sep + b` cuts at the first separator when `a` has none. */
  lemma {:induction false} SplitAtFirst(a: string, sep: char, b: string)
    requires sep !in a
    ensures Split(a + [sep] + b, sep) == [a] + Split(b, sep)
    decreases |a|
  {
    if |a| == 0 {
      assert a + [sep] + b == [sep] + b;
      assert ([sep] + b)[1..] == b;
    } else {
      var s := a + [sep] + b;
      var tail := Split(b, sep);
      assert s[0] == a[0] && s[0] != sep;
      assert s[1..] == a[1..] + [sep] + b;
      var rest := Split(s[1..], sep);
      assert rest == [a[1..]] + tail by {
        SplitAtFirst(a[1..], sep, b);
      }
      assert Split(s, sep) == [[s[0]] + rest[0]] + rest[1..];
      assert rest[0] == a[1..] && rest[1..] == tail;
      assert [a[0]] + a[1..] == a;
    }
  }

  /** Splitting a join of separator-free pieces gives the pieces back. */
  lemma {:induction false} SplitJoin(parts: seq<string>, sep: char)
    requires |parts| > 0
    requires forall i :: 0 <= i < |parts| ==> sep !in parts[i]
    ensures Split(Join(parts, [sep]), sep) == parts
    decreases |parts|
  {
    if |parts| == 1 {
      SplitNoSep(parts[0], sep);
    } else {
      SplitJoin(parts[1..], sep);
      SplitAtFirst(parts[0], sep, Join(parts[1..], [sep]));
      assert [parts[0]] + parts[1..] == parts;
    }
  }

  /**
    strings.Cut with a one-character separator: the text before the first
    separator, the text after it, and whether it was found.
   */
  function Cut(s: string, sep: char): (r: (string, string, bool))
    ensures r.2 <==> sep in s
    ensures sep !in r.0
    ensures r.2 ==> s == r.0 + [sep] + r.1
    ensures !r.2 ==> r.0 == s && r.1 == ""
    decreases |s|
  {
    if |s| == 0 then ("", "", false)
    else if s[0] == sep then ("", s[1..], true)
    else
      var r := Cut(s[1..], sep);
      assert s == [s[0]] + s[1..];
      ([s[0]] + r.0, r.1, r.2)
  }

  /** Cut finds the first separator: a one-word prefix followed by the separator is what it returns. */
  lemma {:induction false} CutFirst(s: string, w: string, sep: char)
    requires sep !in w
    ensures HasPrefix(s, w + [sep]) ==> Cut(s, sep).0 == w
    decreases |w|
  {
    if HasPrefix(s, w + [sep]) && |w| > 0 {
      assert s[0] == w[0] && s[0] != sep;
      assert HasPrefix(s[1..], w[1..] + [sep]) by {
        assert s[1..][..|w|] == s[..|w| + 1][1..];
      }
      CutFirst(s[1..], w[1..], sep);
      assert w == [w[0]] + w[1..];
    }
  }

  /** Cutting at the first separator of `w + [sep] + t` gives back `w` and `t`. */
  lemma CutAt(w: string, t: string, sep: char)
    requires sep !in w
    ensures Cut(w + [sep] + t, sep) == (w, t, true)
  {
    var s := w + [sep] + t;
    assert s[..|w| + 1] == w + [sep];
    CutFirst(s, w, sep);
    var r := Cut(s, sep);
    assert r.1 == s[|w| + 1..] == t;
  }

  /** strings.TrimLeft(s, cutset) for a one-character cutset. */
  function TrimLeft(s: string, c: char): (r: string)
    ensures |r| <= |s| && r == s[|s| - |r|..]
    ensures forall i :: 0 <= i < |s| - |r| ==> s[i] == c
    ensures |r| > 0 ==> r[0] != c
    decreases |s|
  {
    if |s| > 0 && s[0] == c then TrimLeft(s[1..], c) else s
  }

  /** strings.TrimRight(s, cutset) for a one-character cutset. */
  function TrimRight(s: string, c: char): (r: string)
    ensures |r| <= |s| && r == s[..|r|]
    ensures forall i :: |r| <= i < |s| ==> s[i] == c
    ensures |r| > 0 ==> r[|r| - 1] != c
    decreases |s|
  {
    if |s| > 0 && s[|s| - 1] == c then TrimRight(s[..|s| - 1], c) else s
  }

  /** `r` sits inside `s` with nothing but `c` on either side of it. */
  predicate PaddedBy(s: string, r: string, c: char) {
    exists i :: 0 <= i <= |s| - |r| && s[i..i + |r|] == r && AllChar(s[..i], c) && AllChar(s[i + |r|..], c)
  }

  /** TrimLeft then TrimRight strips padding only. */
  lemma TrimSides(s: string, c: char)
    ensures PaddedBy(s, TrimRight(TrimLeft(s, c), c), c)
    ensures OccursAt(s, TrimRight(TrimLeft(s, c), c), |s| - |TrimLeft(s, c)|)
  {
    var left := TrimLeft(s, c);
    var r := TrimRight(left, c);
    var i := |s| - |left|;
    assert left == s[i..];
    assert r == left[..|r|];
    assert s[i..i + |r|] == r;
    var pre := s[..i];
    forall j | 0 <= j < |pre|
      ensures pre[j] == c
    {
      assert pre[j] == s[j];
    }
    var post := s[i + |r|..];
    forall j | 0 <= j < |post|
      ensures post[j] == c
    {
      assert post[j] == left[|r| + j];
    }
    assert OccursAt(s, r, i);
    assert AllChar(pre, c) && AllChar(post, c);
  }

  /** strings.Trim(s, cutset) for a one-character cutset: both ends. */
  function Trim(s: string, c: char): (r: string)
    ensures |r| > 0 ==> r[0] != c && r[|r| - 1] != c
    ensures exists i :: OccursAt(s, r, i)
    ensures (forall i :: 0 <= i < |s| ==> s[i] == c) <==> r == ""
  {
    var r := TrimRight(TrimLeft(s, c), c);
    TrimSides(s, c);
    r
  }

  /**
    Trim removes exactly the padding: a text that neither starts nor ends
    with `c`, padded on both sides with `c` only, trims back to itself.
   */
  lemma TrimPadded(pre: string, r: string, post: string, c: char)
    requires AllChar(pre, c) && AllChar(post, c)
    requires |r| > 0 ==> r[0] != c && r[|r| - 1] != c
    ensures Trim(pre + r + post, c) == r
  {
    var s := pre + r + post;
    if |r| == 0 {
      forall j | 0 <= j < |s|
        ensures s[j] == c
      {
        if j < |pre| { assert s[j] == pre[j]; } else { assert s[j] == post[j - |pre|]; }
      }
    } else {
      TrimLeftPad(pre, r + post, c);
      assert s == pre + (r + post);
      TrimRightPad(r, post, c);
    }
  }

  /** TrimLeft removes a leading run of `c` and stops at the first other character. */
  lemma {:induction false} TrimLeftPad(pre: string, x: string, c: char)
    requires AllChar(pre, c)
    requires |x| > 0 ==> x[0] != c
    ensures TrimLeft(pre + x, c) == x
    decreases |pre|
  {
    if |pre| > 0 {
      assert (pre + x)[1..] == pre[1..] + x;
      TrimLeftPad(pre[1..], x, c);
    } else {
      assert pre + x == x;
    }
  }

  /** TrimRight removes a trailing run of `c` and stops at the last other character. */
  lemma {:induction false} TrimRightPad(x: string, post: string, c: char)
    requires AllChar(post, c)
    requires |x| > 0 ==> x[|x| - 1] != c
    ensures TrimRight(x + post, c) == x
    decreases |post|
  {
    var s := x + post;
    if |post| > 0 {
      assert s[..|s| - 1] == x + post[..|post| - 1];
      TrimRightPad(x, post[..|post| - 1], c);
    } else {
      assert s == x;
    }
  }

  /** Trim strips padding only: what it returns sits in `s` between two runs of `c`. */
  lemma TrimStrips(s: string, c: char)
    ensures PaddedBy(s, Trim(s, c), c)
  {
    TrimSides(s, c);
  }

  /** Trimming a string that has no `c` at all leaves it alone. */
  lemma TrimWithout(s: string, c: char)
    requires c !in s
    ensures Trim(s, c) == s
  {
  }

  /** `s` with every `c` deleted, keeping the order of the other characters. */
  function DropChar(s: string, c: char): (r: string)
    ensures c !in r
    ensures |r| == |s| - CountChar(s, c)
  {
    if |s| == 0 then "" else (if s[0] == c then "" else [s[0]]) + DropChar(s[1..], c)
  }

  /** Replacing a one-character pattern by nothing deletes that character. */
  lemma {:induction false} ReplaceAllDrop(s: string, c: char)
    ensures ReplaceAll(s, [c], "") == DropChar(s, c)
    decreases |s|
  {
    if |s| > 0 {
      ReplaceAllDrop(s[1..], c);
      assert s[..1] == [s[0]];
    }
  }

  /**
    ReplaceAll over `a + pat + b` when no occurrence of `pat` starts inside
    `a`: `a` is copied, the occurrence after it is replaced, and the scan
    goes on in `b`.
   */
  lemma {:induction false} ReplaceAllSplice(a: string, pat: string, rep: string, b: string)
    requires |pat| > 0
    requires forall i :: 0 <= i < |a| ==> !OccursAt(a + pat + b, pat, i)
    ensures ReplaceAll(a + pat + b, pat, rep) == a + rep + ReplaceAll(b, pat, rep)
    decreases |a|
  {
    var s := a + pat + b;
    if |a| == 0 {
      assert s == pat + b;
      ReplaceAllHead(pat, rep, b);
    } else {
      var s' := a[1..] + pat + b;
      assert s[1..] == s';
      ReplaceAllSkip(s, pat, rep);
      forall i | 0 <= i < |a[1..]|
        ensures !OccursAt(s', pat, i)
      {
        OccursShift(s, pat, i);
      }
      ReplaceAllSplice(a[1..], pat, rep, b);
      assert a == [a[0]] + a[1..];
    }
  }

  /** An occurrence in the tail is one position further right in the whole. */
  lemma OccursShift(s: string, pat: string, i: nat)
    requires |s| > 0
    ensures OccursAt(s[1..], pat, i) <==> OccursAt(s, pat, i + 1)
  {
    if i + |pat| <= |s[1..]| {
      assert s[1..][i..i + |pat|] == s[i + 1..i + 1 + |pat|];
    }
  }

  /** An occurrence at the very start is replaced first. */
  lemma ReplaceAllHead(pat: string, rep: string, b: string)
    requires |pat| > 0
    ensures ReplaceAll(pat + b, pat, rep) == rep + ReplaceAll(b, pat, rep)
  {
    var s := pat + b;
    assert s[..|pat|] == pat && s[|pat|..] == b;
  }

  /** Without an occurrence at the start, the first character is copied. */
  lemma ReplaceAllSkip(s: string, pat: string, rep: string)
    requires |pat| > 0 && |s| >= |pat| && !OccursAt(s, pat, 0)
    ensures ReplaceAll(s, pat, rep) == [s[0]] + ReplaceAll(s[1..], pat, rep)
  {
    assert s[0..|pat|] == s[..|pat|];
  }

  /**
    No occurrence of `pat` starts inside `a` in `a + pat + b` when some
    character of `pat` is absent from `a` and from the part of `pat` before it.
   */
  lemma NoStartBefore(a: string, pat: string, b: string, k: nat)
    requires k < |pat| && pat[k] !in a
    requires forall j :: 0 <= j < k ==> pat[j] != pat[k]
    ensures forall i :: 0 <= i < |a| ==> !OccursAt(a + pat + b, pat, i)
  {
    var s := a + pat + b;
    forall i | 0 <= i < |a|
      ensures !OccursAt(s, pat, i)
    {
      if i + |pat| <= |s| {
        if i + k < |a| {
          assert s[i + k] == a[i + k];
        } else {
          assert s[i + k] == pat[i + k - |a|];
        }
        assert s[i..i + |pat|][k] != pat[k];
      }
    }
  }

  /** The number of bytes of `c` in UTF-8. */
  function Utf8Width(c: char): nat {
    if c as int < 0x80 then 1
    else if c as int < 0x800 then 2
    else if c as int < 0x1_0000 then 3
    else 4
  }

  /** Go's `len` of a string: its length in UTF-8 bytes. */
  function ByteLen(s: string): (n: nat)
    ensures n >= |s|
    ensures n == |s| <==> forall i :: 0 <= i < |s| ==> s[i] as int < 0x80
  {
    if |s| == 0 then 0
    else
      var rest := ByteLen(s[1..]);
      assert (forall i :: 0 <= i < |s| ==> s[i] as int < 0x80) <==>
             s[0] as int < 0x80 && (forall i :: 0 <= i < |s[1..]| ==> s[1..][i] as int < 0x80) by {
        assert forall i :: 1 <= i < |s| ==> s[i] == s[1..][i - 1];
      }
      Utf8Width(s[0]) + rest
  }

  /** A non-ASCII character makes the byte length exceed the character count: "\u00e9@b.c" has five characters and six bytes. */
  lemma ByteLenOfAccented()
    ensures |"\U{E9}@b.c"| == 5 && ByteLen("\U{E9}@b.c") == 6
  {
    var s := "\U{E9}@b.c";
    assert s[1..] == "@b.c" && ByteLen("@b.c") == 4;
  }

  /**
    Lower-casing of one character, for every character whose lower-case
    form is an ASCII letter: A-Z, the dotted capital I (U+0130) and the
    Kelvin sign (U+212A). Every other character is kept.
   */
  function LowerChar(c: char): char {
    if 'A' <= c <= 'Z' then (c as int + 32) as char
    else if c == '\U{130}' then 'i'
    else if c == '\U{212A}' then 'k'
    else c
  }

  /**
    strings.ToLower as far as a comparison with a lower-case ASCII word can
    tell: each character is mapped by LowerChar.
   */
  function Lower(s: string): (r: string)
    ensures |r| == |s|
    ensures forall i :: 0 <= i < |s| ==> r[i] == LowerChar(s[i])
  {
    seq(|s|, i requires 0 <= i < |s| => LowerChar(s[i]))
  }
}
